=== FILE: README.md ===
# X12 parser core, modelled in Dafny

This project models the core of imsweb/x12-parser, a Java library. The
library reads ANSI X12 EDI documents (835 remittances, 837 claims, 270/271
eligibility, 277 status) into a tree of loops, checks them against a
transaction schema and writes the tree back out.

The model covers these pieces:

- **The data model.** An `Element` has an identifier, a value and
  composite pieces. A `Segment` is an identifier plus elements. The
  `Separators` hold the segment, element and composite delimiters and a
  line break. `Loop`s are held in an arena `Tree`: a loop is an index, its
  children are a list of indices, and its parent is a back-index.
- **The transaction schema** (`LoopDef`, `SegmentDef`, `ElementDef`,
  `CompositeDef`). It comes with the `Positioned` order and the
  `TreeSet` merge that the writer walks.
- **The reader (`X12Reader`).**
  - It reads the three delimiters from the 106-character ISA segment.
  - It checks the implementation version in the next segment.
  - It flattens the schema into `LoopConfig`s.
  - For each line it decides whether the line starts or ends a loop
    (getMatchedLoop, isChildSegment, getFinalizedMatch).
  - It files the lines into the tree (storeData, findParentLoop,
    appendEndingSegment, the child-loop tracker).
  - It validates each loop's lines against the schema (validateLines,
    validateSegments, the code and required-element checks).
  - After a clean parse it reports loop repeat and required-child errors
    (checkLoopErrors, compareRepeats).
- **The writer (`X12Writer`).** It prints every top-level loop in schema
  order (`Loop.toX12String`), with an optional line break after each
  segment.

All state is immutable and every operation is a pure function.
- A Java exception becomes a `Failure` of the `Result` type, naming the
  exception (`NullPointer`, `IndexOutOfBounds`, `NumberFormat`).
- A Java `null` is `None`.
- The reader's error lists and its loop tree are fields of a `Reader`
  value, which each step returns updated.

`java.lang.String.compareTo` (on characters rather than UTF-16 code
units), `String.trim`, `Integer.parseInt` and `Pattern.split` (for a
quoted one-character pattern) are modelled in `strings.dfy` and
`tokens.dfy`.

The modules follow the source files:

| module | file | models |
|---|---|---|
| `Strings`, `Tokens` | `strings.dfy`, `tokens.dfy` | the `java.lang` and `Pattern.split` behaviour the code relies on |
| `X12Separators` | `separators.dfy` | `Separators` |
| `X12Element` | `element.dfy` | `Element` |
| `X12Segment` | `segment.dfy` | `Segment` |
| `X12Loop` | `loop.dfy` | `Loop`: the arena, and adding, setting and removing child loops |
| `X12LoopSegments` | `loopsegments.dfy` | `Loop`: adding, setting and removing a loop's own segments |
| `X12LoopSearch` | `loopsearch.dfy` | `Loop`'s downward lookups: findLoop, hasLoop, getLoop, getSegment, getElement |
| `X12LoopWalk` | `loopwalk.dfy` | `Loop`'s findTopParentById, size and toString, and the effect of edits on the lookups |
| `Mapping` | `mapping.dfy` | the schema classes and `Positioned` |
| `X12LoopConfig` | `loopconfig.dfy` | `LoopConfig`, and the reader's config table |
| `X12Header` | `header.dfy` | getSeparators, checkVersionsAreConsistent and `FileType` |
| `X12Schema` | `schema.dfy` | the reader's schema queries |
| `X12Codes` | `codes.dfy` | the reader's code lists and required positions |
| `X12Validate` | `validate.dfy` | the reader's validators and compareRepeats |
| `X12Match` | `match.dfy` | getMatchedLoop and its helpers |
| `X12Store` | `store.dfy` | storeData, findParentLoop, the tracker, appendEndingSegment |
| `X12LoopErrors` | `looperrors.dfy` | checkLoopErrors |
| `X12Reader` | `reader.dfy` | parse |
| `X12Writer` | `writer.dfy` | `X12Writer` and `Loop.toX12String` |

Source paths in the table below are relative to the repository root.

## Model

| member | source | states |
|---|---|---|
| Strings.CompareToZeroIff | src/main/java/com/imsweb/x12/mapping/Positioned.java:10-16 | String.compareTo, as the schema order uses it, is zero exactly for equal strings |
| Strings.CompareToTransitive | src/main/java/com/imsweb/x12/mapping/Positioned.java:10-16 | String.compareTo orders strings transitively |
| Strings.CompareToNumericOnEqualWidth | src/main/java/com/imsweb/x12/mapping/Positioned.java:10-16 | on digit strings of equal width, the textual order of positions agrees in sign with their numeric order |
| Strings.CompareToDisagreesWithNumericOnUnequalWidth | src/main/java/com/imsweb/x12/mapping/Positioned.java:10-16 | example: "10" sorts before "9" as text, although the reader's position check reads them as 10 > 9 |
| Strings.NatToStringValue | src/main/java/com/imsweb/x12/reader/X12Reader.java:370 | the iteration number printed in a missing-child message reads back as that number |
| Strings.ParseInt | src/main/java/com/imsweb/x12/reader/X12Reader.java:907-913 | Integer.parseInt succeeds exactly for an optional '+' or '-' followed by at least one digit whose signed value fits in 32 bits, and returns that signed value; the empty text, a bare sign, any other character and a value out of range throw NumberFormatException |
| Strings.ParseIntToString | src/main/java/com/imsweb/x12/reader/X12Reader.java:907-913 | every 32-bit value, negative ones included, printed in decimal parses back to itself |
| Strings.ParseIntExamples | src/main/java/com/imsweb/x12/reader/X12Reader.java:907-913 | example: "-12" and "+7" parse with their sign; "-", "" and "1a" throw |
| Strings.Trim | src/main/java/com/imsweb/x12/reader/X12Reader.java:246 | String.trim is a middle part of the line that starts and ends above U+0020, and is empty exactly when every character is at or below U+0020 |
| Tokens.JoinSplit | src/main/java/com/imsweb/x12/Separators.java:104-114 | joining the pieces of a split restores the line, less the delimiters that trailed it |
| Tokens.SplitJoin | src/main/java/com/imsweb/x12/Separators.java:104-114 | splitting joined pieces gives them back when none holds the delimiter and the last is not empty |
| Tokens.SplitEmptyIff | src/main/java/com/imsweb/x12/Separators.java:104-114 | the split has no pieces exactly when the line is non-empty and made only of delimiters |
| X12Separators.SplitOn | src/main/java/com/imsweb/x12/Separators.java:104-114 | an unset delimiter splits into nothing; a set one splits into pieces that join back to the line |
| X12Separators.SameDelimitersIff | src/main/java/com/imsweb/x12/Separators.java:142-149 | equals compares the three delimiters and ignores the line break |
| X12Separators.Separators.ToString | src/main/java/com/imsweb/x12/Separators.java:100-102 | toString is bracketed; with all three delimiters set it is exactly "[s,e,c]"; an unset segment delimiter prints as "null" followed by the comma |
| X12Separators.ToStringRoundTrip | src/main/java/com/imsweb/x12/Separators.java:100-102 | the text toString prints reads back as the same three delimiters, each set one or "null" |
| X12Separators.ToStringInjective | src/main/java/com/imsweb/x12/Separators.java:100-102 | two separators print the same text exactly when equals holds for them |
| X12Separators.Make | src/main/java/com/imsweb/x12/Separators.java:38-43 | the three-delimiter constructor keeps each delimiter as given and sets no line break; it equals the default separators exactly when given '~', '*' and ':' |
| X12Element.NewElement | src/main/java/com/imsweb/x12/Element.java:37-58 | the constructor throws IllegalStateException exactly for a missing or empty identifier; a null value is stored as the empty string |
| X12Element.Element.SetValue | src/main/java/com/imsweb/x12/Element.java:80-86 | setValue replaces the value and appends exactly the Pattern.split pieces of the new value to the old sub-values; a null value or an unset composite delimiter appends nothing |
| X12Element.SetValueAccumulates | src/main/java/com/imsweb/x12/Element.java:80-86 | setting two values in turn keeps the composite pieces of both, because the sub-values are never cleared |
| X12Element.Element.GetSubElement | src/main/java/com/imsweb/x12/Element.java:92-97 | getSubElement is the i-th composite piece, or null past the end |
| X12Element.CompositeRoundTrip | src/main/java/com/imsweb/x12/Segment.java:188-196 | a composite value built from delimiter-free pieces yields those pieces back as sub-values |
| X12Segment.ElementNameEncodesPosition | src/main/java/com/imsweb/x12/Segment.java:151-165 | the name addElements gives an element ends in its position, in two digits below 100 |
| X12Segment.ElementNamesDistinct | src/main/java/com/imsweb/x12/Segment.java:151-165 | different positions give different element names |
| X12Segment.Segment.AddElementsText | src/main/java/com/imsweb/x12/Segment.java:151-165 | addElements(String) fails exactly when the text is only delimiters; otherwise the first piece names the segment and each later piece becomes a positionally named element after the old ones |
| X12Segment.Segment.ToString | src/main/java/com/imsweb/x12/Segment.java:392-405 | toString is the identifier and the element texts joined by the element delimiter |
| X12Segment.ReadThenPrint | src/main/java/com/imsweb/x12/Segment.java:151-165 | a segment read from text prints back as that text, less the trailing element delimiters |
| X12Segment.Segment.AppendElement | src/main/java/com/imsweb/x12/Segment.java:130-138 | appendElement as written: after nine elements the new one is named with suffix "010" |
| X12Segment.AppendedNameDisagreesOnlyAtTen | src/main/java/com/imsweb/x12/Segment.java:130-138 | appendElement's name differs from addElements' naming only for the tenth element |
| X12Segment.Segment.AppendElementCorrected | src/main/java/com/imsweb/x12/Segment.java:130-138 | appendElement naming the new element as addElements names that position |
| X12Segment.Segment.AddElement | src/main/java/com/imsweb/x12/Segment.java:110-122 | addElement appends the element and leaves the identifier and the other elements alone |
| X12Segment.Segment.AddElementAt | src/main/java/com/imsweb/x12/Segment.java:203-205 | addElement(index, e) inserts before the given 0-based position and shifts the rest; an index below 0 or past the end throws IndexOutOfBounds |
| X12Segment.Segment.AddElements | src/main/java/com/imsweb/x12/Segment.java:173-180 | addElements(Element...) appends them all, or stops with false after the first when the segment has no identifier |
| X12Segment.Segment.AddCompositeElement | src/main/java/com/imsweb/x12/Segment.java:188-196 | the new last element's value is the pieces joined by the composite delimiter |
| X12Segment.Segment.AddCompositeElementAt | src/main/java/com/imsweb/x12/Segment.java:213-220 | the same composite element, inserted at the 0-based index; no pieces throws StringIndexOutOfBounds, a bad index IndexOutOfBounds |
| X12Segment.Segment.GetElement | src/main/java/com/imsweb/x12/Segment.java:227-233 | getElement(id) is present exactly when some element has the id, and it is the first such element |
| X12Segment.Segment.GetElementValue | src/main/java/com/imsweb/x12/Segment.java:240-246 | getElementValue is the value of the first element with the id, or null |
| X12Segment.Segment.GetSubElementOf | src/main/java/com/imsweb/x12/Segment.java:254-260 | getElement(id, index) is a composite piece of the first element with the id |
| X12Segment.Segment.RemoveElement | src/main/java/com/imsweb/x12/Segment.java:267-269 | removeElement takes out the element at the 1-based position and returns it; a position outside 1..size throws IndexOutOfBounds |
| X12Segment.RemoveThenInsert | src/main/java/com/imsweb/x12/Segment.java:203-205 | removing an element and inserting it back at its place restores the segment |
| X12Segment.Segment.SetElement | src/main/java/com/imsweb/x12/Segment.java:284-286 | setElement runs setValue on the element at the 1-based position, which replaces its value and appends the new pieces to its sub-values; its id, the other elements and the segment's id and separators are unchanged; a position outside 1..size throws IndexOutOfBounds |
| X12Segment.Segment.SetCompositeElement | src/main/java/com/imsweb/x12/Segment.java:293-300 | setCompositeElement runs setValue on that element with the pieces joined by the composite delimiter, or, when the delimiter is unset, joined by "null" with the last "l" cut; its id, the other elements and the segment's id and separators are unchanged; no pieces throws StringIndexOutOfBounds, a bad position IndexOutOfBounds |
| X12Loop.NewLoop | src/main/java/com/imsweb/x12/Loop.java:51-76 | a new loop is a fresh root: no segments, children or parent; no existing loop changes |
| X12Loop.AddLoop | src/main/java/com/imsweb/x12/Loop.java:193-196 | addLoop(index, loop) inserts the child at the index and makes p its parent; an index outside 0..size throws IndexOutOfBounds and changes nothing |
| X12Loop.AddLoopId | src/main/java/com/imsweb/x12/Loop.java:164-171 | addLoop(id) appends a new child that shares the loop's separators |
| X12Loop.AddLoopIdAt | src/main/java/com/imsweb/x12/Loop.java:181-186 | addLoop(index, id) inserts a new child with the loop's separators at the index; a bad index throws IndexOutOfBounds |
| X12Loop.SetLoop | src/main/java/com/imsweb/x12/Loop.java:455-458 | setLoop(index, loop) replaces the child at the index and reparents the new one; an index outside 0..size-1 throws IndexOutOfBounds |
| X12Loop.SetLoopId | src/main/java/com/imsweb/x12/Loop.java:441-448 | setLoop(index, id) replaces the child with a new loop sharing the separators; a bad index throws IndexOutOfBounds |
| X12Loop.RemoveLoop | src/main/java/com/imsweb/x12/Loop.java:407-409 | removeLoop takes the child at the index out of the list and returns it; a bad index throws IndexOutOfBounds |
| X12Loop.RemoveThenAddLoop | src/main/java/com/imsweb/x12/Loop.java:193-196 | removing a child loop and adding it back at the same index restores the tree |
| X12LoopSegments.AddSegmentAt | src/main/java/com/imsweb/x12/Loop.java:255-257 | addSegment(index, segment) inserts the segment at the index, nothing else changes; a bad index throws IndexOutOfBounds |
| X12LoopSegments.AddSegment | src/main/java/com/imsweb/x12/Loop.java:229-231 | addSegment(segment) appends it |
| X12LoopSegments.AddEmptySegment | src/main/java/com/imsweb/x12/Loop.java:204-209 | addSegment() appends an empty segment with the loop's separators and returns it |
| X12LoopSegments.AddSegmentText | src/main/java/com/imsweb/x12/Loop.java:217-223 | addSegment(String) appends the segment read from the text with the loop's separators |
| X12LoopSegments.AddSegmentTextAt | src/main/java/com/imsweb/x12/Loop.java:241-248 | addSegment(index, String) inserts that segment at the index; unreadable text throws first, then a bad index throws IndexOutOfBounds |
| X12LoopSegments.RemoveSegment | src/main/java/com/imsweb/x12/Loop.java:416-418 | removeSegment takes out and returns the segment at the index; a bad index throws IndexOutOfBounds |
| X12LoopSegments.SetSegment | src/main/java/com/imsweb/x12/Loop.java:482-484 | setSegment(index, segment) replaces that segment only; a bad index throws IndexOutOfBounds |
| X12LoopSegments.SetSegmentText | src/main/java/com/imsweb/x12/Loop.java:468-474 | setSegment(index, String) replaces it with the segment read from the text; unreadable text throws first, then a bad index |
| X12LoopSegments.RemoveThenAddSegment | src/main/java/com/imsweb/x12/Loop.java:255-257 | removing a segment and adding it back at its index restores the tree |
| X12LoopSearch.FindLoopIsFilter | src/main/java/com/imsweb/x12/Loop.java:309-322 | findLoop returns exactly the descendants with the id, in pre-order |
| X12LoopSearch.FindAllLoops | src/main/java/com/imsweb/x12/Loop.java:324-333 | findAllLoops is the loop itself when its id matches, followed by findLoop's result |
| X12LoopSearch.HasLoopIff | src/main/java/com/imsweb/x12/Loop.java:265-276 | when every loop has an id, hasLoop holds exactly when the loop or a descendant has an id containing the text |
| X12LoopSearch.HasLoop | src/main/java/com/imsweb/x12/Loop.java:265-276 | hasLoop on a loop without an id throws NullPointerException |
| X12LoopSearch.GetLoopByIdIndex | src/main/java/com/imsweb/x12/Loop.java:296-301 | getLoop(id, index) is the index-th descendant with the id in pre-order, or null |
| X12LoopSearch.GetLoopById | src/main/java/com/imsweb/x12/Loop.java:283-288 | getLoop(id) is the first descendant with the id, or null |
| X12LoopSearch.GetLoopAt | src/main/java/com/imsweb/x12/Loop.java:349-354 | getLoop(index) is the index-th direct child, or null |
| X12LoopSearch.FindSegment | src/main/java/com/imsweb/x12/Loop.java:340-342 | findSegment is the loop's own segments with the id, in order (SegmentsWithId), and holds exactly the own segments with that id |
| X12LoopSearch.SegmentsWithIdAppend | src/main/java/com/imsweb/x12/Loop.java:340-342 | the stream filter of findSegment distributes over concatenation, so it keeps the segments' order and multiplicity |
| X12LoopSearch.SegmentsWithIdFirst | src/main/java/com/imsweb/x12/Loop.java:373-378 | the first filtered segment sits at a position no earlier segment with the id precedes |
| X12LoopSearch.GetSegmentAt | src/main/java/com/imsweb/x12/Loop.java:361-366 | getSegment(index) is the index-th own segment, or null |
| X12LoopSearch.GetSegmentByIdIndex | src/main/java/com/imsweb/x12/Loop.java:386-391 | getSegment(id, index) is the index-th entry of findSegment(id) when index is below its size, else null |
| X12LoopSearch.GetSegmentById | src/main/java/com/imsweb/x12/Loop.java:373-378 | getSegment(id) is getSegment(id, 0): the own segment with the id that no earlier own segment shares, or null when none has it |
| X12LoopSearch.GetElement5 | src/main/java/com/imsweb/x12/Loop.java:496-508 | the five-argument getElement is the value of the segIndex-th segment with the id inside the loopIndex-th descendant with the loop id, null when either index is past the end |
| X12LoopSearch.GetElement3 | src/main/java/com/imsweb/x12/Loop.java:517-529 | the three-argument getElement is the five-argument one at indices 0 and 0, null when no descendant has the loop id |
| X12LoopSearch.GetOwnElementAt | src/main/java/com/imsweb/x12/Loop.java:538-546 | getElement(segmentId, index, elementId) is the value in the index-th own segment with the id, null past the end |
| X12LoopSearch.GetOwnElement | src/main/java/com/imsweb/x12/Loop.java:554-562 | getElement(segmentId, elementId) is the index-0 form, null when no own segment has the id |
| X12LoopWalk.FindTopParentById | src/main/java/com/imsweb/x12/Loop.java:564-575 | findTopParentById is the nearest strict ancestor with the id; a null id gives null |
| X12LoopWalk.SizeCountsDescendants | src/main/java/com/imsweb/x12/Loop.java:424-431 | size counts the segments of the loop and of every descendant |
| X12LoopWalk.AddSegmentGrowsSize | src/main/java/com/imsweb/x12/Loop.java:229-231 | adding a segment grows size by exactly one |
| X12LoopWalk.ToStringIsPreOrder | src/main/java/com/imsweb/x12/Loop.java:584-595 | toString prints the loop and its descendants in pre-order, each loop with its own segments |
| X12LoopWalk.AddLoopIdThenFind | src/main/java/com/imsweb/x12/Loop.java:164-171 | after addLoop(id), findLoop finds what it found before, then the new loop when the ids agree |
| Mapping.CompareZeroIff | src/main/java/com/imsweb/x12/mapping/Positioned.java:10-16 | compareTo is zero exactly for equal position and equal id |
| Mapping.CompareAntisymmetric | src/main/java/com/imsweb/x12/mapping/Positioned.java:10-16 | swapping the arguments of compareTo negates its sign |
| Mapping.CompareTransitive | src/main/java/com/imsweb/x12/mapping/Positioned.java:10-16 | compareTo is a transitive order |
| Mapping.ComparePosIsTextual | src/main/java/com/imsweb/x12/mapping/Positioned.java:10-16 | example: definitions at positions "9" and "10" merge with "10" first |
| Mapping.AddAllMembers | src/main/java/com/imsweb/x12/Loop.java:611-617 | TreeSet.addAll keeps the set sorted, and an element is kept when it is the first of its key |
| Mapping.MergedChildren | src/main/java/com/imsweb/x12/Loop.java:611-617 | toX12String walks the child loops and segments of a definition, sorted and with duplicates of a key dropped |
| X12LoopConfig.Increment | src/main/java/com/imsweb/x12/reader/LoopConfig.java:35-37 | incrementLoopRepeatCount adds one to the count and changes nothing else |
| X12LoopConfig.NewLoopConfig | src/main/java/com/imsweb/x12/reader/X12Reader.java:591-605 | the six-argument config the reader builds starts at count zero, with no first or last segment, and keeps every field as given |
| X12LoopConfig.ContainsLoop | src/main/java/com/imsweb/x12/reader/X12Reader.java:631-637 | containsLoop holds exactly when some config has the id |
| X12LoopConfig.ChildLoopIds | src/main/java/com/imsweb/x12/reader/X12Reader.java:622-624 | getChildLoops is the ids of the definition's child loops, in order |
| X12LoopConfig.ConfigFor | src/main/java/com/imsweb/x12/reader/X12Reader.java:588-615 | a loop's config carries its id, parent, usage, repeat, first and last segment, and child list |
| X12LoopConfig.Configure | src/main/java/com/imsweb/x12/reader/X12Reader.java:588-615 | getLoopConfiguration adds the loop's config first when its id is new, gives every direct child an id in the table, keeps the ids distinct, and each new config is that of a loop in the subtree under its schema parent's id; a known id adds nothing |
| X12LoopConfig.BuildConfigs | src/main/java/com/imsweb/x12/reader/X12Reader.java:242 | the reader's config table starts with the root loop's config, its ids are distinct, and every config is that of a schema loop under its schema parent's id |
| X12LoopConfig.UpdateLoopCounts | src/main/java/com/imsweb/x12/reader/X12Reader.java:684-686 | updateLoopCounts increments every config with the id and leaves the rest alone |
| X12LoopConfig.UpdateLoopCountsOne | src/main/java/com/imsweb/x12/reader/X12Reader.java:684-686 | with distinct ids, the loop's count rises by exactly one |
| X12Header.DetectSeparators | src/main/java/com/imsweb/x12/reader/X12Reader.java:428-450 | the delimiters are characters 3, 104 and 105 of a text at least 106 long, none a digit, letter or white space; otherwise none |
| X12Header.DetectDefault | src/main/java/com/imsweb/x12/reader/X12Reader.java:428-450 | example: an ISA written with '*', ':' and '~' gives the default separators |
| X12Header.VersionOf | src/main/java/com/imsweb/x12/reader/X12Reader.java:391-420 | the version is the text after the last element delimiter of the segment after ISA, when that segment is terminated |
| X12Header.VersionOfSegment | src/main/java/com/imsweb/x12/reader/X12Reader.java:391-420 | for an ISA followed by a segment whose last element is v, the version read is v |
| X12Header.CheckVersions | src/main/java/com/imsweb/x12/reader/X12Reader.java:391-420 | the check passes exactly when the version read equals the file type's; otherwise it names both |
| X12Header.VersionsDistinct | src/main/java/com/imsweb/x12/reader/X12Reader.java:45-82 | only the 270 and 271 4010 types share a version |
| X12Schema.ParentLoopsIff | src/main/java/com/imsweb/x12/reader/X12Reader.java:668-678 | getParentLoopsFromDefinition reports an id exactly when a schema loop with that id lists the requested loop as a child |
| X12Schema.GetParentLoop | src/main/java/com/imsweb/x12/reader/X12Reader.java:644-659 | getParentLoop prefers a schema parent the previous loop shares, then the first schema parent |
| X12Schema.SegmentDefinitions | src/main/java/com/imsweb/x12/reader/X12Reader.java:982-997 | at a loop with the id, its own segment list; any absent or non-empty answer is the list of some schema loop with the id |
| X12Schema.SegmentDefinitionsIsFirstDecisive | src/main/java/com/imsweb/x12/reader/X12Reader.java:982-997 | getSegmentDefinitions is the first absent or non-empty segment list among the topmost schema loops with the id in pre-order, and an empty list when there is none |
| X12Schema.FirstDecisive | src/main/java/com/imsweb/x12/reader/X12Reader.java:985-991 | the search stops at the first absent or non-empty list, and yields an empty list when every list is empty |
| X12Schema.SegmentDefinitionsMissing | src/main/java/com/imsweb/x12/reader/X12Reader.java:982-997 | a schema without that loop yields an empty list |
| X12Schema.RequiredChildLoops | src/main/java/com/imsweb/x12/reader/X12Reader.java:376-389 | getRequiredChildLoops adds the ids of the REQUIRED children of the loops with the id; a child without usage throws |
| X12Schema.RequiredChildLoopsMissing | src/main/java/com/imsweb/x12/reader/X12Reader.java:376-389 | a schema without that loop adds nothing |
| X12Schema.RequiredChildList | src/main/java/com/imsweb/x12/reader/X12Reader.java:376-389 | the list kept in insertion order holds the same ids as the set |
| X12Codes.GetValidCodes | src/main/java/com/imsweb/x12/reader/X12Reader.java:1004-1015 | each code list of the segment's elements is mapped to a parsed position, and every key is some element's list |
| X12Codes.ValidCodesLastWins | src/main/java/com/imsweb/x12/reader/X12Reader.java:1004-1015 | a code list maps to the position of the last element carrying it |
| X12Codes.RequiredElementPositions | src/main/java/com/imsweb/x12/reader/X12Reader.java:1022-1033 | the parsed positions of the REQUIRED element definitions, in definition order (the filter-map Somes over ElementMarks); fails exactly when one REQUIRED sequence does not parse |
| X12Codes.RequiredElementsFromIsSomes | src/main/java/com/imsweb/x12/reader/X12Reader.java:1026-1030 | the loop over element definitions keeps the parsed REQUIRED positions in order and throws exactly on an unparsable REQUIRED sequence |
| X12Codes.RequiredCompositePositions | src/main/java/com/imsweb/x12/reader/X12Reader.java:1040-1051 | the parsed positions of the composite definitions with usage "R", in definition order (Somes over CompositeMarks); fails exactly when one such sequence does not parse |
| X12Codes.RequiredCompositesFromIsSomes | src/main/java/com/imsweb/x12/reader/X12Reader.java:1044-1048 | the loop over composite definitions keeps the parsed "R" positions in order and throws exactly on an unparsable "R" sequence |
| X12Codes.CodesValidated | src/main/java/com/imsweb/x12/reader/X12Reader.java:846-858 | a line passes exactly when every non-empty coded element after the id holds one of its codes |
| X12Codes.CodesValidatedForLoopId | src/main/java/com/imsweb/x12/reader/X12Reader.java:825-838 | the same, restricted to the positions of required elements |
| X12Codes.ValidatedImpliesValidatedForLoopId | src/main/java/com/imsweb/x12/reader/X12Reader.java:825-858 | a line that passes the full code check passes the loop-matching one |
| X12Codes.NoCodesAcceptsAll | src/main/java/com/imsweb/x12/reader/X12Reader.java:846-858 | a segment definition without code lists accepts every line |
| X12Validate.CheckUsage | src/main/java/com/imsweb/x12/reader/X12Reader.java:897-899 | only a REQUIRED segment counted zero times fails |
| X12Validate.CheckRepeats | src/main/java/com/imsweb/x12/reader/X12Reader.java:907-913 | ">1" passes exactly for a positive count; a number passes when the count does not exceed it; other text throws |
| X12Validate.UnboundedAbsentFailsRepeats | src/main/java/com/imsweb/x12/reader/X12Reader.java:907-913 | example: an absent segment with maximum use ">1" fails the repeat check |
| X12Validate.MissingRequiredFirst | src/main/java/com/imsweb/x12/reader/X12Reader.java:922-956 | the one message names the first required position that is absent or empty |
| X12Validate.CheckRequiredElements | src/main/java/com/imsweb/x12/reader/X12Reader.java:922-934 | checkRequiredElements gives a message exactly when some required element is absent or empty |
| X12Validate.CheckRequiredComposites | src/main/java/com/imsweb/x12/reader/X12Reader.java:943-956 | the same for required composites |
| X12Validate.RequiredElementsPresent | src/main/java/com/imsweb/x12/reader/X12Reader.java:922-934 | a line holding every required element passes |
| X12Validate.DefinitionMessages | src/main/java/com/imsweb/x12/reader/X12Reader.java:872-886 | one definition's messages: throws exactly when its maximum use does not parse or its line checks throw; otherwise it reports (Reports) the missing message of an absent REQUIRED non-trailer, the too-many message of a repeat violation and every line-check message, and each message is explained by the definition |
| X12Validate.ValidateSegmentsFrom | src/main/java/com/imsweb/x12/reader/X12Reader.java:868-889 | throws exactly when some definition's maximum use does not parse or a counted one's line check throws; reports every absent REQUIRED non-trailer, every repeat violation and every line-check message of counted definitions, and nothing any definition does not explain |
| X12Validate.MatchFormat | src/main/java/com/imsweb/x12/reader/X12Reader.java:794-809 | a line is counted against the first definition it fits; an empty split throws |
| X12Validate.OutOfPlace | src/main/java/com/imsweb/x12/reader/X12Reader.java:797-799 | a position message is due exactly when the previous fitted position exceeds the current one numerically |
| X12Validate.ValidateLinesCounts | src/main/java/com/imsweb/x12/reader/X12Reader.java:792-814 | every line is either counted once or reported as unmatched |
| X12Validate.ValidateLinesGrows | src/main/java/com/imsweb/x12/reader/X12Reader.java:792-814 | counting never lowers a counter |
| X12Validate.ValidateLinesUnfitted | src/main/java/com/imsweb/x12/reader/X12Reader.java:792-814 | a definition no line fits keeps its count |
| X12Validate.ValidateLines | src/main/java/com/imsweb/x12/reader/X12Reader.java:786-817 | validateLines looks up the loop's definitions, counts the lines, and leaves a zero count for each definition no line fits |
| X12Validate.ParentCount | src/main/java/com/imsweb/x12/reader/X12Reader.java:967-971 | the parent count is that of the last config with the parent's id, or one when there is none |
| X12Validate.CompareRepeats | src/main/java/com/imsweb/x12/reader/X12Reader.java:965-974 | passes for ">1" with a positive count, or for a number n when the count is at most n times the parent count; a text without '>' that does not parse throws |
| X12Match.IsChildSegment | src/main/java/com/imsweb/x12/reader/X12Reader.java:738-750 | the line's id is one of the previous loop's segment definitions other than the first |
| X12Match.CollectSound | src/main/java/com/imsweb/x12/reader/X12Reader.java:698-712 | every collected config passes the first-segment or the last-segment check |
| X12Match.CollectComplete | src/main/java/com/imsweb/x12/reader/X12Reader.java:698-712 | every candidate's id ends up among the matches |
| X12Match.CollectChildClears | src/main/java/com/imsweb/x12/reader/X12Reader.java:698-712 | a line that is a child segment of the previous loop leaves no match |
| X12Match.CollectKeeps | src/main/java/com/imsweb/x12/reader/X12Reader.java:698-712 | otherwise the matches found so far are kept, in order |
| X12Match.FinalizedMatch | src/main/java/com/imsweb/x12/reader/X12Reader.java:760-778 | getFinalizedMatch picks the first match that is a child of the previous loop; when none is, the first match (FirstSibling) whose schema parent is the previous loop's; none without a previous config |
| X12Match.FirstSibling | src/main/java/com/imsweb/x12/reader/X12Reader.java:769-773 | the first match, in match order, whose schema parent is the given one; none exactly when no match has it |
| X12Match.GetMatchedLoop | src/main/java/com/imsweb/x12/reader/X12Reader.java:694-730 | the config returned is always a candidate for the line; with no candidate, or a child segment of the previous loop, there is none; a sole collected match is the answer; with several, those whose closing segment the line is are dropped, a sole survivor is the answer, and several survivors go to getFinalizedMatch |
| X12Match.SingleCandidateMatches | src/main/java/com/imsweb/x12/reader/X12Reader.java:694-730 | with one candidate and a line that is not a child segment, that candidate is the match |
| X12Store.UpdateChildLoopTracker | src/main/java/com/imsweb/x12/reader/X12Reader.java:548-557 | the child is added to the parent's current instance and starts a fresh instance; an untracked parent throws |
| X12Store.FindParentLoop | src/main/java/com/imsweb/x12/reader/X12Reader.java:559-581 | one schema parent: the nearest loop with the parent id from the last stored loop upwards; several: one the schema lists the loop under |
| X12Store.FindParentLoopIsSchemaParent | src/main/java/com/imsweb/x12/reader/X12Reader.java:559-581 | with several schema parents the loop found is one of them |
| X12Store.ReadSegments | src/main/java/com/imsweb/x12/reader/X12Reader.java:464-469 | each line becomes a segment read with the reader's separators |
| X12Store.ReadSegmentsPrintBack | src/main/java/com/imsweb/x12/reader/X12Reader.java:464-469 | each stored segment prints back as its line, less trailing element delimiters |
| X12Store.StoreTop | src/main/java/com/imsweb/x12/reader/X12Reader.java:472-481 | the last top-level loop takes the id and the segments and the tracker restarts for it; no top-level loop throws |
| X12Store.StoreChild | src/main/java/com/imsweb/x12/reader/X12Reader.java:516-533 | a new loop with the segments becomes the parent's last child and is tracked under it |
| X12Store.WrapperTree | src/main/java/com/imsweb/x12/reader/X12Reader.java:507-522 | the wrapper loop holds the new loop and becomes the grandparent's last child; every other loop is unchanged |
| X12Store.StoreWrapped | src/main/java/com/imsweb/x12/reader/X12Reader.java:502-531 | both new loops are tracked; the inner one is returned, unless its id equals the wrapper's |
| X12Store.StoreMissingParent | src/main/java/com/imsweb/x12/reader/X12Reader.java:488-515 | an unknown parent, a parent with data segments, or no grandparent each give their own fatal error |
| X12Store.StoreData | src/main/java/com/imsweb/x12/reader/X12Reader.java:459-546 | storeData validates the lines, files them, and reports a fatal error when nothing was stored |
| X12Store.StoreDataStores | src/main/java/com/imsweb/x12/reader/X12Reader.java:459-546 | the validation messages are appended, and the returned loop carries the id and holds the lines' segments under the loop findParentLoop chose |
| X12Store.AppendEndingSegment | src/main/java/com/imsweb/x12/reader/X12Reader.java:328-345 | pending lines are stored first; the line then joins the nearest loop above carrying the matched id, else a fatal error |
| X12Store.AppendEndingTarget | src/main/java/com/imsweb/x12/reader/X12Reader.java:328-345 | the ending segment is appended last to the nearest strict ancestor with the matched id |
| X12LoopErrors.RepeatErrors | src/main/java/com/imsweb/x12/reader/X12Reader.java:350-360 | a checked loop is reported as appearing too often exactly when compareRepeats fails |
| X12LoopErrors.RepeatErrorsWithinBound | src/main/java/com/imsweb/x12/reader/X12Reader.java:350-360 | an unbounded loop, or one within its bound times the parent's count, is not reported |
| X12LoopErrors.TrackerErrors | src/main/java/com/imsweb/x12/reader/X12Reader.java:362-372 | every instance lacking a required child gets a message, and every message is such a lack |
| X12LoopErrors.ConfigErrors | src/main/java/com/imsweb/x12/reader/X12Reader.java:349-372 | a config's messages are its repeat message, then the missing children of each tracked instance |
| X12LoopErrors.LoopErrorsFromCollects | src/main/java/com/imsweb/x12/reader/X12Reader.java:349-372 | every message of every config is reported |
| X12LoopErrors.LoopErrorsFromOnly | src/main/java/com/imsweb/x12/reader/X12Reader.java:349-372 | every reported message comes from some config |
| X12LoopErrors.CheckLoopErrors | src/main/java/com/imsweb/x12/reader/X12Reader.java:347-374 | checkLoopErrors succeeds exactly when every config's check does |
| X12LoopErrors.MissingChildReported | src/main/java/com/imsweb/x12/reader/X12Reader.java:362-372 | an instance lacking a REQUIRED child is reported, naming the child, the loop and the one-based iteration |
| X12LoopErrors.TooManyReported | src/main/java/com/imsweb/x12/reader/X12Reader.java:350-360 | a loop that fails compareRepeats is reported as appearing too many times |
| X12Reader.StepClose | src/main/java/com/imsweb/x12/reader/X12Reader.java:253-261 | an ending line clears the pending lines and makes the matched config current, with the stored loop carrying its id |
| X12Reader.StepRoot | src/main/java/com/imsweb/x12/reader/X12Reader.java:262-275 | a transaction start adds an id-less top-level loop and the line becomes pending |
| X12Reader.StepOpen | src/main/java/com/imsweb/x12/reader/X12Reader.java:276-293 | a loop start needs a current loop, counts the config, stores the pending lines and makes the line pending |
| X12Reader.Step | src/main/java/com/imsweb/x12/reader/X12Reader.java:247-303 | an unmatched line is only added to the pending lines; a matched one makes its config current; a line closing a config other than the current one takes the ending branch (StepClose), a match of the root loop opens a transaction (StepRoot), and any other match counts and flushes (StepOpen) |
| X12Reader.Run | src/main/java/com/imsweb/x12/reader/X12Reader.java:246-303 | the loop keeps the state well formed, only adds errors, and stops early only for a fatal error or nothing to store |
| X12Reader.EndLine | src/main/java/com/imsweb/x12/reader/X12Reader.java:306-315 | with a current loop, the parse succeeds when matching and appending succeed; the end is found exactly when the ending segment was appended and the last line matched the root loop's config, and otherwise "Unable to find end of transaction" is added |
| X12Reader.Finish | src/main/java/com/imsweb/x12/reader/X12Reader.java:305-317 | with no fatal errors the loop errors are appended last |
| X12Reader.Parse | src/main/java/com/imsweb/x12/reader/X12Reader.java:219-321 | a bad header leaves one error and "Unable to process transaction!"; otherwise the body runs with the separators read |
| X12Reader.NoFatalMeansEveryLineRead | src/main/java/com/imsweb/x12/reader/X12Reader.java:246-303 | a parse with no fatal error went through every token, or stopped at an empty one |
| X12Writer.ChildNamed | src/main/java/com/imsweb/x12/Loop.java:733-745 | the noneMatch is true exactly when a child named id comes before any unnamed one, false when every child is named otherwise, and throws NullPointer exactly when an unnamed child comes first |
| X12Writer.ToX12 | src/main/java/com/imsweb/x12/Loop.java:608-638 | toX12String(def) only throws NullPointer (from an unnamed child loop), and a loop without child loops always writes |
| X12Writer.LoopsOut | src/main/java/com/imsweb/x12/writer/X12Writer.java:62-69 | the top-level loops write exactly when each loop writes, only NullPointer escapes, and one loop writes its text then the line break |
| X12Writer.LoopForPrinting | src/main/java/com/imsweb/x12/Loop.java:733-745 | the idx-th descendant with the id, and only when a direct child carries that id |
| X12Writer.NoDirectChildWritesNothing | src/main/java/com/imsweb/x12/Loop.java:629-635 | a definition with no direct child of its name writes nothing |
| X12Writer.LoopsTextIsEveryNamesake | src/main/java/com/imsweb/x12/Loop.java:629-635 | otherwise every descendant of that name is written, in pre-order |
| X12Writer.SegmentsTextAllNamed | src/main/java/com/imsweb/x12/Loop.java:619-627 | with no line break, a loop whose segments all carry the id writes them each followed by the terminator |
| X12Writer.SingleSegmentDefinition | src/main/java/com/imsweb/x12/Loop.java:608-639 | a definition with a single segment definition writes just the own segments of that id |
| X12Writer.WithSeparators | src/main/java/com/imsweb/x12/writer/X12Writer.java:22-26 | the writer keeps the loops, the schema root definition and the given separators |
| X12Writer.WithDefaults | src/main/java/com/imsweb/x12/writer/X12Writer.java:28-32 | the writer keeps the loops and the schema root definition and uses the default separators |
| X12Writer.FromReader | src/main/java/com/imsweb/x12/writer/X12Writer.java:34-38 | the writer takes the reader's loops, definition and separators, shared with the loops |
| X12Writer.Relined | src/main/java/com/imsweb/x12/writer/X12Writer.java:62-69 | every loop's line break is set, and nothing else changes |
| X12Writer.LoopsOutAppend | src/main/java/com/imsweb/x12/writer/X12Writer.java:62-69 | writing two runs of loops is writing each, one after the other |
| X12Writer.ToX12StringWith | src/main/java/com/imsweb/x12/writer/X12Writer.java:57-69 | without separators the write fails; with no loops the output is empty; otherwise it opens with the first loop's text and the line break, and fails when that loop cannot be written |
| X12Writer.ToX12String | src/main/java/com/imsweb/x12/writer/X12Writer.java:47-49 | toX12String() writes with no line break |
| X12Writer.SingleTransaction | src/main/java/com/imsweb/x12/writer/X12Writer.java:47-69 | a one-transaction writer with no line break writes that loop's toX12String |
| X12Writer.SplitDocument | src/main/java/com/imsweb/x12/writer/X12Writer.java:62-69 | the output is the first k transactions' output, followed by the rest's |

## Left out

- Reading from a `Reader` or `File` is left out. So are the `Scanner` with its delimiter pattern and the ISA look-ahead through `mark`/`reset`. `parse` takes the whole text for the header checks and the scanner's tokens as a list.
- Loading the schema from XML through XStream (`FileType.getDefinition`) is left out. The schema's root loop is a parameter.
- `toHtml`, `toXML`, `toJson`, the `Map` renderings, `equals`/`hashCode` beyond the delimiter and element equality, and the public getters and setters that only expose a field are left out.
- Null arguments where the library does not test for null are outside the model.
- The editing operations on a segment's elements and on a loop's child loops and segments take `int` indices and model the `IndexOutOfBoundsException` of a bad index. The read-only lookups (`getLoop`, `getSegment`, `getElement`) take `nat` indices, so the exception a negative index raises there is not modelled.
- Strings.CompareTo compares Dafny characters, which are Unicode scalar values, where Java compares UTF-16 code units. The two orders differ once a character above U+FFFF is involved: it counts as one character here and as a surrogate pair in Java. Schema positions and ids are ASCII, where the orders agree.
- Only ASCII is modelled for `Character.isWhitespace`, `isLetter` and `isDigit`, and code points above U+007F count as neither.
- Strings.ParseInt accepts only the ASCII digits '0'-'9'. Java's `Integer.parseInt` also accepts any Unicode decimal digit (through `Character.digit`), so a schema sequence number written in other scripts parses in Java but fails here.
- X12Validate.CompareRepeats: the quotient uses exact rational arithmetic instead of `float`, so rounding for counts above 2^24 is not modelled.
- Java's `HashMap` and `HashSet` iteration orders are replaced by insertion order, in `getValidCodes` and in the sets of `getRequiredChildLoops` and `checkLoopErrors`. For the two sets only the order of the reported messages can differ.
- X12Codes.CodesValidated and X12Codes.CodesValidatedForLoopId: when two code lists of one segment share a position, the model checks the list inserted first, while Java checks the one that comes first in `HashMap` key order (`codes.get(positions.indexOf(i))`, X12Reader.java:833 and 853). Which one that is depends on the lists' hash codes, so on such a schema the two can disagree on whether a line passes, and through getMatchedLoop on which loop it opens.
- X12Loop.AddLoop requires the added loop to come after its new parent in the arena. A Java program can attach any loop object, including one that creates a cycle.
- X12Loop.SetLoop requires the new loop to come after its new parent in the arena, for the same reason as X12Loop.AddLoop.
- X12Loop.AddLoop and X12Loop.SetLoop: Java sets the attached loop's parent before the list operation, so a call that throws still leaves that loop pointing at the would-be parent. A failure in the model leaves the tree unchanged.
- X12LoopConfig.Configure: the contract says which configs are added (the root's first, each one that of a loop of the subtree under its schema parent's id, every direct child's id present) but not their exact pre-order position, because a repeated id prunes its whole subtree from the walk.
- Reading a document and writing it back is not claimed to give the same text. The writer prints segments in schema order and drops segments no definition names, so the round trip only holds for documents already in that form.
- `tokens == null` ("Unable to split ...") cannot occur, because `splitElement` is only null for an unset element delimiter, and the reader always has one. The "Something is wrong. Check loop structure." branch is unreachable once the earlier fatal errors are recorded. Both are left out.
- The writer sets the line break on every loop it writes, and Java keeps that change after the call returns. The model's WriteTree applies it to a copy.
- X12Writer.WithSeparators: the separators given are taken to be distinct from the loops' own, so the line break is set only between transactions; a caller passing the very object the loops hold is modelled only for a writer built from a reader (X12Writer.FromReader). Values are immutable here, so later changes to a shared separators object do not show.
- X12Writer.LoopsTextIsEveryNamesake: as written, `getLoop(id, idx)` searches all descendants, so a namesake nested under a direct namesake is also written. The lemma states that behaviour rather than "direct children only".
- X12Validate.CheckRepeats: `">1"` with a count of zero fails as written, and the model keeps that.
- Tokens.Split models `Pattern.split` only for the quoted one-character patterns the library uses, not general regular expressions.
- `LoopConfig`'s remaining getters, setters and `toString` are folded into the datatype's fields. LoopConfig.java has only a five-argument constructor and no `hasDataSegments` field, while the reader calls a six-argument constructor that passes whether the loop has a segment list (X12Reader.java:591, 605). The model follows the reader's call and keeps that flag as a field.
- `FileType.getDefinition` and the file-type enumeration's mapping XML names are left out. Only the version constants are modelled.

## Findings

| source | as written | input that shows it | evidently intended | confidence | as-written member | corrected member |
|---|---|---|---|---|---|---|
| src/main/java/com/imsweb/x12/Segment.java:130-138 | `appendElement` pads the new element's suffix with "0" whenever the segment held fewer than ten elements before the append, then appends `size + 1` | a segment "NM1" holding nine elements: the appended tenth element is named "NM1010" | "NM110", the name `addElements` gives position ten | not executed | X12Segment.Segment.AppendElement | X12Segment.Segment.AppendElementCorrected |

=== FILE: codes.dfy ===
/** The reader's view of a segment definition's element rules: the map from
    valid-code lists to element positions, the required element and
    composite positions, and the two checks of a data line's elements
    against the valid codes. */
module X12Codes {
  import opened Wrappers
  import opened Strings
  import opened Mapping

  /** A HashMap<List<String>, Integer> as a list of entries with distinct
      keys, in the order the keys were first put. */
  type CodeMap = seq<(seq<string>, int)>

  predicate UniqueKeys(m: CodeMap) {
    forall i, j :: 0 <= i < j < |m| ==> m[i].0 != m[j].0
  }

  predicate HasKey(m: CodeMap, k: seq<string>) {
    exists j :: 0 <= j < |m| && m[j].0 == k
  }

  /** Map.put: an existing key gets the new value where it stands, a new key
      is added after the others. */
  function Put(m: CodeMap, k: seq<string>, v: int): (r: CodeMap)
    requires UniqueKeys(m)
    ensures UniqueKeys(r)
    ensures HasKey(m, k) ==> |r| == |m|
    ensures !HasKey(m, k) ==> |r| == |m| + 1 && r[|m|] == (k, v)
    ensures forall j :: 0 <= j < |m| ==> r[j] == (if m[j].0 == k then (k, v) else m[j])
  {
    var updated := seq(|m|, j requires 0 <= j < |m| => if m[j].0 == k then (k, v) else m[j]);
    if HasKey(m, k) then updated else updated + [(k, v)]
  }

  /** The valid-code list of an element definition, when it has one. */
  function CodesOf(e: ElementDef): Option<seq<string>> {
    if e.validCodes.Some? && e.validCodes.value.codes.Some? then e.validCodes.value.codes else None
  }

  /** getValidCodes(seg): each element definition with a code list puts that
      list with its parsed position; a later element with an equal list
      overwrites the position. A position that does not parse throws. */
  function GetValidCodes(seg: SegmentDef): (r: Result<CodeMap>)
    ensures seg.elements.None? ==> r == Success([])
    ensures seg.elements.Some? ==> r == ValidCodesFrom(seg.elements.value, 0, [])
  {
    if seg.elements.None? then Success([]) else ValidCodesFrom(seg.elements.value, 0, [])
  }

  function ValidCodesFrom(es: seq<ElementDef>, i: nat, m: CodeMap): (r: Result<CodeMap>)
    requires i <= |es| && UniqueKeys(m)
    ensures r.Failure? <==> exists k :: i <= k < |es| && CodesOf(es[k]).Some? && ParseInt(es[k].sequence).None?
    ensures r.Failure? ==> r.error == NumberFormat
    ensures r.Success? ==> UniqueKeys(r.value)
    decreases |es| - i
  {
    if i == |es| then Success(m)
    else
      match CodesOf(es[i])
      case None =>
        ValidCodesFrom(es, i + 1, m)
      case Some(codes) =>
        var p :- ParseIntOrFail(es[i].sequence);
        ValidCodesFrom(es, i + 1, Put(m, codes, p))
  }

  /** Putting the remaining elements keeps the keys already in the map where
      they are, and a key that no remaining element carries keeps its
      value. */
  lemma {:induction false} ValidCodesKeepsEntries(es: seq<ElementDef>, i: nat, m: CodeMap)
    requires i <= |es| && UniqueKeys(m)
    requires ValidCodesFrom(es, i, m).Success?
    ensures var r := ValidCodesFrom(es, i, m).value;
      |r| >= |m| && forall j :: 0 <= j < |m| ==> r[j].0 == m[j].0
    ensures var r := ValidCodesFrom(es, i, m).value;
      forall j :: 0 <= j < |m| && (forall k :: i <= k < |es| ==> CodesOf(es[k]) != Some(m[j].0)) ==> r[j] == m[j]
    decreases |es| - i
  {
    if i < |es| {
      match CodesOf(es[i])
      case None =>
        ValidCodesKeepsEntries(es, i + 1, m);
      case Some(codes) =>
        var p := ParseInt(es[i].sequence).value;
        ValidCodesKeepsEntries(es, i + 1, Put(m, codes, p));
    }
  }

  /** Every key the remaining elements add is the code list of one of
      them. */
  lemma {:induction false} ValidCodesNewKeys(es: seq<ElementDef>, i: nat, m: CodeMap)
    requires i <= |es| && UniqueKeys(m)
    requires ValidCodesFrom(es, i, m).Success?
    ensures var r := ValidCodesFrom(es, i, m).value;
      forall j :: |m| <= j < |r| ==> exists k :: i <= k < |es| && CodesOf(es[k]) == Some(r[j].0)
    decreases |es| - i
  {
    if i < |es| {
      var r := ValidCodesFrom(es, i, m).value;
      match CodesOf(es[i])
      case None =>
        ValidCodesNewKeys(es, i + 1, m);
      case Some(codes) =>
        var p := ParseInt(es[i].sequence).value;
        var m1 := Put(m, codes, p);
        ValidCodesNewKeys(es, i + 1, m1);
        ValidCodesKeepsEntries(es, i + 1, m1);
        forall j | |m| <= j < |r|
          ensures exists k :: i <= k < |es| && CodesOf(es[k]) == Some(r[j].0)
        {
          if j < |m1| {
            assert m1[j] == (codes, p);
          } else {
            var k :| i + 1 <= k < |es| && CodesOf(es[k]) == Some(r[j].0);
          }
        }
    }
  }

  /** The position stored for a code list is that of the LAST element
      carrying it: HashMap.put overwrites. */
  lemma {:induction false} ValidCodesLastWins(es: seq<ElementDef>, i: nat, m: CodeMap)
    requires i <= |es| && UniqueKeys(m)
    requires ValidCodesFrom(es, i, m).Success?
    ensures var r := ValidCodesFrom(es, i, m).value;
      forall k :: i <= k < |es| && CodesOf(es[k]).Some? && LastWithCodes(es, k) ==>
        exists j :: 0 <= j < |r| && r[j] == (CodesOf(es[k]).value, ParseInt(es[k].sequence).value)
    decreases |es| - i
  {
    if i < |es| {
      var r := ValidCodesFrom(es, i, m).value;
      match CodesOf(es[i])
      case None =>
        ValidCodesLastWins(es, i + 1, m);
      case Some(codes) =>
        var p := ParseInt(es[i].sequence).value;
        var m1 := Put(m, codes, p);
        assert r == ValidCodesFrom(es, i + 1, m1).value;
        ValidCodesLastWins(es, i + 1, m1);
        if LastWithCodes(es, i) {
          LastPutKept(es, i, m);
        }
    }
  }

  /** The put made for the last element carrying a code list survives the
      rest of the elements. */
  lemma LastPutKept(es: seq<ElementDef>, i: nat, m: CodeMap)
    requires i < |es| && UniqueKeys(m) && CodesOf(es[i]).Some? && LastWithCodes(es, i)
    requires ValidCodesFrom(es, i, m).Success?
    ensures var r := ValidCodesFrom(es, i, m).value;
      exists j :: 0 <= j < |r| && r[j] == (CodesOf(es[i]).value, ParseInt(es[i].sequence).value)
  {
    var codes := CodesOf(es[i]).value;
    var p := ParseInt(es[i].sequence).value;
    var m1 := Put(m, codes, p);
    var r := ValidCodesFrom(es, i + 1, m1).value;
    assert ValidCodesFrom(es, i, m).value == r;
    ValidCodesKeepsEntries(es, i + 1, m1);
    var j: nat :| j < |m1| && m1[j] == (codes, p) by {
      if HasKey(m, codes) {
        var j0 :| 0 <= j0 < |m| && m[j0].0 == codes;
        assert m1[j0] == (codes, p);
      } else {
        assert m1[|m|] == (codes, p);
      }
    }
    assert forall k :: i + 1 <= k < |es| ==> CodesOf(es[k]) != Some(m1[j].0);
    assert r[j] == m1[j];
  }

  /** es[k] is the last element of es carrying its code list. */
  predicate LastWithCodes(es: seq<ElementDef>, k: int)
    requires 0 <= k < |es|
  {
    forall l :: k < l < |es| ==> CodesOf(es[l]) != CodesOf(es[k])
  }

  /** The code list whose position, among the map's values, comes first
      equal to pos: codes.get(positions.indexOf(pos)). */
  function CodesAt(m: CodeMap, pos: int): (r: Option<seq<string>>)
    ensures r.None? <==> forall j :: 0 <= j < |m| ==> m[j].1 != pos
    ensures r.Some? ==> exists j :: 0 <= j < |m| && m[j] == (r.value, pos) && forall l :: 0 <= l < j ==> m[l].1 != pos
  {
    if |m| == 0 then None
    else if m[0].1 == pos then Some(m[0].0)
    else
      var r := CodesAt(m[1..], pos);
      if r.Some? then
        var j :| 0 <= j < |m[1..]| && m[1..][j] == (r.value, pos) && forall l :: 0 <= l < j ==> m[1..][l].1 != pos;
        assert m[j + 1] == (r.value, pos);
        r
      else r
  }

  // ---------------------------------------------------------------------------
  // Required positions

  /** getRequiredElementPositions(seg): the parsed positions of the element
      definitions whose usage is REQUIRED, in order. */
  function RequiredElementPositions(seg: SegmentDef): (r: Result<seq<int>>)
    ensures seg.elements.None? ==> r == Success([])
    ensures seg.elements.Some? ==> r == RequiredElementsFrom(seg.elements.value, 0)
    ensures r.Failure? <==> (seg.elements.Some? &&
      exists k :: 0 <= k < |seg.elements.value| && ElementMark(seg.elements.value[k]) == Some(None))
    ensures r.Success? && seg.elements.Some? ==> r.value == Somes(ElementMarks(seg.elements.value))
  {
    if seg.elements.None? then Success([])
    else
      RequiredElementsFromIsSomes(seg.elements.value, 0);
      assert ElementMarks(seg.elements.value)[0..] == ElementMarks(seg.elements.value);
      RequiredElementsFrom(seg.elements.value, 0)
  }

  /** Keeping the present values of xs, in order. */
  function Somes(xs: seq<Option<int>>): (r: seq<int>)
    ensures forall x :: x in r <==> Some(x) in xs
    ensures |r| <= |xs|
  {
    if |xs| == 0 then []
    else
      var rest := Somes(xs[1..]);
      assert forall y :: y in xs <==> y == xs[0] || y in xs[1..];
      (if xs[0].Some? then [xs[0].value] else []) + rest
  }

  /** What one element definition contributes to the required positions:
      nothing when it is not REQUIRED (None), else its parsed sequence
      number (Some(None) when that does not parse). */
  function ElementMark(e: ElementDef): Option<Option<int>> {
    if e.usage == Some(REQUIRED) then Some(ParseInt(e.sequence)) else None
  }

  /** The contributions of the element definitions, once the parses all
      succeeded: a position or nothing per definition. */
  function ElementMarks(es: seq<ElementDef>): (r: seq<Option<int>>)
    ensures |r| == |es|
    ensures forall k :: 0 <= k < |es| ==> r[k] == (if es[k].usage == Some(REQUIRED) then ParseInt(es[k].sequence) else None)
  {
    seq(|es|, k requires 0 <= k < |es| => if es[k].usage == Some(REQUIRED) then ParseInt(es[k].sequence) else None)
  }

  /** The loop over the element definitions is a filter-map: the parsed
      positions of the REQUIRED definitions, in definition order. */
  lemma {:induction false} RequiredElementsFromIsSomes(es: seq<ElementDef>, i: nat)
    requires i <= |es|
    ensures RequiredElementsFrom(es, i).Failure? <==> exists k :: i <= k < |es| && ElementMark(es[k]) == Some(None)
    ensures RequiredElementsFrom(es, i).Success? ==> RequiredElementsFrom(es, i).value == Somes(ElementMarks(es)[i..])
    decreases |es| - i
  {
    if i < |es| {
      RequiredElementsFromIsSomes(es, i + 1);
      assert ElementMarks(es)[i..][1..] == ElementMarks(es)[i + 1..];
    }
  }

  function RequiredElementsFrom(es: seq<ElementDef>, i: nat): (r: Result<seq<int>>)
    requires i <= |es|
    ensures r.Failure? <==> exists k :: i <= k < |es| && es[k].usage == Some(REQUIRED) && ParseInt(es[k].sequence).None?
    ensures r.Failure? ==> r.error == NumberFormat
    ensures r.Success? ==> forall x :: x in r.value <==>
      exists k :: i <= k < |es| && es[k].usage == Some(REQUIRED) && ParseInt(es[k].sequence) == Some(x)
    ensures r.Success? && i < |es| && es[i].usage == Some(REQUIRED) ==>
      |r.value| > 0 && Some(r.value[0]) == ParseInt(es[i].sequence)
    decreases |es| - i
  {
    if i == |es| then Success([])
    else
      var rest :- RequiredElementsFrom(es, i + 1);
      if es[i].usage == Some(REQUIRED) then
        var p :- ParseIntOrFail(es[i].sequence);
        Success([p] + rest)
      else Success(rest)
  }

  /** getRequiredCompositePositions(seg): the parsed positions of the
      composite definitions whose usage is "R", in order. */
  function RequiredCompositePositions(seg: SegmentDef): (r: Result<seq<int>>)
    ensures seg.composites.None? ==> r == Success([])
    ensures seg.composites.Some? ==> r == RequiredCompositesFrom(seg.composites.value, 0)
    ensures r.Failure? <==> (seg.composites.Some? &&
      exists k :: 0 <= k < |seg.composites.value| && CompositeMark(seg.composites.value[k]) == Some(None))
    ensures r.Success? && seg.composites.Some? ==> r.value == Somes(CompositeMarks(seg.composites.value))
  {
    if seg.composites.None? then Success([])
    else
      RequiredCompositesFromIsSomes(seg.composites.value, 0);
      assert CompositeMarks(seg.composites.value)[0..] == CompositeMarks(seg.composites.value);
      RequiredCompositesFrom(seg.composites.value, 0)
  }

  /** What one composite definition contributes: nothing unless its usage
      is "R", else its parsed sequence number. */
  function CompositeMark(c: CompositeDef): Option<Option<int>> {
    if c.usage == "R" then Some(ParseInt(c.sequence)) else None
  }

  function CompositeMarks(cs: seq<CompositeDef>): (r: seq<Option<int>>)
    ensures |r| == |cs|
    ensures forall k :: 0 <= k < |cs| ==> r[k] == (if cs[k].usage == "R" then ParseInt(cs[k].sequence) else None)
  {
    seq(|cs|, k requires 0 <= k < |cs| => if cs[k].usage == "R" then ParseInt(cs[k].sequence) else None)
  }

  /** The loop over the composite definitions is a filter-map: the parsed
      positions of the "R" definitions, in definition order. */
  lemma {:induction false} RequiredCompositesFromIsSomes(cs: seq<CompositeDef>, i: nat)
    requires i <= |cs|
    ensures RequiredCompositesFrom(cs, i).Failure? <==> exists k :: i <= k < |cs| && CompositeMark(cs[k]) == Some(None)
    ensures RequiredCompositesFrom(cs, i).Success? ==> RequiredCompositesFrom(cs, i).value == Somes(CompositeMarks(cs)[i..])
    decreases |cs| - i
  {
    if i < |cs| {
      RequiredCompositesFromIsSomes(cs, i + 1);
      assert CompositeMarks(cs)[i..][1..] == CompositeMarks(cs)[i + 1..];
    }
  }

  function RequiredCompositesFrom(cs: seq<CompositeDef>, i: nat): (r: Result<seq<int>>)
    requires i <= |cs|
    ensures r.Failure? <==> exists k :: i <= k < |cs| && cs[k].usage == "R" && ParseInt(cs[k].sequence).None?
    ensures r.Failure? ==> r.error == NumberFormat
    ensures r.Success? ==> forall x :: x in r.value <==>
      exists k :: i <= k < |cs| && cs[k].usage == "R" && ParseInt(cs[k].sequence) == Some(x)
    decreases |cs| - i
  {
    if i == |cs| then Success([])
    else
      var rest :- RequiredCompositesFrom(cs, i + 1);
      if cs[i].usage == "R" then
        var p :- ParseIntOrFail(cs[i].sequence);
        Success([p] + rest)
      else Success(rest)
  }

  // ---------------------------------------------------------------------------
  // Checking a line's elements against the valid codes

  /** Position k of the tokens is subject to a code check: it holds text, a
      code list sits at that position and, for the loop-id variant, the
      element there is required. */
  predicate Checked(tokens: seq<string>, m: CodeMap, required: Option<seq<int>>, k: int)
    requires 0 <= k < |tokens|
  {
    tokens[k] != "" && CodesAt(m, k).Some? && (required.None? || k in required.value)
  }

  /** The loop over positions i, i+1, ... that returns false at the first
      checked token missing from its code list. */
  function CodesAccept(tokens: seq<string>, m: CodeMap, required: Option<seq<int>>, i: nat): (r: bool)
    ensures r <==> forall k :: i <= k < |tokens| && Checked(tokens, m, required, k) ==> tokens[k] in CodesAt(m, k).value
    decreases |tokens| - i
  {
    if i >= |tokens| then true
    else if Checked(tokens, m, required, i) && tokens[i] !in CodesAt(m, i).value then false
    else CodesAccept(tokens, m, required, i + 1)
  }

  /** codesValidated(tokens, seg): every non-empty element after the segment
      id that sits at a coded position holds one of that position's codes. */
  function CodesValidated(tokens: seq<string>, seg: SegmentDef): (r: Result<bool>)
    ensures r.Failure? <==> GetValidCodes(seg).Failure?
    ensures r.Success? ==> (r.value <==> forall k :: 1 <= k < |tokens| && tokens[k] != "" && CodesAt(GetValidCodes(seg).value, k).Some? ==>
      tokens[k] in CodesAt(GetValidCodes(seg).value, k).value)
  {
    var m :- GetValidCodes(seg);
    Success(CodesAccept(tokens, m, None, 1))
  }

  /** codesValidatedForLoopId(tokens, seg): the same check, restricted to
      the positions of required elements. */
  function CodesValidatedForLoopId(tokens: seq<string>, seg: SegmentDef): (r: Result<bool>)
    ensures r.Failure? <==> GetValidCodes(seg).Failure? || RequiredElementPositions(seg).Failure?
    ensures r.Success? ==>
      var m := GetValidCodes(seg).value;
      var required := RequiredElementPositions(seg).value;
      (r.value <==> forall k :: 1 <= k < |tokens| && tokens[k] != "" && CodesAt(m, k).Some? && k in required ==>
        tokens[k] in CodesAt(m, k).value)
  {
    var m :- GetValidCodes(seg);
    var required :- RequiredElementPositions(seg);
    Success(CodesAccept(tokens, m, Some(required), 1))
  }

  /** The loop-matching check looks at fewer positions, so a line that
      passes the full check passes it too. */
  lemma ValidatedImpliesValidatedForLoopId(tokens: seq<string>, seg: SegmentDef)
    requires CodesValidated(tokens, seg) == Success(true)
    requires RequiredElementPositions(seg).Success?
    ensures CodesValidatedForLoopId(tokens, seg) == Success(true)
  {
  }

  /** A segment definition without any code lists accepts every line. */
  lemma NoCodesAcceptsAll(tokens: seq<string>, seg: SegmentDef)
    requires seg.elements.Some? ==> forall k :: 0 <= k < |seg.elements.value| ==> CodesOf(seg.elements.value[k]).None?
    ensures CodesValidated(tokens, seg) == Success(true)
  {
    if seg.elements.Some? {
      ValidCodesNewKeys(seg.elements.value, 0, []);
    }
  }
}

=== FILE: element.dfy ===
/** One data element of a segment: an identifier such as "CLM05", its text
    value and the pieces of that value between composite delimiters. */
module X12Element {
  import opened Wrappers
  import opened Strings
  import opened Tokens
  import opened X12Separators

  datatype Element = Element(
    id: string,
    value: Option<string>,
    subValues: seq<string>,
    separators: Separators)
  {
    /** setValue: the value is replaced, and the composite pieces of the new
        value are appended to the sub-values already held (they are never
        cleared). A null value, or an unset composite delimiter, leaves the
        sub-values alone. */
    function SetValue(v: Option<string>): (r: Element)
      ensures r.id == id && r.value == v && r.separators == separators
      ensures subValues <= r.subValues
      ensures v.None? || separators.composite.None? ==> r.subValues == subValues
      ensures v.Some? && separators.composite.Some? ==>
        var added := r.subValues[|subValues|..];
        NoSeparator(added, separators.composite.value) &&
        Join(added, separators.composite.value) == TrimTrailing(v.value, separators.composite.value)
      ensures v.Some? && separators.composite.Some? ==>
        r.subValues[|subValues|..] == Split(v.value, separators.composite.value)
    {
      var added := if v.None? then [] else SplitOn(separators.composite, v.value).GetOr([]);
      assert (subValues + added)[|subValues|..] == added;
      this.(value := v, subValues := subValues + added)
    }

    /** getSubElement: the i-th composite piece, or null past the end. */
    function GetSubElement(i: nat): (r: Option<string>)
      ensures r.Some? <==> i < |subValues|
      ensures r.Some? ==> r.value == subValues[i]
    {
      if i < |subValues| then Some(subValues[i]) else None
    }

    /** toString: the value; a null value prints as "null". */
    function ToString(): (r: string)
      ensures value.Some? ==> r == value.value
    {
      OrNull(value)
    }
  }

  /** new Element(id, value, separators): the identifier must be present and
      non-empty; a null value is stored as "". */
  function NewElement(id: Option<string>, value: Option<string>, separators: Separators): (r: Result<Element>)
    ensures r.Success? <==> id.Some? && |id.value| > 0
    ensures r.Failure? ==> r.error == IllegalState
    ensures r.Success? ==> r.value.id == id.value && r.value.separators == separators
    ensures r.Success? ==> r.value.value == Some(value.GetOr(""))
    ensures r.Success? && separators.composite.Some? ==>
      Join(r.value.subValues, separators.composite.value) == TrimTrailing(value.GetOr(""), separators.composite.value)
  {
    if id.None? || |id.value| == 0 then Failure(IllegalState)
    else Success(Element(id.value, None, [], separators).SetValue(Some(value.GetOr(""))))
  }

  /** Element.equals: identifier and value only. */
  predicate Equals(a: Element, b: Element) {
    a.id == b.id && a.value == b.value
  }

  /** A composite value built from pieces free of the delimiter (the last one
      non-empty) gives those pieces back as the sub-values. */
  lemma {:induction false} CompositeRoundTrip(id: string, parts: seq<string>, separators: Separators)
    requires |id| > 0 && separators.composite.Some?
    requires |parts| >= 1 && NoSeparator(parts, separators.composite.value)
    requires |parts| == 1 || parts[|parts| - 1] != ""
    ensures NewElement(Some(id), Some(Join(parts, separators.composite.value)), separators).value.subValues == parts
  {
    var c := separators.composite.value;
    var text := Join(parts, c);
    SplitJoin(parts, c);
    var e := Element(id, None, [], separators);
    assert SplitOn(separators.composite, text) == Some(Split(text, c));
    assert e.SetValue(Some(text)).subValues == [] + Split(text, c);
    assert NewElement(Some(id), Some(text), separators) == Success(e.SetValue(Some(text)));
  }

  /** Setting a value twice keeps the pieces of both. */
  lemma SetValueAccumulates(e: Element, v: string, w: string)
    requires e.separators.composite.Some?
    ensures |e.SetValue(Some(v)).SetValue(Some(w)).subValues|
         == |e.subValues| + |Split(v, e.separators.composite.value)| + |Split(w, e.separators.composite.value)|
  {
  }
}

=== FILE: header.dfy ===
/** What the reader takes from the first two segments of a file before it
    parses anything: the three delimiters, which sit at fixed places in the
    106-character ISA segment, and the implementation version, which is the
    last element of the segment that follows (GS). The version must be the
    one the _TYPES table gives for the file type. */
module X12Header {
  import opened Wrappers
  import opened Strings
  import opened Tokens
  import opened X12Separators

  const IsaLength: nat := 106
  const ElementPos: nat := 3
  const CompositePos: nat := 104
  const SegmentPos: nat := 105

  /** X12Reader.FileType: the supported transaction definitions. */
  datatype FileType =
    | ANSI835_5010_X221 | ANSI835_4010_X091 | ANSI837_4010_X096 | ANSI837_4010_X097
    | ANSI837_4010_X098 | ANSI837_5010_X222 | ANSI837_5010_X223 | ANSI837_5010_X231
    | ANSI277_5010_X214 | ANSI270_4010_X092 | ANSI271_4010_X092 | ANSI277_5010_X212
  {
    /** The constant's name, which is how the version error prints it. */
    function Name(): string {
      match this
      case ANSI835_5010_X221 => "ANSI835_5010_X221"
      case ANSI835_4010_X091 => "ANSI835_4010_X091"
      case ANSI837_4010_X096 => "ANSI837_4010_X096"
      case ANSI837_4010_X097 => "ANSI837_4010_X097"
      case ANSI837_4010_X098 => "ANSI837_4010_X098"
      case ANSI837_5010_X222 => "ANSI837_5010_X222"
      case ANSI837_5010_X223 => "ANSI837_5010_X223"
      case ANSI837_5010_X231 => "ANSI837_5010_X231"
      case ANSI277_5010_X214 => "ANSI277_5010_X214"
      case ANSI270_4010_X092 => "ANSI270_4010_X092"
      case ANSI271_4010_X092 => "ANSI271_4010_X092"
      case ANSI277_5010_X212 => "ANSI277_5010_X212"
    }

    /** The _TYPES entry: the version string a file of this type declares. */
    function Version(): string {
      match this
      case ANSI835_4010_X091 => "004010X091A1"
      case ANSI837_4010_X096 => "004010X096A1"
      case ANSI837_4010_X097 => "004010X097A1"
      case ANSI837_4010_X098 => "004010X098A1"
      case ANSI835_5010_X221 => "005010X221A1"
      case ANSI837_5010_X222 => "005010X222A1"
      case ANSI837_5010_X223 => "005010X223A2"
      case ANSI277_5010_X214 => "005010X214"
      case ANSI837_5010_X231 => "005010X231A1"
      case ANSI270_4010_X092 => "004010X092A1"
      case ANSI271_4010_X092 => "004010X092A1"
      case ANSI277_5010_X212 => "005010X212"
    }
  }

  /** Only the two 4010 X092 types (270 and 271) share a version; every other
      type is told apart by the version it expects. */
  lemma VersionsDistinct(a: FileType, b: FileType)
    requires a != b && a.Version() == b.Version()
    ensures {a, b} == {ANSI270_4010_X092, ANSI271_4010_X092}
  {
  }

  /** A character that cannot serve as a delimiter: a digit, a letter or
      white space. */
  predicate Unusable(c: char) {
    IsDigit(c) || IsLetter(c) || IsWhitespace(c)
  }

  /** getSeparators: the element delimiter is the character after "ISA", the
      composite delimiter and the segment terminator the last two of the 106
      characters. A shorter file, or a delimiter that is a digit, a letter or
      white space, gives none. */
  function DetectSeparators(text: string): (r: Option<Separators>)
    ensures r.Some? <==> |text| >= IsaLength && !Unusable(text[ElementPos]) && !Unusable(text[CompositePos]) &&
                         !Unusable(text[SegmentPos])
    ensures r.Some? ==> r.value.segment == Some(text[SegmentPos]) && r.value.element == Some(text[ElementPos]) &&
                        r.value.composite == Some(text[CompositePos]) && r.value.lineBreak == NONE
  {
    if |text| < IsaLength then None
    else if Unusable(text[SegmentPos]) || Unusable(text[ElementPos]) || Unusable(text[CompositePos]) then None
    else Some(Make(Some(text[SegmentPos]), Some(text[ElementPos]), Some(text[CompositePos])))
  }

  /** A file whose ISA segment is written with the default delimiters
      ('*', ':', '~') is read with the default separators. */
  lemma DetectDefault(text: string)
    requires |text| >= IsaLength && text[ElementPos] == '*' && text[CompositePos] == ':' && text[SegmentPos] == '~'
    ensures DetectSeparators(text) == Some(Default())
  {
  }

  /** checkVersionsAreConsistent's reading: after the ISA segment, the text
      up to the next segment terminator; the version is what follows the
      last element delimiter in it. Reaching the end of the file first, or a
      segment without an element delimiter, gives none. */
  function VersionOf(text: string, segment: char, element: char): (r: Option<string>)
    requires |text| >= IsaLength
    ensures var rest := text[IsaLength..];
      r.None? <==> segment !in rest || element !in rest[..IndexOf(rest, segment).value]
    ensures r.Some? ==> segment !in r.value && element !in r.value
  {
    var rest := text[IsaLength..];
    match IndexOf(rest, segment)
    case None => None
    case Some(k) =>
      var line := rest[..k];
      match LastIndexOf(line, element)
      case None => None
      case Some(p) =>
        assert forall j :: p + 1 <= j < |line| ==> line[j] == rest[j];
        Some(line[p + 1..])
  }

  /** The version read back is the last element of the segment that follows
      the ISA segment, whatever comes after that segment's terminator. */
  lemma VersionOfSegment(isa: string, pre: string, version: string, tail: string, segment: char, element: char)
    requires |isa| == IsaLength
    requires segment !in pre && segment !in version && element !in version && segment != element
    ensures VersionOf(isa + pre + [element] + version + [segment] + tail, segment, element) == Some(version)
  {
    var text := isa + pre + [element] + version + [segment] + tail;
    var rest := text[IsaLength..];
    var line := pre + [element] + version;
    assert rest == line + [segment] + tail;
    assert segment !in line;
    IndexOfAfterPrefix(line, tail, segment);
    assert rest[..|line|] == line;
    LastIndexOfBeforeTail(pre, version, element);
    assert line[|pre| + 1..] == version;
  }

  function VersionMessage(version: Option<string>, ft: FileType): string {
    "ANSI version " + OrNull(version) + " not consistent with version specified " + ft.Name()
  }

  /** checkVersionsAreConsistent: the version read must equal the type's;
      otherwise the message naming both is returned. */
  function CheckVersions(ft: FileType, text: string, seps: Separators): (r: Option<string>)
    requires |text| >= IsaLength && seps.segment.Some? && seps.element.Some?
    ensures r.None? <==> VersionOf(text, seps.segment.value, seps.element.value) == Some(ft.Version())
    ensures r.Some? ==> r.value == VersionMessage(VersionOf(text, seps.segment.value, seps.element.value), ft)
  {
    var version := VersionOf(text, seps.segment.value, seps.element.value);
    if version == Some(ft.Version()) then None else Some(VersionMessage(version, ft))
  }
}

=== FILE: loop.dfy ===
/** The loop tree of a parsed document. Java links Loop objects through
    child lists and a parent back-pointer; here the loops of a document live
    in one arena (`Tree`), a loop is an index into it, its children are a list
    of indices and its parent an optional index. Every child sits after its
    parent in the arena, so walks down and up the tree terminate.
    A loop that is removed or replaced keeps its slot (and its stale parent
    index), as the detached Java object keeps its parent field. */
module X12Loop {
  import opened Wrappers
  import opened Strings
  import opened Tokens
  import opened X12Separators
  import opened X12Segment

  datatype Node = Node(
    id: Option<string>,
    segments: seq<Segment>,
    loops: seq<nat>,
    parent: Option<nat>,
    separators: Separators)

  datatype Tree = Tree(nodes: seq<Node>) {
    /** Children come after their loop, parents before it. */
    predicate Valid() {
      (forall n, k :: 0 <= n < |nodes| && 0 <= k < |nodes[n].loops| ==> n < nodes[n].loops[k] < |nodes|) &&
      (forall n :: 0 <= n < |nodes| && nodes[n].parent.Some? ==> nodes[n].parent.value < n)
    }

    predicate Has(n: nat) {
      n < |nodes|
    }
  }

  /** A fresh loop with no segments, children or parent. */
  function Fresh(separators: Separators, id: Option<string>): Node {
    Node(id, [], [], None, separators)
  }

  /** The arena with loop n replaced. */
  function Put(t: Tree, n: nat, node: Node): (r: Tree)
    requires t.Has(n)
    ensures |r.nodes| == |t.nodes| && r.nodes[n] == node
    ensures forall m :: 0 <= m < |t.nodes| && m != n ==> r.nodes[m] == t.nodes[m]
  {
    Tree(t.nodes[n := node])
  }

  /** new Loop(separators, id): a new root in the arena; `new Loop(id)` is the
      same with the default separators. */
  function NewLoop(t: Tree, separators: Separators, id: Option<string>): (r: (Tree, nat))
    requires t.Valid()
    ensures r.0.Valid() && r.1 == |t.nodes| && r.0.nodes == t.nodes + [Fresh(separators, id)]
  {
    (Tree(t.nodes + [Fresh(separators, id)]), |t.nodes|)
  }

  // ---------------------------------------------------------------------------
  // Child loops

  /** The arena r is t with k inserted among p's children at index and p
      made k's parent; no other loop changes. */
  ghost predicate LoopInserted(t: Tree, r: Tree, p: nat, index: nat, k: nat)
    requires t.Has(p) && t.Has(k) && index <= |t.nodes[p].loops|
  {
    |r.nodes| == |t.nodes| &&
    r.nodes[p].loops == t.nodes[p].loops[..index] + [k] + t.nodes[p].loops[index..] &&
    r.nodes[p] == t.nodes[p].(loops := r.nodes[p].loops) &&
    r.nodes[k] == t.nodes[k].(parent := Some(p)) &&
    forall m :: 0 <= m < |t.nodes| && m != p && m != k ==> r.nodes[m] == t.nodes[m]
  }

  /** The arena r is t with p's child at index replaced by k and p made k's
      parent; no other loop changes. */
  ghost predicate LoopReplaced(t: Tree, r: Tree, p: nat, index: nat, k: nat)
    requires t.Has(p) && t.Has(k) && index < |t.nodes[p].loops|
  {
    |r.nodes| == |t.nodes| &&
    r.nodes[p] == t.nodes[p].(loops := t.nodes[p].loops[index := k]) &&
    r.nodes[k] == t.nodes[k].(parent := Some(p)) &&
    forall m :: 0 <= m < |t.nodes| && m != p && m != k ==> r.nodes[m] == t.nodes[m]
  }

  /** List.add(index, loop) on p's children, for an index in range. */
  function InsertLoop(t: Tree, p: nat, index: nat, k: nat): (r: Tree)
    requires t.Valid() && t.Has(p) && p < k && t.Has(k)
    requires index <= |t.nodes[p].loops|
    ensures r.Valid() && LoopInserted(t, r, p, index, k)
  {
    var ls := t.nodes[p].loops;
    var t1 := Put(t, p, t.nodes[p].(loops := ls[..index] + [k] + ls[index..]));
    var r := Put(t1, k, t1.nodes[k].(parent := Some(p)));
    assert forall j :: 0 <= j < |r.nodes[p].loops| ==> r.nodes[p].loops[j] in ls || r.nodes[p].loops[j] == k;
    r
  }

  /** addLoop(index, loop): k is inserted among p's children at index and
      its parent becomes p; an index below zero or past the end throws. Java
      accepts any loop object; the arena asks for one placed after p. */
  function AddLoop(t: Tree, p: nat, index: int, k: nat): (r: Result<Tree>)
    requires t.Valid() && t.Has(p) && p < k && t.Has(k)
    ensures r.Failure? <==> index < 0 || index > |t.nodes[p].loops|
    ensures r.Failure? ==> r.error == IndexOutOfBounds
    ensures r.Success? ==> r.value.Valid() && LoopInserted(t, r.value, p, index, k)
  {
    if index < 0 || index > |t.nodes[p].loops| then Failure(IndexOutOfBounds)
    else Success(InsertLoop(t, p, index, k))
  }

  /** addLoop(id): a new child sharing p's separators, appended last. */
  function AddLoopId(t: Tree, p: nat, id: Option<string>): (r: (Tree, nat))
    requires t.Valid() && t.Has(p)
    ensures r.0.Valid() && r.1 == |t.nodes| && |r.0.nodes| == |t.nodes| + 1
    ensures r.0.nodes[r.1] == Fresh(t.nodes[p].separators, id).(parent := Some(p))
    ensures r.0.nodes[p] == t.nodes[p].(loops := t.nodes[p].loops + [r.1])
    ensures forall m :: 0 <= m < |t.nodes| && m != p ==> r.0.nodes[m] == t.nodes[m]
  {
    var (t1, k) := NewLoop(t, t.nodes[p].separators, id);
    assert t1.nodes[..|t.nodes|] == t.nodes;
    assert t1.nodes[p].loops[..|t1.nodes[p].loops|] == t1.nodes[p].loops;
    (InsertLoop(t1, p, |t1.nodes[p].loops|, k), k)
  }

  /** addLoop(index, id): a new child sharing p's separators, at index; an
      index out of range throws. */
  function AddLoopIdAt(t: Tree, p: nat, index: int, id: Option<string>): (r: Result<(Tree, nat)>)
    requires t.Valid() && t.Has(p)
    ensures r.Failure? <==> index < 0 || index > |t.nodes[p].loops|
    ensures r.Failure? ==> r.error == IndexOutOfBounds
    ensures r.Success? ==> (
      var (u, k) := r.value;
      u.Valid() && k == |t.nodes| && |u.nodes| == |t.nodes| + 1 &&
      u.nodes[k] == Fresh(t.nodes[p].separators, id).(parent := Some(p)) &&
      u.nodes[p].loops == t.nodes[p].loops[..index] + [k] + t.nodes[p].loops[index..] &&
      u.nodes[p] == t.nodes[p].(loops := u.nodes[p].loops) &&
      forall m :: 0 <= m < |t.nodes| && m != p ==> u.nodes[m] == t.nodes[m])
  {
    var (t1, k) := NewLoop(t, t.nodes[p].separators, id);
    assert t1.nodes[..|t.nodes|] == t.nodes;
    var u :- AddLoop(t1, p, index, k);
    Success((u, k))
  }

  /** setLoop(index, loop): k replaces p's child at index and gets p as its
      parent; the replaced loop stays in the arena. An index outside the
      list throws. */
  function SetLoop(t: Tree, p: nat, index: int, k: nat): (r: Result<Tree>)
    requires t.Valid() && t.Has(p) && p < k && t.Has(k)
    ensures r.Failure? <==> index < 0 || index >= |t.nodes[p].loops|
    ensures r.Failure? ==> r.error == IndexOutOfBounds
    ensures r.Success? ==> r.value.Valid() && LoopReplaced(t, r.value, p, index, k)
  {
    if index < 0 || index >= |t.nodes[p].loops| then Failure(IndexOutOfBounds)
    else
      var ls := t.nodes[p].loops;
      var t1 := Put(t, p, t.nodes[p].(loops := ls[index := k]));
      Success(Put(t1, k, t1.nodes[k].(parent := Some(p))))
  }

  /** setLoop(index, id): a new child sharing p's separators replaces the
      one at index; an index outside the list throws. */
  function SetLoopId(t: Tree, p: nat, index: int, id: Option<string>): (r: Result<(Tree, nat)>)
    requires t.Valid() && t.Has(p)
    ensures r.Failure? <==> index < 0 || index >= |t.nodes[p].loops|
    ensures r.Failure? ==> r.error == IndexOutOfBounds
    ensures r.Success? ==> (
      var (u, k) := r.value;
      u.Valid() && k == |t.nodes| && |u.nodes| == |t.nodes| + 1 &&
      u.nodes[k] == Fresh(t.nodes[p].separators, id).(parent := Some(p)) &&
      u.nodes[p] == t.nodes[p].(loops := t.nodes[p].loops[index := k]) &&
      forall m :: 0 <= m < |t.nodes| && m != p ==> u.nodes[m] == t.nodes[m])
  {
    var (t1, k) := NewLoop(t, t.nodes[p].separators, id);
    var u :- SetLoop(t1, p, index, k);
    Success((u, k))
  }

  /** removeLoop(index): the child at index leaves p's list and is returned;
      an index outside the list throws. */
  function RemoveLoop(t: Tree, p: nat, index: int): (r: Result<(Tree, nat)>)
    requires t.Valid() && t.Has(p)
    ensures r.Failure? <==> index < 0 || index >= |t.nodes[p].loops|
    ensures r.Failure? ==> r.error == IndexOutOfBounds
    ensures r.Success? ==> (
      var (u, k) := r.value;
      u.Valid() && |u.nodes| == |t.nodes| &&
      k == t.nodes[p].loops[index] &&
      u.nodes[p].loops == t.nodes[p].loops[..index] + t.nodes[p].loops[index + 1..] &&
      u.nodes[p] == t.nodes[p].(loops := u.nodes[p].loops) &&
      forall m :: 0 <= m < |t.nodes| && m != p ==> u.nodes[m] == t.nodes[m])
  {
    if index < 0 || index >= |t.nodes[p].loops| then Failure(IndexOutOfBounds)
    else
      var ls := t.nodes[p].loops;
      var u := Put(t, p, t.nodes[p].(loops := ls[..index] + ls[index + 1..]));
      assert forall j :: 0 <= j < |u.nodes[p].loops| ==> u.nodes[p].loops[j] in ls;
      Success((u, ls[index]))
  }

  /** Removing a child loop and adding it back at the same index restores
      the tree, when the child's parent link pointed at p. */
  lemma RemoveThenAddLoop(t: Tree, p: nat, index: int)
    requires t.Valid() && t.Has(p) && 0 <= index < |t.nodes[p].loops|
    requires t.nodes[t.nodes[p].loops[index]].parent == Some(p)
    ensures var removed := RemoveLoop(t, p, index);
            removed.Success? && p < removed.value.1 && AddLoop(removed.value.0, p, index, removed.value.1) == Success(t)
  {
    var (t1, k) := RemoveLoop(t, p, index).value;
    var ls := t.nodes[p].loops;
    assert ls[..index] + [k] + ls[index + 1..] == ls;
    assert (ls[..index] + ls[index + 1..])[..index] == ls[..index];
    assert (ls[..index] + ls[index + 1..])[index..] == ls[index + 1..];
    assert InsertLoop(t1, p, index, k).nodes == t.nodes;
  }
}

=== FILE: loopconfig.dfy ===
/** The reader's flattened view of the schema: one LoopConfig per loop id,
    holding what the matcher and the validators need (the first and last
    segment definitions, the parent id, the child ids) and the running
    number of times the loop has been seen in the data. */
module X12LoopConfig {
  import opened Wrappers
  import opened Mapping

  datatype LoopConfig = LoopConfig(
    loopId: string,
    parentLoop: Option<string>,
    childList: Option<seq<string>>,
    loopRepeats: string,
    usage: Option<Usage>,
    firstSegment: Option<SegmentDef>,
    lastSegment: Option<SegmentDef>,
    hasDataSegments: bool,
    repeatCount: nat)

  /** new LoopConfig(...): the counter starts at zero and no first or last
      segment is known yet. */
  function NewLoopConfig(loopId: string, parentLoop: Option<string>, childList: Option<seq<string>>,
                         loopRepeats: string, usage: Option<Usage>, hasDataSegments: bool): (r: LoopConfig)
    ensures r.repeatCount == 0 && r.firstSegment.None? && r.lastSegment.None?
    ensures r.loopId == loopId && r.parentLoop == parentLoop && r.childList == childList
    ensures r.loopRepeats == loopRepeats && r.usage == usage && r.hasDataSegments == hasDataSegments
  {
    LoopConfig(loopId, parentLoop, childList, loopRepeats, usage, None, None, hasDataSegments, 0)
  }

  /** incrementLoopRepeatCount: one more, nothing else changes. */
  function Increment(c: LoopConfig): (r: LoopConfig)
    ensures r.repeatCount == c.repeatCount + 1
    ensures r.(repeatCount := c.repeatCount) == c
  {
    c.(repeatCount := c.repeatCount + 1)
  }

  /** setFirstSegmentXid. */
  function SetFirstSegment(c: LoopConfig, s: SegmentDef): (r: LoopConfig)
    ensures r.firstSegment == Some(s) && r.(firstSegment := c.firstSegment) == c
  {
    c.(firstSegment := Some(s))
  }

  /** setLastSegmentXid. */
  function SetLastSegment(c: LoopConfig, s: SegmentDef): (r: LoopConfig)
    ensures r.lastSegment == Some(s) && r.(lastSegment := c.lastSegment) == c
  {
    c.(lastSegment := Some(s))
  }

  predicate HasId(cs: seq<LoopConfig>, id: string) {
    exists i :: 0 <= i < |cs| && cs[i].loopId == id
  }

  predicate UniqueIds(cs: seq<LoopConfig>) {
    forall i, j :: 0 <= i < j < |cs| ==> cs[i].loopId != cs[j].loopId
  }

  /** containsLoop(id): some config already has that id. */
  function ContainsLoop(cs: seq<LoopConfig>, id: string): (r: bool)
    ensures r <==> HasId(cs, id)
  {
    if |cs| == 0 then false
    else if cs[0].loopId == id then true
    else
      assert forall i :: 1 <= i < |cs| ==> cs[i] == cs[1..][i - 1];
      ContainsLoop(cs[1..], id)
  }

  /** getChildLoops: the ids of the child loop definitions, in order. */
  function ChildLoopIds(def: LoopDef): (r: seq<string>)
    ensures |r| == |def.Children()|
    ensures forall i :: 0 <= i < |r| ==> r[i] == def.Children()[i].xid
  {
    seq(|def.Children()|, i requires 0 <= i < |def.Children()| => def.Children()[i].xid)
  }

  /** The config getLoopConfiguration builds for one loop definition: the
      child list only when the definition has a child-loop list, the first
      segment when it has a segment list (an empty list throws), the last
      segment when that list holds at least two. */
  function ConfigFor(def: LoopDef, parent: Option<string>): (r: Result<LoopConfig>)
    ensures r.Failure? <==> def.segments.Some? && |def.segments.value| == 0
    ensures r.Failure? ==> r.error == IndexOutOfBounds
    ensures r.Success? ==> r.value.loopId == def.xid && r.value.parentLoop == parent && r.value.repeatCount == 0
    ensures r.Success? ==> r.value.loopRepeats == def.repeat && r.value.usage == def.usage
    ensures r.Success? ==> (r.value.childList.Some? <==> def.loops.Loops?)
    ensures r.Success? && def.loops.Loops? ==> r.value.childList == Some(ChildLoopIds(def))
    ensures r.Success? ==> (r.value.hasDataSegments <==> def.segments.Some?)
    ensures r.Success? ==> (r.value.firstSegment.Some? <==> def.segments.Some?)
    ensures r.Success? && def.segments.Some? ==> r.value.firstSegment == Some(def.segments.value[0])
    ensures r.Success? ==> (r.value.lastSegment.Some? <==> def.segments.Some? && |def.segments.value| >= 2)
    ensures r.Success? && r.value.lastSegment.Some? ==>
      r.value.lastSegment == Some(def.segments.value[|def.segments.value| - 1])
  {
    var children := if def.loops.Loops? then Some(ChildLoopIds(def)) else None;
    var c := NewLoopConfig(def.xid, parent, children, def.repeat, def.usage, def.segments.Some?);
    match def.segments
    case None => Success(c)
    case Some(ss) =>
      if |ss| == 0 then Failure(IndexOutOfBounds)
      else
        var c1 := SetFirstSegment(c, ss[0]);
        if |ss| > 1 then Success(SetLastSegment(c1, ss[|ss| - 1])) else Success(c1)
  }

  /** c is the config getLoopConfiguration builds for def under parent, or
      for some loop further down def's subtree under its own schema parent's
      id. */
  predicate Placed(c: LoopConfig, def: LoopDef, parent: Option<string>)
    decreases def
  {
    Success(c) == ConfigFor(def, parent) ||
    exists i :: 0 <= i < |def.Children()| && Placed(c, def.Children()[i], Some(def.xid))
  }

  /** getLoopConfiguration(loop, parentID): a loop whose id already has a
      config is skipped together with its whole subtree; otherwise its config
      is added, then its child definitions are visited in order with this
      loop as their parent. */
  function Configure(def: LoopDef, parent: Option<string>, acc: seq<LoopConfig>): (r: Result<seq<LoopConfig>>)
    requires UniqueIds(acc)
    ensures r.Success? ==> acc <= r.value && UniqueIds(r.value) && HasId(r.value, def.xid)
    ensures r.Failure? ==> r.error == IndexOutOfBounds
    ensures HasId(acc, def.xid) ==> r == Success(acc)
    ensures r.Success? && !HasId(acc, def.xid) ==>
      |r.value| > |acc| && Success(r.value[|acc|]) == ConfigFor(def, parent)
    ensures r.Success? && !HasId(acc, def.xid) ==>
      forall k :: 0 <= k < |def.Children()| ==> HasId(r.value, def.Children()[k].xid)
    ensures r.Success? ==> forall k :: |acc| <= k < |r.value| ==> Placed(r.value[k], def, parent)
    decreases def, 1
  {
    if ContainsLoop(acc, def.xid) then Success(acc)
    else
      var c :- ConfigFor(def, parent);
      var acc1 := acc + [c];
      assert acc1[|acc|] == c;
      assert UniqueIds(acc1);
      if def.loops.Loops? then
        var r := ConfigureChildren(def, 0, acc1);
        if r.Success? then
          assert r.value[|acc|] == acc1[|acc|];
          assert forall k :: |acc| + 1 <= k < |r.value| ==> Placed(r.value[k], def, parent);
          r
        else r
      else Success(acc1)
  }

  function ConfigureChildren(def: LoopDef, i: nat, acc: seq<LoopConfig>): (r: Result<seq<LoopConfig>>)
    requires UniqueIds(acc) && i <= |def.Children()|
    ensures r.Success? ==> acc <= r.value && UniqueIds(r.value)
    ensures r.Failure? ==> r.error == IndexOutOfBounds
    ensures r.Success? ==> forall k :: i <= k < |def.Children()| ==> HasId(r.value, def.Children()[k].xid)
    ensures r.Success? ==> forall k :: |acc| <= k < |r.value| ==>
      exists j :: i <= j < |def.Children()| && Placed(r.value[k], def.Children()[j], Some(def.xid))
    decreases def, 0, |def.Children()| - i
  {
    if i == |def.Children()| then Success(acc)
    else
      var acc1 :- Configure(def.Children()[i], Some(def.xid), acc);
      var r := ConfigureChildren(def, i + 1, acc1);
      if r.Success? then
        assert HasId(r.value, def.Children()[i].xid) by {
          var j :| 0 <= j < |acc1| && acc1[j].loopId == def.Children()[i].xid;
          assert r.value[j] == acc1[j];
        }
        forall k | |acc| <= k < |r.value|
          ensures exists j :: i <= j < |def.Children()| && Placed(r.value[k], def.Children()[j], Some(def.xid))
        {
          if k < |acc1| {
            assert r.value[k] == acc1[k];
            assert Placed(r.value[k], def.Children()[i], Some(def.xid));
          } else {
            var j :| i + 1 <= j < |def.Children()| && Placed(r.value[k], def.Children()[j], Some(def.xid));
          }
        }
        r
      else r
  }

  /** The whole config table, built from the schema's root loop. */
  function BuildConfigs(root: LoopDef): (r: Result<seq<LoopConfig>>)
    ensures r.Success? ==> UniqueIds(r.value) && |r.value| >= 1
    ensures r.Success? ==> Success(r.value[0]) == ConfigFor(root, None)
    ensures r.Success? ==> forall k :: 0 <= k < |r.value| ==> Placed(r.value[k], root, None)
    ensures r.Failure? ==> r.error == IndexOutOfBounds
  {
    Configure(root, None, [])
  }

  /** updateLoopCounts(id): every config with that id is incremented. */
  function UpdateLoopCounts(cs: seq<LoopConfig>, id: string): (r: seq<LoopConfig>)
    ensures |r| == |cs|
    ensures forall i :: 0 <= i < |cs| ==>
      r[i] == if cs[i].loopId == id then Increment(cs[i]) else cs[i]
  {
    seq(|cs|, i requires 0 <= i < |cs| => if cs[i].loopId == id then Increment(cs[i]) else cs[i])
  }

  /** Counting a loop raises its counter by exactly one when the ids are
      unique, and leaves every other config alone. */
  lemma UpdateLoopCountsOne(cs: seq<LoopConfig>, id: string, i: nat)
    requires UniqueIds(cs) && i < |cs| && cs[i].loopId == id
    ensures UpdateLoopCounts(cs, id)[i].repeatCount == cs[i].repeatCount + 1
    ensures forall j :: 0 <= j < |cs| && j != i ==> UpdateLoopCounts(cs, id)[j] == cs[j]
    ensures UniqueIds(UpdateLoopCounts(cs, id))
  {
    var r := UpdateLoopCounts(cs, id);
    forall j | 0 <= j < |cs| && j != i
      ensures r[j] == cs[j]
    {
      if j < i {
        assert cs[j].loopId != cs[i].loopId;
      } else {
        assert cs[i].loopId != cs[j].loopId;
      }
    }
    assert forall j :: 0 <= j < |cs| ==> r[j].loopId == cs[j].loopId;
  }
}

=== FILE: looperrors.dfy ===
/** checkLoopErrors: after a clean parse, every config is checked for
    appearing more often than its repeat allows, and every stored instance
    of its loop for REQUIRED child loops that never appeared under it. */
module X12LoopErrors {
  import opened Wrappers
  import opened Strings
  import opened Mapping
  import opened X12Schema
  import opened X12LoopConfig
  import opened X12Validate
  import opened X12Store

  function TooManyLoopsMessage(loopId: string): string {
    loopId + " appears too many times"
  }

  function MissingChildMessage(child: string, loopId: string, k: nat): string {
    child + " is required but not found in " + loopId + " iteration #" + NatToString(k + 1)
  }

  /** The config takes part in the repeat check: a REQUIRED or SITUATIONAL
      loop with a parent loop that appeared at least once. */
  predicate RepeatChecked(lc: LoopConfig) {
    (lc.usage == Some(REQUIRED) || lc.usage == Some(SITUATIONAL)) && lc.parentLoop.Some? && lc.repeatCount > 0
  }

  /** The repeat half of checkLoopErrors for one config. */
  function RepeatErrors(cs: seq<LoopConfig>, lc: LoopConfig): (r: Result<seq<string>>)
    ensures r.Failure? ==> r.error == NumberFormat && RepeatChecked(lc)
    ensures r.Success? ==> r.value == [] || r.value == [TooManyLoopsMessage(lc.loopId)]
    ensures r.Success? ==> (r.value == [TooManyLoopsMessage(lc.loopId)] <==>
      RepeatChecked(lc) && CompareRepeats(cs, lc.repeatCount, lc.loopRepeats, lc.parentLoop.value) == Success(false))
  {
    if RepeatChecked(lc) then
      var ok :- CompareRepeats(cs, lc.repeatCount, lc.loopRepeats, lc.parentLoop.value);
      Success(if ok then [] else [TooManyLoopsMessage(lc.loopId)])
    else Success([])
  }

  /** A loop that may repeat without bound is never reported for appearing
      too often, nor is one whose count stays within its bound times the
      parent's count. */
  lemma RepeatErrorsWithinBound(cs: seq<LoopConfig>, lc: LoopConfig)
    requires RepeatChecked(lc)
    requires lc.loopRepeats == ">1" ||
      ('>' !in lc.loopRepeats && ParseInt(lc.loopRepeats).Some? && ParentCount(cs, lc.parentLoop.value) > 0 &&
       lc.repeatCount <= ParseInt(lc.loopRepeats).value * ParentCount(cs, lc.parentLoop.value))
    ensures RepeatErrors(cs, lc) == Success([])
  {
  }

  /** The messages for one instance of a loop: every required child id the
      instance does not hold. */
  function InstanceErrors(required: seq<string>, present: set<Option<string>>, loopId: string, k: nat): (r: seq<string>)
    ensures forall x :: x in required && Some(x) !in present ==> MissingChildMessage(x, loopId, k) in r
    ensures forall m :: m in r ==> exists x :: x in required && Some(x) !in present && m == MissingChildMessage(x, loopId, k)
  {
    if |required| == 0 then []
    else
      var rest := InstanceErrors(required[1..], present, loopId, k);
      assert forall x :: x in required ==> x == required[0] || x in required[1..];
      if Some(required[0]) !in present then [MissingChildMessage(required[0], loopId, k)] + rest else rest
  }

  /** The messages for instances k, k+1, ... of a loop. */
  function TrackerErrors(required: seq<string>, instances: seq<set<Option<string>>>, loopId: string, k: nat): (r: seq<string>)
    requires k <= |instances|
    ensures forall j, x :: k <= j < |instances| && x in required && Some(x) !in instances[j] ==>
      MissingChildMessage(x, loopId, j) in r
    ensures forall m :: m in r ==> exists j, x :: (k <= j < |instances| && x in required && Some(x) !in instances[j] &&
      m == MissingChildMessage(x, loopId, j))
    decreases |instances| - k
  {
    if k == |instances| then []
    else InstanceErrors(required, instances[k], loopId, k) + TrackerErrors(required, instances, loopId, k + 1)
  }

  /** Everything checkLoopErrors reports about one config: the repeat check,
      then, when the loop was tracked, its missing required children per
      instance. */
  function ConfigErrors(cs: seq<LoopConfig>, tracker: Tracker, root: LoopDef, lc: LoopConfig): (r: Result<seq<string>>)
    ensures r.Success? <==> RepeatErrors(cs, lc).Success? && RequiredChildLoops(root, lc.loopId, {}).Success?
    ensures r.Success? ==> RepeatErrors(cs, lc).value <= r.value
    ensures r.Success? && Some(lc.loopId) in tracker ==>
      forall j, x :: (0 <= j < |tracker[Some(lc.loopId)]| && x in RequiredChildLoops(root, lc.loopId, {}).value &&
        Some(x) !in tracker[Some(lc.loopId)][j]) ==> MissingChildMessage(x, lc.loopId, j) in r.value
    ensures r.Success? && Some(lc.loopId) !in tracker ==> r.value == RepeatErrors(cs, lc).value
    ensures r.Failure? ==> r.error == NumberFormat || r.error == NullPointer
  {
    var repeats :- RepeatErrors(cs, lc);
    assert Elements([]) == {};
    var required := RequiredChildList(root, lc.loopId, []);
    if required.Failure? then Failure(NullPointer)
    else if Some(lc.loopId) in tracker then
      Success(repeats + TrackerErrors(required.value, tracker[Some(lc.loopId)], lc.loopId, 0))
    else Success(repeats)
  }

  /** The messages of the configs from index i on, in config order. */
  function LoopErrorsFrom(cs: seq<LoopConfig>, tracker: Tracker, root: LoopDef, i: nat): (r: Result<seq<string>>)
    requires i <= |cs|
    ensures r.Success? <==> forall j :: i <= j < |cs| ==> ConfigErrors(cs, tracker, root, cs[j]).Success?
    ensures r.Failure? ==> r.error == NumberFormat || r.error == NullPointer
    decreases |cs| - i
  {
    if i == |cs| then Success([])
    else
      var here := ConfigErrors(cs, tracker, root, cs[i]);
      var rest := LoopErrorsFrom(cs, tracker, root, i + 1);
      if here.Failure? then Failure(here.error)
      else if rest.Failure? then Failure(rest.error)
      else Success(here.value + rest.value)
  }

  /** Every message of a config from index i on appears in the messages
      from i on. */
  lemma {:induction false} LoopErrorsFromCollects(cs: seq<LoopConfig>, tracker: Tracker, root: LoopDef, i: nat, j: nat, m: string)
    requires i <= j < |cs| && LoopErrorsFrom(cs, tracker, root, i).Success?
    requires m in ConfigErrors(cs, tracker, root, cs[j]).value
    ensures m in LoopErrorsFrom(cs, tracker, root, i).value
    decreases |cs| - i
  {
    var here := ConfigErrors(cs, tracker, root, cs[i]).value;
    var rest := LoopErrorsFrom(cs, tracker, root, i + 1);
    assert LoopErrorsFrom(cs, tracker, root, i).value == here + rest.value;
    if j > i {
      LoopErrorsFromCollects(cs, tracker, root, i + 1, j, m);
      assert m in rest.value;
    }
  }

  /** Nothing else appears: each message from index i on is a message of
      some config from i on. */
  lemma {:induction false} LoopErrorsFromOnly(cs: seq<LoopConfig>, tracker: Tracker, root: LoopDef, i: nat, m: string)
    requires i <= |cs| && LoopErrorsFrom(cs, tracker, root, i).Success?
    requires m in LoopErrorsFrom(cs, tracker, root, i).value
    ensures exists j :: i <= j < |cs| && m in ConfigErrors(cs, tracker, root, cs[j]).value
    decreases |cs| - i
  {
    var here := ConfigErrors(cs, tracker, root, cs[i]).value;
    var rest := LoopErrorsFrom(cs, tracker, root, i + 1);
    assert LoopErrorsFrom(cs, tracker, root, i).value == here + rest.value;
    if m !in here {
      assert m in rest.value;
      LoopErrorsFromOnly(cs, tracker, root, i + 1, m);
    }
  }

  /** checkLoopErrors over the reader's configs. */
  function CheckLoopErrors(rd: Reader, root: LoopDef): (r: Result<seq<string>>)
    ensures r.Success? <==> forall j :: 0 <= j < |rd.configs| ==> ConfigErrors(rd.configs, rd.tracker, root, rd.configs[j]).Success?
    ensures r.Failure? ==> r.error == NumberFormat || r.error == NullPointer
  {
    LoopErrorsFrom(rd.configs, rd.tracker, root, 0)
  }

  /** A tracked instance of a loop that lacks one of the loop's REQUIRED
      children is reported, naming the child, the loop and the instance
      (counted from one). */
  lemma MissingChildReported(rd: Reader, root: LoopDef, i: nat, j: nat, x: string)
    requires i < |rd.configs|
    requires Some(rd.configs[i].loopId) in rd.tracker && j < |rd.tracker[Some(rd.configs[i].loopId)]|
    requires Some(x) !in rd.tracker[Some(rd.configs[i].loopId)][j]
    ensures (CheckLoopErrors(rd, root).Success? && RequiredChildLoops(root, rd.configs[i].loopId, {}).Success? &&
             x in RequiredChildLoops(root, rd.configs[i].loopId, {}).value) ==>
      MissingChildMessage(x, rd.configs[i].loopId, j) in CheckLoopErrors(rd, root).value
  {
    var lc := rd.configs[i];
    if CheckLoopErrors(rd, root).Success? && RequiredChildLoops(root, lc.loopId, {}).Success? &&
       x in RequiredChildLoops(root, lc.loopId, {}).value {
      assert ConfigErrors(rd.configs, rd.tracker, root, lc).Success?;
      assert MissingChildMessage(x, lc.loopId, j) in ConfigErrors(rd.configs, rd.tracker, root, lc).value;
      LoopErrorsFromCollects(rd.configs, rd.tracker, root, 0, i, MissingChildMessage(x, lc.loopId, j));
    }
  }

  /** A config that appeared more often than its repeat allows is reported. */
  lemma TooManyReported(rd: Reader, root: LoopDef, i: nat)
    requires i < |rd.configs| && CheckLoopErrors(rd, root).Success?
    requires RepeatChecked(rd.configs[i])
    requires CompareRepeats(rd.configs, rd.configs[i].repeatCount, rd.configs[i].loopRepeats, rd.configs[i].parentLoop.value) == Success(false)
    ensures TooManyLoopsMessage(rd.configs[i].loopId) in CheckLoopErrors(rd, root).value
  {
    var lc := rd.configs[i];
    assert ConfigErrors(rd.configs, rd.tracker, root, lc).Success?;
    assert RepeatErrors(rd.configs, lc).value == [TooManyLoopsMessage(lc.loopId)];
    assert TooManyLoopsMessage(lc.loopId) in ConfigErrors(rd.configs, rd.tracker, root, lc).value;
    LoopErrorsFromCollects(rd.configs, rd.tracker, root, 0, i, TooManyLoopsMessage(lc.loopId));
  }
}

=== FILE: loopsearch.dfy ===
/** The lookups of Loop that walk down the tree: the descendants in
    pre-order, findLoop, findAllLoops, hasLoop, the getLoop and getSegment
    variants, and the getElement shortcuts built on them. */
module X12LoopSearch {
  import opened Wrappers
  import opened Strings
  import opened Tokens
  import opened X12Separators
  import opened X12Segment
  import opened X12Loop

  // ---------------------------------------------------------------------------
  // Descendants

  /** The strict descendants of n in pre-order: each child, then the child's
      own descendants, child after child. */
  function Desc(t: Tree, n: nat): (r: seq<nat>)
    requires t.Valid() && t.Has(n)
    ensures forall j :: 0 <= j < |r| ==> n < r[j] < |t.nodes|
    decreases |t.nodes| - n, |t.nodes[n].loops| + 1
  {
    DescFrom(t, n, 0)
  }

  function DescFrom(t: Tree, n: nat, i: nat): (r: seq<nat>)
    requires t.Valid() && t.Has(n) && i <= |t.nodes[n].loops|
    ensures forall j :: 0 <= j < |r| ==> n < r[j] < |t.nodes|
    decreases |t.nodes| - n, |t.nodes[n].loops| - i
  {
    if i == |t.nodes[n].loops| then []
    else
      var c := t.nodes[n].loops[i];
      [c] + Desc(t, c) + DescFrom(t, n, i + 1)
  }

  /** The loops of ms whose id is `id`, in order. */
  function Filter(t: Tree, ms: seq<nat>, id: string): (r: seq<nat>)
    requires forall j :: 0 <= j < |ms| ==> ms[j] < |t.nodes|
    ensures forall m :: m in r <==> m in ms && t.nodes[m].id == Some(id)
  {
    if |ms| == 0 then []
    else (if t.nodes[ms[0]].id == Some(id) then [ms[0]] else []) + Filter(t, ms[1..], id)
  }

  lemma {:induction false} FilterAppend(t: Tree, a: seq<nat>, b: seq<nat>, id: string)
    requires forall j :: 0 <= j < |a| ==> a[j] < |t.nodes|
    requires forall j :: 0 <= j < |b| ==> b[j] < |t.nodes|
    ensures Filter(t, a + b, id) == Filter(t, a, id) + Filter(t, b, id)
  {
    if |a| > 0 {
      assert (a + b)[1..] == a[1..] + b;
      FilterAppend(t, a[1..], b, id);
    } else {
      assert a + b == b;
    }
  }

  // ---------------------------------------------------------------------------
  // Search

  /** findLoop(id): for each child in order, the child when its id is `id`,
      then whatever the child's own findLoop finds. */
  function FindLoop(t: Tree, n: nat, id: string): (r: seq<nat>)
    requires t.Valid() && t.Has(n)
    ensures forall j :: 0 <= j < |r| ==> n < r[j] < |t.nodes|
    decreases |t.nodes| - n, |t.nodes[n].loops| + 1
  {
    FindLoopFrom(t, n, id, 0)
  }

  function FindLoopFrom(t: Tree, n: nat, id: string, i: nat): (r: seq<nat>)
    requires t.Valid() && t.Has(n) && i <= |t.nodes[n].loops|
    ensures forall j :: 0 <= j < |r| ==> n < r[j] < |t.nodes|
    decreases |t.nodes| - n, |t.nodes[n].loops| - i
  {
    if i == |t.nodes[n].loops| then []
    else
      var c := t.nodes[n].loops[i];
      (if t.nodes[c].id == Some(id) then [c] else []) + FindLoop(t, c, id) + FindLoopFrom(t, n, id, i + 1)
  }

  /** findLoop returns exactly the descendants with that id, in pre-order. */
  lemma {:induction false} FindLoopIsFilter(t: Tree, n: nat, id: string)
    requires t.Valid() && t.Has(n)
    ensures FindLoop(t, n, id) == Filter(t, Desc(t, n), id)
    decreases |t.nodes| - n, |t.nodes[n].loops| + 1
  {
    FindLoopFromIsFilter(t, n, id, 0);
  }

  lemma {:induction false} FindLoopFromIsFilter(t: Tree, n: nat, id: string, i: nat)
    requires t.Valid() && t.Has(n) && i <= |t.nodes[n].loops|
    ensures FindLoopFrom(t, n, id, i) == Filter(t, DescFrom(t, n, i), id)
    decreases |t.nodes| - n, |t.nodes[n].loops| - i
  {
    if i < |t.nodes[n].loops| {
      var c := t.nodes[n].loops[i];
      FindLoopIsFilter(t, c, id);
      FindLoopFromIsFilter(t, n, id, i + 1);
      FilterAppend(t, [c] + Desc(t, c), DescFrom(t, n, i + 1), id);
      FilterAppend(t, [c], Desc(t, c), id);
      assert Filter(t, [c], id) == if t.nodes[c].id == Some(id) then [c] else [];
    }
  }

  /** findAllLoops(id): this loop first when its own id is `id`, then what
      findLoop finds. */
  function FindAllLoops(t: Tree, n: nat, id: string): (r: seq<nat>)
    requires t.Valid() && t.Has(n)
    ensures r == Filter(t, [n] + Desc(t, n), id)
  {
    FindLoopIsFilter(t, n, id);
    FilterAppend(t, [n], Desc(t, n), id);
    assert Filter(t, [n], id) == if t.nodes[n].id == Some(id) then [n] else [];
    (if t.nodes[n].id == Some(id) then [n] else []) + FindLoop(t, n, id)
  }

  /** hasLoop(id): this loop's own id merely has to contain `id`; each child
      matches by equal id or by its own hasLoop. A loop with no id throws. */
  function HasLoop(t: Tree, n: nat, id: string): (r: Result<bool>)
    requires t.Valid() && t.Has(n)
    ensures t.nodes[n].id.None? ==> r == Failure(NullPointer)
    decreases |t.nodes| - n, |t.nodes[n].loops| + 1
  {
    match t.nodes[n].id
    case None => Failure(NullPointer)
    case Some(own) => if Contains(own, id) then Success(true) else HasLoopFrom(t, n, id, 0)
  }

  function HasLoopFrom(t: Tree, n: nat, id: string, i: nat): (r: Result<bool>)
    requires t.Valid() && t.Has(n) && i <= |t.nodes[n].loops|
    decreases |t.nodes| - n, |t.nodes[n].loops| - i
  {
    if i == |t.nodes[n].loops| then Success(false)
    else
      var c := t.nodes[n].loops[i];
      if t.nodes[c].id == Some(id) then Success(true)
      else
        var b :- HasLoop(t, c, id);
        if b then Success(true) else HasLoopFrom(t, n, id, i + 1)
  }

  /** Loop m has an id that contains `id`. */
  predicate Mentions(t: Tree, m: nat, id: string)
    requires t.Has(m)
  {
    t.nodes[m].id.Some? && Contains(t.nodes[m].id.value, id)
  }

  /** Some loop of ms has an id containing `id`. */
  predicate AnyMentions(t: Tree, ms: seq<nat>, id: string)
    requires forall j :: 0 <= j < |ms| ==> ms[j] < |t.nodes|
  {
    |ms| > 0 && (Mentions(t, ms[0], id) || AnyMentions(t, ms[1..], id))
  }

  /** Every loop in ms has an id. */
  predicate AllNamed(t: Tree, ms: seq<nat>)
    requires forall j :: 0 <= j < |ms| ==> ms[j] < |t.nodes|
  {
    |ms| == 0 || (t.nodes[ms[0]].id.Some? && AllNamed(t, ms[1..]))
  }

  lemma {:induction false} AppendNamed(t: Tree, a: seq<nat>, b: seq<nat>, id: string)
    requires forall j :: 0 <= j < |a| ==> a[j] < |t.nodes|
    requires forall j :: 0 <= j < |b| ==> b[j] < |t.nodes|
    ensures AnyMentions(t, a + b, id) <==> AnyMentions(t, a, id) || AnyMentions(t, b, id)
    ensures AllNamed(t, a + b) <==> AllNamed(t, a) && AllNamed(t, b)
  {
    if |a| > 0 {
      assert (a + b)[1..] == a[1..] + b;
      AppendNamed(t, a[1..], b, id);
    } else {
      assert a + b == b;
    }
  }

  lemma {:induction false} AnyMentionsIff(t: Tree, ms: seq<nat>, id: string)
    requires forall j :: 0 <= j < |ms| ==> ms[j] < |t.nodes|
    ensures AnyMentions(t, ms, id) <==> exists j :: 0 <= j < |ms| && Mentions(t, ms[j], id)
  {
    if |ms| > 0 {
      AnyMentionsIff(t, ms[1..], id);
      if exists j :: 0 <= j < |ms| && Mentions(t, ms[j], id) {
        var j :| 0 <= j < |ms| && Mentions(t, ms[j], id);
        if j > 0 {
          assert ms[1..][j - 1] == ms[j];
        }
      }
      if exists j :: 0 <= j < |ms[1..]| && Mentions(t, ms[1..][j], id) {
        var j :| 0 <= j < |ms[1..]| && Mentions(t, ms[1..][j], id);
        assert ms[j + 1] == ms[1..][j];
      }
    }
  }

  lemma ContainsSelf(s: string)
    ensures Contains(s, s)
  {
    assert OccursAt(s, s, 0);
  }

  /** When every loop in the subtree has an id, hasLoop holds exactly when
      the loop or one of its descendants has an id containing `id`. */
  lemma {:induction false} HasLoopIff(t: Tree, n: nat, id: string)
    requires t.Valid() && t.Has(n)
    requires AllNamed(t, [n] + Desc(t, n))
    ensures HasLoop(t, n, id) == Success(exists j :: 0 <= j < |[n] + Desc(t, n)| && Mentions(t, ([n] + Desc(t, n))[j], id))
  {
    AnyMentionsIff(t, [n] + Desc(t, n), id);
    HasLoopAny(t, n, id);
  }

  lemma {:induction false} HasLoopAny(t: Tree, n: nat, id: string)
    requires t.Valid() && t.Has(n)
    requires AllNamed(t, [n] + Desc(t, n))
    ensures HasLoop(t, n, id) == Success(AnyMentions(t, [n] + Desc(t, n), id))
    decreases |t.nodes| - n, |t.nodes[n].loops| + 1
  {
    var ms := [n] + Desc(t, n);
    assert ms[1..] == Desc(t, n);
    HasLoopFromAny(t, n, id, 0);
  }

  lemma {:induction false} HasLoopFromAny(t: Tree, n: nat, id: string, i: nat)
    requires t.Valid() && t.Has(n) && i <= |t.nodes[n].loops|
    requires AllNamed(t, DescFrom(t, n, i))
    ensures HasLoopFrom(t, n, id, i) == Success(AnyMentions(t, DescFrom(t, n, i), id))
    decreases |t.nodes| - n, |t.nodes[n].loops| - i
  {
    if i < |t.nodes[n].loops| {
      var c := t.nodes[n].loops[i];
      var head := [c] + Desc(t, c);
      var rest := DescFrom(t, n, i + 1);
      assert DescFrom(t, n, i) == head + rest;
      AppendNamed(t, head, rest, id);
      HasLoopAny(t, c, id);
      HasLoopFromAny(t, n, id, i + 1);
      if t.nodes[c].id == Some(id) {
        ContainsSelf(id);
        assert head[0] == c;
      }
    }
  }

  // ---------------------------------------------------------------------------
  // Indexed lookups

  /** getLoop(id, index): the index-th loop findLoop finds, if there is one. */
  function GetLoopByIdIndex(t: Tree, n: nat, id: string, index: nat): (r: Option<nat>)
    requires t.Valid() && t.Has(n)
    ensures r.Some? <==> index < |Filter(t, Desc(t, n), id)|
    ensures r.Some? ==> r.value == Filter(t, Desc(t, n), id)[index]
    ensures r.Some? ==> r.value in Desc(t, n) && t.nodes[r.value].id == Some(id)
  {
    FindLoopIsFilter(t, n, id);
    var found := FindLoop(t, n, id);
    if index < |found| then
      assert found[index] in found;
      Some(found[index])
    else None
  }

  /** getLoop(id): the first descendant with that id, in pre-order. */
  function GetLoopById(t: Tree, n: nat, id: string): (r: Option<nat>)
    requires t.Valid() && t.Has(n)
    ensures r.None? <==> forall m :: m in Desc(t, n) ==> t.nodes[m].id != Some(id)
    ensures r.Some? ==> r.value in Desc(t, n) && t.nodes[r.value].id == Some(id)
    ensures r.Some? ==> r.value == Filter(t, Desc(t, n), id)[0]
  {
    FindLoopIsFilter(t, n, id);
    var found := FindLoop(t, n, id);
    if |found| > 0 then
      assert found[0] in found;
      Some(found[0])
    else
      None
  }

  /** getLoop(index): the index-th direct child, if there is one. */
  function GetLoopAt(t: Tree, n: nat, index: nat): (r: Option<nat>)
    requires t.Valid() && t.Has(n)
    ensures r.Some? <==> index < |t.nodes[n].loops|
    ensures r.Some? ==> r.value == t.nodes[n].loops[index] && r.value in Desc(t, n)
  {
    if index < |t.nodes[n].loops| then
      DescFromHasChildren(t, n, 0, index);
      Some(t.nodes[n].loops[index])
    else None
  }

  lemma {:induction false} DescFromHasChildren(t: Tree, n: nat, i: nat, k: nat)
    requires t.Valid() && t.Has(n) && i <= k < |t.nodes[n].loops|
    ensures t.nodes[n].loops[k] in DescFrom(t, n, i)
    decreases |t.nodes[n].loops| - i
  {
    if i < k {
      DescFromHasChildren(t, n, i + 1, k);
    }
  }

  /** findSegment(id): this loop's own segments with that id, in order;
      segments of descendant loops are not searched. */
  function FindSegment(t: Tree, n: nat, id: string): (r: seq<Segment>)
    requires t.Has(n)
    ensures r == SegmentsWithId(t.nodes[n].segments, id)
    ensures forall s :: s in r <==> s in t.nodes[n].segments && s.id == Some(id)
  {
    SegmentsWithId(t.nodes[n].segments, id)
  }

  /** The segments of ss whose id is id, in their order in ss. */
  function SegmentsWithId(ss: seq<Segment>, id: string): (r: seq<Segment>)
    ensures forall s :: s in r <==> s in ss && s.id == Some(id)
    ensures forall k :: 0 <= k < |r| ==> r[k].id == Some(id)
    ensures |ss| == 1 ==> r == (if ss[0].id == Some(id) then ss else [])
    ensures |r| <= |ss|
  {
    if |ss| == 0 then []
    else (if ss[0].id == Some(id) then [ss[0]] else []) + SegmentsWithId(ss[1..], id)
  }

  /** The filter distributes over concatenation; with its values on the
      empty and one-segment lists this pins it down as the order- and
      multiplicity-preserving filter. */
  lemma {:induction false} SegmentsWithIdAppend(a: seq<Segment>, b: seq<Segment>, id: string)
    ensures SegmentsWithId(a + b, id) == SegmentsWithId(a, id) + SegmentsWithId(b, id)
  {
    if |a| == 0 {
      assert a + b == b;
    } else {
      assert (a + b)[1..] == a[1..] + b;
      SegmentsWithIdAppend(a[1..], b, id);
    }
  }

  /** The first result of the filter is the first segment of ss with that
      id: it sits at some position j and no segment before j has the id. */
  lemma {:induction false} SegmentsWithIdFirst(ss: seq<Segment>, id: string)
    requires |SegmentsWithId(ss, id)| > 0
    ensures exists j :: 0 <= j < |ss| && ss[j] == SegmentsWithId(ss, id)[0] &&
                        forall i :: 0 <= i < j ==> ss[i].id != Some(id)
  {
    if ss[0].id == Some(id) {
      assert ss[0] == SegmentsWithId(ss, id)[0];
    } else {
      assert SegmentsWithId(ss, id) == SegmentsWithId(ss[1..], id);
      SegmentsWithIdFirst(ss[1..], id);
      var j :| 0 <= j < |ss[1..]| && ss[1..][j] == SegmentsWithId(ss[1..], id)[0] &&
               forall i :: 0 <= i < j ==> ss[1..][i].id != Some(id);
      assert ss[j + 1] == SegmentsWithId(ss, id)[0];
      forall i | 0 <= i < j + 1
        ensures ss[i].id != Some(id)
      {
        if i > 0 {
          assert ss[i] == ss[1..][i - 1];
        }
      }
    }
  }

  /** getSegment(index): the index-th own segment, if there is one. */
  function GetSegmentAt(t: Tree, n: nat, index: nat): (r: Option<Segment>)
    requires t.Has(n)
    ensures r.Some? <==> index < |t.nodes[n].segments|
    ensures r.Some? ==> r.value == t.nodes[n].segments[index]
  {
    if index < |t.nodes[n].segments| then Some(t.nodes[n].segments[index]) else None
  }

  /** getSegment(id, index): the index-th own segment with that id. */
  function GetSegmentByIdIndex(t: Tree, n: nat, id: string, index: nat): (r: Option<Segment>)
    requires t.Has(n)
    ensures r == if index < |SegmentsWithId(t.nodes[n].segments, id)|
                 then Some(SegmentsWithId(t.nodes[n].segments, id)[index]) else None
    ensures r.Some? ==> r.value in t.nodes[n].segments && r.value.id == Some(id)
  {
    var found := FindSegment(t, n, id);
    if index < |found| then
      assert found[index] in found;
      Some(found[index])
    else None
  }

  /** getSegment(id): the first own segment with that id. */
  function GetSegmentById(t: Tree, n: nat, id: string): (r: Option<Segment>)
    requires t.Has(n)
    ensures r == GetSegmentByIdIndex(t, n, id, 0)
    ensures r.None? <==> forall s :: s in t.nodes[n].segments ==> s.id != Some(id)
    ensures r.Some? ==> exists j :: 0 <= j < |t.nodes[n].segments| && t.nodes[n].segments[j] == r.value &&
                                   r.value.id == Some(id) &&
                                   forall i :: 0 <= i < j ==> t.nodes[n].segments[i].id != Some(id)
  {
    var found := FindSegment(t, n, id);
    if |found| > 0 then
      SegmentsWithIdFirst(t.nodes[n].segments, id);
      Some(found[0])
    else None
  }

  /** getElement(loopId, loopIndex, segmentId, segIndex, elementId): null
      as soon as the loop or the segment is missing. */
  function GetElement5(t: Tree, n: nat, loopId: string, loopIndex: nat, segmentId: string, segIndex: nat, elementId: string): (r: Option<string>)
    requires t.Valid() && t.Has(n)
    ensures var loops := Filter(t, Desc(t, n), loopId);
            r == if loopIndex < |loops| && segIndex < |SegmentsWithId(t.nodes[loops[loopIndex]].segments, segmentId)|
                 then SegmentsWithId(t.nodes[loops[loopIndex]].segments, segmentId)[segIndex].GetElementValue(elementId)
                 else None
  {
    match GetLoopByIdIndex(t, n, loopId, loopIndex)
    case None => None
    case Some(l) =>
      match GetSegmentByIdIndex(t, l, segmentId, segIndex)
      case None => None
      case Some(s) => s.GetElementValue(elementId)
  }

  /** getElement(loopId, segmentId, elementId): the first loop with that
      id, its first segment with that id. */
  function GetElement3(t: Tree, n: nat, loopId: string, segmentId: string, elementId: string): (r: Option<string>)
    requires t.Valid() && t.Has(n)
    ensures r == GetElement5(t, n, loopId, 0, segmentId, 0, elementId)
    ensures (forall m :: m in Desc(t, n) ==> t.nodes[m].id != Some(loopId)) ==> r.None?
  {
    match GetLoopById(t, n, loopId)
    case None => None
    case Some(l) =>
      match GetSegmentById(t, l, segmentId)
      case None => None
      case Some(s) => s.GetElementValue(elementId)
  }

  /** getElement(segmentId, segIndex, elementId): from this loop's own
      segments. */
  function GetOwnElementAt(t: Tree, n: nat, segmentId: string, segIndex: nat, elementId: string): (r: Option<string>)
    requires t.Has(n)
    ensures r == if segIndex < |SegmentsWithId(t.nodes[n].segments, segmentId)|
                 then SegmentsWithId(t.nodes[n].segments, segmentId)[segIndex].GetElementValue(elementId)
                 else None
  {
    match GetSegmentByIdIndex(t, n, segmentId, segIndex)
    case None => None
    case Some(s) => s.GetElementValue(elementId)
  }

  /** getElement(segmentId, elementId): from this loop's first own segment
      with that id. */
  function GetOwnElement(t: Tree, n: nat, segmentId: string, elementId: string): (r: Option<string>)
    requires t.Has(n)
    ensures r == GetOwnElementAt(t, n, segmentId, 0, elementId)
    ensures (forall s :: s in t.nodes[n].segments ==> s.id != Some(segmentId)) ==> r.None?
  {
    match GetSegmentById(t, n, segmentId)
    case None => None
    case Some(s) => s.GetElementValue(elementId)
  }
}

=== FILE: loopsegments.dfy ===
/** The own-segment operations of Loop: addSegment in its forms,
    removeSegment and setSegment, each reading text with the loop's
    separators where the Java overload takes a String. */
module X12LoopSegments {
  import opened Wrappers
  import opened X12Separators
  import opened X12Segment
  import opened X12Loop

  /** The arena r is t with only p's own segments replaced by ss. */
  ghost predicate SegmentsNow(t: Tree, r: Tree, p: nat, ss: seq<Segment>)
    requires t.Has(p)
  {
    |r.nodes| == |t.nodes| && r.nodes[p] == t.nodes[p].(segments := ss) &&
    forall m :: 0 <= m < |t.nodes| && m != p ==> r.nodes[m] == t.nodes[m]
  }

  /** List.add(index, segment) on p's own segments, for an index in range. */
  function InsertSegment(t: Tree, p: nat, index: nat, s: Segment): (r: Tree)
    requires t.Valid() && t.Has(p) && index <= |t.nodes[p].segments|
    ensures r.Valid()
    ensures SegmentsNow(t, r, p, t.nodes[p].segments[..index] + [s] + t.nodes[p].segments[index..])
  {
    var ss := t.nodes[p].segments;
    Put(t, p, t.nodes[p].(segments := ss[..index] + [s] + ss[index..]))
  }

  /** addSegment(index, segment): an index below zero or past the end
      throws. */
  function AddSegmentAt(t: Tree, p: nat, index: int, s: Segment): (r: Result<Tree>)
    requires t.Valid() && t.Has(p)
    ensures r.Failure? <==> index < 0 || index > |t.nodes[p].segments|
    ensures r.Failure? ==> r.error == IndexOutOfBounds
    ensures r.Success? ==> (r.value.Valid() &&
      SegmentsNow(t, r.value, p, t.nodes[p].segments[..index] + [s] + t.nodes[p].segments[index..]))
  {
    if index < 0 || index > |t.nodes[p].segments| then Failure(IndexOutOfBounds)
    else Success(InsertSegment(t, p, index, s))
  }

  /** addSegment(segment): appended last. */
  function AddSegment(t: Tree, p: nat, s: Segment): (r: Tree)
    requires t.Valid() && t.Has(p)
    ensures r.Valid() && |r.nodes| == |t.nodes|
    ensures r.nodes[p] == t.nodes[p].(segments := t.nodes[p].segments + [s])
    ensures forall m :: 0 <= m < |t.nodes| && m != p ==> r.nodes[m] == t.nodes[m]
  {
    assert t.nodes[p].segments[..|t.nodes[p].segments|] == t.nodes[p].segments;
    InsertSegment(t, p, |t.nodes[p].segments|, s)
  }

  /** addSegment(): an empty segment with the loop's separators. */
  function AddEmptySegment(t: Tree, p: nat): (r: (Tree, Segment))
    requires t.Valid() && t.Has(p)
    ensures r.1 == NewSegment(None, t.nodes[p].separators)
    ensures r.0 == AddSegment(t, p, r.1)
  {
    var s := NewSegment(None, t.nodes[p].separators);
    (AddSegment(t, p, s), s)
  }

  /** A segment read from text with the loop's separators, as
      addSegment(String), addSegment(index, String) and setSegment(index,
      String) build it. */
  function ReadSegment(t: Tree, p: nat, text: string): (r: Result<Segment>)
    requires t.Has(p)
    ensures r.Success? <==> NewSegment(None, t.nodes[p].separators).AddElementsText(text).Success?
    ensures r.Failure? ==> r.error == NegativeArraySize
    ensures r.Success? ==> r.value == NewSegment(None, t.nodes[p].separators).AddElementsText(text).value.0
  {
    var (s, _) :- NewSegment(None, t.nodes[p].separators).AddElementsText(text);
    Success(s)
  }

  /** addSegment(String): the segment read from the text, appended. */
  function AddSegmentText(t: Tree, p: nat, text: string): (r: Result<(Tree, Segment)>)
    requires t.Valid() && t.Has(p)
    ensures r.Success? <==> ReadSegment(t, p, text).Success?
    ensures r.Success? ==> r.value.1 == ReadSegment(t, p, text).value && r.value.0 == AddSegment(t, p, r.value.1)
  {
    var s :- ReadSegment(t, p, text);
    Success((AddSegment(t, p, s), s))
  }

  /** addSegment(index, String): the text is read first, so a text of
      delimiters only fails before the index is tried. */
  function AddSegmentTextAt(t: Tree, p: nat, index: int, text: string): (r: Result<(Tree, Segment)>)
    requires t.Valid() && t.Has(p)
    ensures r.Failure? <==> ReadSegment(t, p, text).Failure? || index < 0 || index > |t.nodes[p].segments|
    ensures ReadSegment(t, p, text).Failure? ==> r == Failure(NegativeArraySize)
    ensures ReadSegment(t, p, text).Success? && (index < 0 || index > |t.nodes[p].segments|) ==>
      r == Failure(IndexOutOfBounds)
    ensures r.Success? ==> (r.value.1 == ReadSegment(t, p, text).value &&
      SegmentsNow(t, r.value.0, p, t.nodes[p].segments[..index] + [r.value.1] + t.nodes[p].segments[index..]))
  {
    var s :- ReadSegment(t, p, text);
    var u :- AddSegmentAt(t, p, index, s);
    Success((u, s))
  }

  /** removeSegment(index): the segment at index is taken out and returned;
      an index outside the list throws. */
  function RemoveSegment(t: Tree, p: nat, index: int): (r: Result<(Tree, Segment)>)
    requires t.Valid() && t.Has(p)
    ensures r.Failure? <==> index < 0 || index >= |t.nodes[p].segments|
    ensures r.Failure? ==> r.error == IndexOutOfBounds
    ensures r.Success? ==> (r.value.0.Valid() && r.value.1 == t.nodes[p].segments[index] &&
      SegmentsNow(t, r.value.0, p, t.nodes[p].segments[..index] + t.nodes[p].segments[index + 1..]))
  {
    if index < 0 || index >= |t.nodes[p].segments| then Failure(IndexOutOfBounds)
    else
      var ss := t.nodes[p].segments;
      Success((Put(t, p, t.nodes[p].(segments := ss[..index] + ss[index + 1..])), ss[index]))
  }

  /** setSegment(index, segment): an index outside the list throws. */
  function SetSegment(t: Tree, p: nat, index: int, s: Segment): (r: Result<Tree>)
    requires t.Valid() && t.Has(p)
    ensures r.Failure? <==> index < 0 || index >= |t.nodes[p].segments|
    ensures r.Failure? ==> r.error == IndexOutOfBounds
    ensures r.Success? ==> r.value.Valid() && SegmentsNow(t, r.value, p, t.nodes[p].segments[index := s])
  {
    if index < 0 || index >= |t.nodes[p].segments| then Failure(IndexOutOfBounds)
    else Success(Put(t, p, t.nodes[p].(segments := t.nodes[p].segments[index := s])))
  }

  /** setSegment(index, String): the text is read first, then the segment
      at index is replaced. */
  function SetSegmentText(t: Tree, p: nat, index: int, text: string): (r: Result<(Tree, Segment)>)
    requires t.Valid() && t.Has(p)
    ensures r.Failure? <==> ReadSegment(t, p, text).Failure? || index < 0 || index >= |t.nodes[p].segments|
    ensures ReadSegment(t, p, text).Failure? ==> r == Failure(NegativeArraySize)
    ensures ReadSegment(t, p, text).Success? && (index < 0 || index >= |t.nodes[p].segments|) ==>
      r == Failure(IndexOutOfBounds)
    ensures r.Success? ==> (r.value.1 == ReadSegment(t, p, text).value &&
      SegmentsNow(t, r.value.0, p, t.nodes[p].segments[index := r.value.1]))
  {
    var s :- ReadSegment(t, p, text);
    var u :- SetSegment(t, p, index, s);
    Success((u, s))
  }

  /** Removing a segment and adding it back at the same index restores the
      tree. */
  lemma RemoveThenAddSegment(t: Tree, p: nat, index: int)
    requires t.Valid() && t.Has(p) && 0 <= index < |t.nodes[p].segments|
    ensures var removed := RemoveSegment(t, p, index);
            removed.Success? && AddSegmentAt(removed.value.0, p, index, removed.value.1) == Success(t)
  {
    var (t1, s) := RemoveSegment(t, p, index).value;
    var ss := t.nodes[p].segments;
    assert ss[..index] + [s] + ss[index + 1..] == ss;
    assert (ss[..index] + ss[index + 1..])[..index] == ss[..index];
    assert (ss[..index] + ss[index + 1..])[index..] == ss[index + 1..];
    assert InsertSegment(t1, p, index, s).nodes == t.nodes;
  }
}

=== FILE: loopwalk.dfy ===
/** The parts of Loop that walk up the tree or over all of it:
    findTopParentById, size and toString, and how the downward walks change
    when a loop or a segment is added. */
module X12LoopWalk {
  import opened Wrappers
  import opened Strings
  import opened Tokens
  import opened X12Separators
  import opened X12Segment
  import opened X12Loop
  import opened X12LoopSegments
  import opened X12LoopSearch

  // ---------------------------------------------------------------------------
  // Ancestors

  /** The parent, the parent's parent, and so on up to a root. */
  function Ancestors(t: Tree, n: nat): (r: seq<nat>)
    requires t.Valid() && t.Has(n)
    ensures forall j :: 0 <= j < |r| ==> r[j] < n
    ensures forall j :: 0 < j < |r| ==> r[j] < r[j - 1]
    decreases n
  {
    match t.nodes[n].parent
    case None => []
    case Some(p) => [p] + Ancestors(t, p)
  }

  /** chain[j] is the first loop of `chain` whose id is `id`. */
  predicate FirstAt(t: Tree, chain: seq<nat>, id: string, j: int)
    requires forall k :: 0 <= k < |chain| ==> chain[k] < |t.nodes|
  {
    0 <= j < |chain| && t.nodes[chain[j]].id == Some(id) &&
    forall k :: 0 <= k < j ==> t.nodes[chain[k]].id != Some(id)
  }

  /** The first loop of `chain` with that id. */
  function FirstWithId(t: Tree, chain: seq<nat>, id: string): (r: Option<nat>)
    requires forall k :: 0 <= k < |chain| ==> chain[k] < |t.nodes|
    ensures r.None? <==> forall k :: 0 <= k < |chain| ==> t.nodes[chain[k]].id != Some(id)
    ensures r.Some? ==> exists j :: FirstAt(t, chain, id, j) && chain[j] == r.value
  {
    if |chain| == 0 then None
    else if t.nodes[chain[0]].id == Some(id) then
      assert FirstAt(t, chain, id, 0);
      Some(chain[0])
    else
      var r := FirstWithId(t, chain[1..], id);
      if r.Some? then
        var j :| FirstAt(t, chain[1..], id, j) && chain[1..][j] == r.value;
        assert FirstAt(t, chain, id, j + 1);
        r
      else
        assert forall k :: 1 <= k < |chain| ==> chain[k] == chain[1..][k - 1];
        r
  }

  /** findTopParentById(id): the nearest ancestor (never the loop itself)
      with that id; none for a null id. */
  function FindTopParentById(t: Tree, n: nat, id: Option<string>): (r: Option<nat>)
    requires t.Valid() && t.Has(n)
    ensures id.None? ==> r.None?
    ensures id.Some? ==> r == FirstWithId(t, Ancestors(t, n), id.value)
  {
    if id.None? then None else WalkUp(t, t.nodes[n].parent, id.value)
  }

  /** The loop walk of findTopParentById, from p upwards. */
  function WalkUp(t: Tree, p: Option<nat>, id: string): (r: Option<nat>)
    requires t.Valid() && (p.Some? ==> t.Has(p.value))
    ensures p.None? ==> r.None?
    ensures p.Some? ==> r == FirstWithId(t, [p.value] + Ancestors(t, p.value), id)
    decreases if p.Some? then p.value + 1 else 0
  {
    match p
    case None => None
    case Some(q) =>
      assert ([q] + Ancestors(t, q))[1..] == Ancestors(t, q);
      if t.nodes[q].id == Some(id) then Some(q)
      else WalkUp(t, t.nodes[q].parent, id)
  }

  // ---------------------------------------------------------------------------
  // Size and text

  /** size(): own segments plus the size of every child. */
  function Size(t: Tree, n: nat): nat
    requires t.Valid() && t.Has(n)
    decreases |t.nodes| - n, |t.nodes[n].loops| + 1
  {
    |t.nodes[n].segments| + SizeFrom(t, n, 0)
  }

  function SizeFrom(t: Tree, n: nat, i: nat): nat
    requires t.Valid() && t.Has(n) && i <= |t.nodes[n].loops|
    decreases |t.nodes| - n, |t.nodes[n].loops| - i
  {
    if i == |t.nodes[n].loops| then 0
    else Size(t, t.nodes[n].loops[i]) + SizeFrom(t, n, i + 1)
  }

  /** The number of own segments of the loops in ms, counted once per
      occurrence. */
  function SegmentCount(t: Tree, ms: seq<nat>): nat
    requires forall j :: 0 <= j < |ms| ==> ms[j] < |t.nodes|
  {
    if |ms| == 0 then 0 else |t.nodes[ms[0]].segments| + SegmentCount(t, ms[1..])
  }

  lemma {:induction false} SegmentCountAppend(t: Tree, a: seq<nat>, b: seq<nat>)
    requires forall j :: 0 <= j < |a| ==> a[j] < |t.nodes|
    requires forall j :: 0 <= j < |b| ==> b[j] < |t.nodes|
    ensures SegmentCount(t, a + b) == SegmentCount(t, a) + SegmentCount(t, b)
  {
    if |a| > 0 {
      assert (a + b)[1..] == a[1..] + b;
      SegmentCountAppend(t, a[1..], b);
    } else {
      assert a + b == b;
    }
  }

  /** size() counts the segments of the loop and of every descendant (a
      loop reachable along two paths counts twice). */
  lemma {:induction false} SizeCountsDescendants(t: Tree, n: nat)
    requires t.Valid() && t.Has(n)
    ensures Size(t, n) == SegmentCount(t, [n] + Desc(t, n))
    decreases |t.nodes| - n, |t.nodes[n].loops| + 1
  {
    SizeFromCounts(t, n, 0);
    SegmentCountAppend(t, [n], Desc(t, n));
  }

  lemma {:induction false} SizeFromCounts(t: Tree, n: nat, i: nat)
    requires t.Valid() && t.Has(n) && i <= |t.nodes[n].loops|
    ensures SizeFrom(t, n, i) == SegmentCount(t, DescFrom(t, n, i))
    decreases |t.nodes| - n, |t.nodes[n].loops| - i
  {
    if i < |t.nodes[n].loops| {
      var c := t.nodes[n].loops[i];
      SizeCountsDescendants(t, c);
      SizeFromCounts(t, n, i + 1);
      SegmentCountAppend(t, [c] + Desc(t, c), DescFrom(t, n, i + 1));
    }
  }

  /** The text toString gives for a loop's own segments: each segment
      followed by the loop's segment delimiter ("null" when unset). */
  function OwnText(t: Tree, n: nat): string
    requires t.Has(n)
  {
    var ss := t.nodes[n].segments;
    var texts := seq(|ss|, i requires 0 <= i < |ss| => ss[i].ToString());
    Terminated(texts, CharOrNull(t.nodes[n].separators.segment))
  }

  /** toString(): the loop's own segments, then each child's toString. */
  function ToString(t: Tree, n: nat): string
    requires t.Valid() && t.Has(n)
    decreases |t.nodes| - n, |t.nodes[n].loops| + 1
  {
    OwnText(t, n) + ToStringFrom(t, n, 0)
  }

  function ToStringFrom(t: Tree, n: nat, i: nat): string
    requires t.Valid() && t.Has(n) && i <= |t.nodes[n].loops|
    decreases |t.nodes| - n, |t.nodes[n].loops| - i
  {
    if i == |t.nodes[n].loops| then ""
    else ToString(t, t.nodes[n].loops[i]) + ToStringFrom(t, n, i + 1)
  }

  /** The own text of each loop of ms, concatenated. */
  function TextOf(t: Tree, ms: seq<nat>): string
    requires forall j :: 0 <= j < |ms| ==> ms[j] < |t.nodes|
  {
    if |ms| == 0 then "" else OwnText(t, ms[0]) + TextOf(t, ms[1..])
  }

  lemma {:induction false} TextOfAppend(t: Tree, a: seq<nat>, b: seq<nat>)
    requires forall j :: 0 <= j < |a| ==> a[j] < |t.nodes|
    requires forall j :: 0 <= j < |b| ==> b[j] < |t.nodes|
    ensures TextOf(t, a + b) == TextOf(t, a) + TextOf(t, b)
  {
    if |a| > 0 {
      assert (a + b)[1..] == a[1..] + b;
      TextOfAppend(t, a[1..], b);
    } else {
      assert a + b == b;
    }
  }

  /** toString() prints the loop and its descendants in pre-order, each
      with its own segments. */
  lemma {:induction false} ToStringIsPreOrder(t: Tree, n: nat)
    requires t.Valid() && t.Has(n)
    ensures ToString(t, n) == TextOf(t, [n] + Desc(t, n))
    decreases |t.nodes| - n, |t.nodes[n].loops| + 1
  {
    ToStringFromIsPreOrder(t, n, 0);
    TextOfAppend(t, [n], Desc(t, n));
  }

  lemma {:induction false} ToStringFromIsPreOrder(t: Tree, n: nat, i: nat)
    requires t.Valid() && t.Has(n) && i <= |t.nodes[n].loops|
    ensures ToStringFrom(t, n, i) == TextOf(t, DescFrom(t, n, i))
    decreases |t.nodes| - n, |t.nodes[n].loops| - i
  {
    if i < |t.nodes[n].loops| {
      var c := t.nodes[n].loops[i];
      ToStringIsPreOrder(t, c);
      ToStringFromIsPreOrder(t, n, i + 1);
      TextOfAppend(t, [c] + Desc(t, c), DescFrom(t, n, i + 1));
    }
  }

  // ---------------------------------------------------------------------------
  // Effects of edits on search and size

  /** The descendants of m depend only on the child lists of m and the
      loops after it. */
  lemma {:induction false} DescFrame(t: Tree, u: Tree, m: nat)
    requires t.Valid() && u.Valid() && t.Has(m) && |t.nodes| <= |u.nodes|
    requires forall j :: m <= j < |t.nodes| ==> u.nodes[j].loops == t.nodes[j].loops
    ensures Desc(u, m) == Desc(t, m)
    decreases |t.nodes| - m, |t.nodes[m].loops| + 1
  {
    DescFromFrame(t, u, m, 0);
  }

  lemma {:induction false} DescFromFrame(t: Tree, u: Tree, m: nat, i: nat)
    requires t.Valid() && u.Valid() && t.Has(m) && |t.nodes| <= |u.nodes|
    requires forall j :: m <= j < |t.nodes| ==> u.nodes[j].loops == t.nodes[j].loops
    requires i <= |t.nodes[m].loops|
    ensures DescFrom(u, m, i) == DescFrom(t, m, i)
    decreases |t.nodes| - m, |t.nodes[m].loops| - i
  {
    if i < |t.nodes[m].loops| {
      var c := t.nodes[m].loops[i];
      DescFrame(t, u, c);
      DescFromFrame(t, u, m, i + 1);
    }
  }

  lemma {:induction false} FilterFrame(t: Tree, u: Tree, ms: seq<nat>, id: string)
    requires forall j :: 0 <= j < |ms| ==> ms[j] < |t.nodes| && ms[j] < |u.nodes|
    requires forall j :: 0 <= j < |ms| ==> u.nodes[ms[j]].id == t.nodes[ms[j]].id
    ensures Filter(u, ms, id) == Filter(t, ms, id)
  {
    if |ms| > 0 {
      FilterFrame(t, u, ms[1..], id);
    }
  }

  lemma {:induction false} SegmentCountFrame(t: Tree, u: Tree, ms: seq<nat>)
    requires forall j :: 0 <= j < |ms| ==> ms[j] < |t.nodes| && ms[j] < |u.nodes|
    requires forall j :: 0 <= j < |ms| ==> |u.nodes[ms[j]].segments| == |t.nodes[ms[j]].segments|
    ensures SegmentCount(u, ms) == SegmentCount(t, ms)
  {
    if |ms| > 0 {
      SegmentCountFrame(t, u, ms[1..]);
    }
  }

  /** addLoop(id) puts the new loop last in the pre-order of p. */
  lemma AddLoopIdExtendsDesc(t: Tree, p: nat, id: Option<string>)
    requires t.Valid() && t.Has(p)
    ensures Desc(AddLoopId(t, p, id).0, p) == Desc(t, p) + [AddLoopId(t, p, id).1]
  {
    var (u, k) := AddLoopId(t, p, id);
    AddLoopIdExtendsDescFrom(t, p, id, 0);
  }

  lemma {:induction false} AddLoopIdExtendsDescFrom(t: Tree, p: nat, id: Option<string>, i: nat)
    requires t.Valid() && t.Has(p) && i <= |t.nodes[p].loops|
    ensures DescFrom(AddLoopId(t, p, id).0, p, i) == DescFrom(t, p, i) + [AddLoopId(t, p, id).1]
    decreases |t.nodes[p].loops| - i
  {
    var (u, k) := AddLoopId(t, p, id);
    assert u.nodes[p].loops == t.nodes[p].loops + [k];
    if i == |t.nodes[p].loops| {
      assert u.nodes[p].loops[i] == k;
      assert DescFrom(u, k, 0) == [];
      assert DescFrom(u, p, i + 1) == [];
    } else {
      var c := t.nodes[p].loops[i];
      assert u.nodes[p].loops[i] == c;
      DescFrame(t, u, c);
      AddLoopIdExtendsDescFrom(t, p, id, i + 1);
    }
  }

  /** After addLoop(id), findLoop(x) finds what it found before, then the
      new loop when its id is x. */
  lemma AddLoopIdThenFind(t: Tree, p: nat, id: Option<string>, x: string)
    requires t.Valid() && t.Has(p)
    ensures FindLoop(AddLoopId(t, p, id).0, p, x)
         == FindLoop(t, p, x) + (if id == Some(x) then [AddLoopId(t, p, id).1] else [])
  {
    var (u, k) := AddLoopId(t, p, id);
    AddLoopIdExtendsDesc(t, p, id);
    FindLoopIsFilter(u, p, x);
    FindLoopIsFilter(t, p, x);
    var d := Desc(t, p);
    FilterAppend(u, d, [k], x);
    FilterFrame(t, u, d, x);
    assert Filter(u, [k], x) == if id == Some(x) then [k] else [];
  }

  /** addSegment grows size() by exactly one. */
  lemma AddSegmentGrowsSize(t: Tree, p: nat, s: Segment)
    requires t.Valid() && t.Has(p)
    ensures Size(AddSegment(t, p, s), p) == Size(t, p) + 1
  {
    var u := AddSegment(t, p, s);
    SizeCountsDescendants(t, p);
    SizeCountsDescendants(u, p);
    DescFrame(t, u, p);
    var d := Desc(t, p);
    SegmentCountFrame(t, u, d);
    assert ([p] + d)[1..] == d;
  }
}

=== FILE: mapping.dfy ===
/** The transaction schema (the "mapping" definitions loaded from XML) as
    plain immutable data, and the Positioned order in which a schema node's
    child segment and loop definitions are merged for printing.
    A list that may be absent in the XML is an `Option<seq<...>>`: the reader
    tells an absent list from an empty one. */
module Mapping {
  import opened Wrappers
  import opened Strings

  datatype Usage = REQUIRED | SITUATIONAL | NOT_USED

  datatype ValidCodes = ValidCodes(codes: Option<seq<string>>)

  /** ElementDefinition: `sequence` (the XML "seq") is the element's 1-based position, as text. */
  datatype ElementDef = ElementDef(
    xid: string,
    usage: Option<Usage>,
    sequence: string,
    validCodes: Option<ValidCodes>)

  /** CompositeDefinition: its usage stays a raw string ("R", "S", ...). */
  datatype CompositeDef = CompositeDef(xid: string, usage: string, sequence: string)

  datatype SegmentDef = SegmentDef(
    xid: string,
    usage: Option<Usage>,
    pos: string,
    maxUse: string,
    elements: Option<seq<ElementDef>>,
    composites: Option<seq<CompositeDef>>)

  datatype LoopDef = LoopDef(
    xid: string,
    usage: Option<Usage>,
    pos: string,
    repeat: string,
    segments: Option<seq<SegmentDef>>,
    loops: LoopDefs)
  {
    /** The child loop definitions, none when the list is absent. */
    function Children(): (r: seq<LoopDef>)
      ensures loops.Loops? ==> r == loops.items
      ensures loops.NoLoops? ==> r == []
      ensures forall c :: c in r ==> c < this
    {
      match loops
      case NoLoops => []
      case Loops(ls) => ls
    }
  }

  /** The child-loop list of a loop definition, which may be absent. */
  datatype LoopDefs = NoLoops | Loops(items: seq<LoopDef>)

  // ---------------------------------------------------------------------------
  // Positioned

  /** A child of a schema loop: a segment or a loop definition, both of which
      carry an xid and a pos. */
  datatype Positioned = PSeg(seg: SegmentDef) | PLoop(loop: LoopDef) {
    function Xid(): string {
      match this
      case PSeg(s) => s.xid
      case PLoop(l) => l.xid
    }

    function Pos(): string {
      match this
      case PSeg(s) => s.pos
      case PLoop(l) => l.pos
    }

    function Key(): (string, string) {
      (Pos(), Xid())
    }
  }

  /** Positioned.compareTo: by pos as text, then by xid as text. */
  function Compare(a: Positioned, b: Positioned): int {
    if a.Pos() == b.Pos() then CompareTo(a.Xid(), b.Xid()) else CompareTo(a.Pos(), b.Pos())
  }

  lemma CompareZeroIff(a: Positioned, b: Positioned)
    ensures Compare(a, b) == 0 <==> a.Key() == b.Key()
  {
    CompareToZeroIff(a.Pos(), b.Pos());
    CompareToZeroIff(a.Xid(), b.Xid());
  }

  lemma CompareAntisymmetric(a: Positioned, b: Positioned)
    ensures Compare(a, b) == -Compare(b, a)
  {
    CompareToAntisymmetric(a.Pos(), b.Pos());
    CompareToAntisymmetric(a.Xid(), b.Xid());
  }

  lemma CompareTransitive(a: Positioned, b: Positioned, c: Positioned)
    requires Compare(a, b) < 0 && Compare(b, c) < 0
    ensures Compare(a, c) < 0
  {
    if a.Pos() == b.Pos() && b.Pos() == c.Pos() {
      CompareToTransitive(a.Xid(), b.Xid(), c.Xid());
    } else if a.Pos() == b.Pos() {
      assert CompareTo(b.Pos(), c.Pos()) < 0;
    } else if b.Pos() == c.Pos() {
      assert CompareTo(a.Pos(), b.Pos()) < 0;
    } else {
      CompareToTransitive(a.Pos(), b.Pos(), c.Pos());
      if a.Pos() == c.Pos() {
        CompareToAntisymmetric(a.Pos(), b.Pos());
      }
    }
  }

  /** With pos strings of equal width, the order by pos is the numeric order
      the reader uses when it checks segment positions. */
  lemma CompareNumericOnEqualWidthPos(a: Positioned, b: Positioned)
    requires AllDigits(a.Pos()) && AllDigits(b.Pos()) && |a.Pos()| == |b.Pos()|
    requires a.Pos() != b.Pos()
    ensures Compare(a, b) < 0 <==> DigitsValue(a.Pos()) < DigitsValue(b.Pos())
  {
    CompareToNumericOnEqualWidth(a.Pos(), b.Pos());
  }

  /** Two definitions at positions "9" and "10": the merge order puts "10"
      first although the reader's numeric check takes 9 before 10. */
  lemma ComparePosIsTextual(x: string, y: string)
    ensures Compare(PSeg(SegmentDef(x, None, "10", "1", None, None)),
                    PSeg(SegmentDef(y, None, "9", "1", None, None))) < 0
    ensures DigitsValue("10") > DigitsValue("9")
  {
    CompareToDisagreesWithNumericOnUnequalWidth();
  }

  // ---------------------------------------------------------------------------
  // TreeSet<Positioned>: insertion keeps the first of equal keys

  predicate StrictlySorted(s: seq<Positioned>) {
    forall i, j :: 0 <= i < j < |s| ==> Compare(s[i], s[j]) < 0
  }

  /** The (pos, xid) keys held by s. */
  function Keys(s: seq<Positioned>): set<(string, string)> {
    if |s| == 0 then {} else {s[0].Key()} + Keys(s[1..])
  }

  /** TreeSet.add: x goes to its place in the order unless an element with
      the same key is already there, in which case the set is unchanged. */
  function Insert(s: seq<Positioned>, x: Positioned): seq<Positioned> {
    if |s| == 0 then [x]
    else
      var c := Compare(x, s[0]);
      if c == 0 then s
      else if c < 0 then [x] + s
      else [s[0]] + Insert(s[1..], x)
  }

  lemma {:induction false} SmallerNotIn(s: seq<Positioned>, x: Positioned)
    requires StrictlySorted(s) && |s| > 0 && Compare(x, s[0]) < 0
    ensures x.Key() !in Keys(s)
  {
    CompareZeroIff(x, s[0]);
    if |s| > 1 {
      CompareTransitive(x, s[0], s[1]);
      assert StrictlySorted(s[1..]);
      SmallerNotIn(s[1..], x);
    }
  }

  lemma {:induction false} InsertMembers(s: seq<Positioned>, x: Positioned)
    requires StrictlySorted(s)
    ensures Keys(Insert(s, x)) == Keys(s) + {x.Key()}
    ensures forall y :: y in Insert(s, x) <==> y in s || (y == x && x.Key() !in Keys(s))
  {
    if |s| > 0 {
      CompareZeroIff(x, s[0]);
      var c := Compare(x, s[0]);
      if c < 0 {
        SmallerNotIn(s, x);
        assert ([x] + s)[1..] == s;
      } else if c > 0 {
        var t := s[1..];
        assert StrictlySorted(t);
        InsertMembers(t, x);
        assert ([s[0]] + Insert(t, x))[1..] == Insert(t, x);
        assert s == [s[0]] + t;
      }
    }
  }

  lemma ConsSorted(a: Positioned, t: seq<Positioned>)
    requires StrictlySorted(t)
    requires forall y :: y in t ==> Compare(a, y) < 0
    ensures StrictlySorted([a] + t)
  {
    var r := [a] + t;
    forall i, j | 0 <= i < j < |r|
      ensures Compare(r[i], r[j]) < 0
    {
      if i == 0 {
        assert r[j] in t;
      } else {
        assert r[i] == t[i - 1] && r[j] == t[j - 1];
      }
    }
  }

  lemma {:induction false} InsertSorted(s: seq<Positioned>, x: Positioned)
    requires StrictlySorted(s)
    ensures StrictlySorted(Insert(s, x))
  {
    if |s| > 0 {
      var c := Compare(x, s[0]);
      if c < 0 {
        forall y | y in s
          ensures Compare(x, y) < 0
        {
          var k :| 0 <= k < |s| && s[k] == y;
          if k > 0 {
            CompareTransitive(x, s[0], y);
          }
        }
        ConsSorted(x, s);
      } else if c > 0 {
        var t := s[1..];
        assert StrictlySorted(t);
        InsertSorted(t, x);
        InsertMembers(t, x);
        CompareAntisymmetric(x, s[0]);
        forall y | y in Insert(t, x)
          ensures Compare(s[0], y) < 0
        {
          if y in t {
            var k :| 0 <= k < |t| && t[k] == y;
            assert s[k + 1] == y;
          }
        }
        ConsSorted(s[0], Insert(t, x));
      }
    }
  }

  /** TreeSet.addAll(list): the elements inserted one after the other. */
  function AddAll(s: seq<Positioned>, xs: seq<Positioned>): seq<Positioned>
    decreases |xs|
  {
    if |xs| == 0 then s else AddAll(Insert(s, xs[0]), xs[1..])
  }

  /** xs[i] is the first element of xs with its key. */
  predicate FirstOfKey(xs: seq<Positioned>, i: int) {
    0 <= i < |xs| && forall j :: 0 <= j < i ==> xs[j].Key() != xs[i].Key()
  }

  /** Adding a list to a sorted set keeps it sorted; an element ends up in
      the set when it was there already, or when it is the first of the list
      with a key the set did not hold. */
  lemma {:induction false} AddAllMembers(s: seq<Positioned>, xs: seq<Positioned>)
    requires StrictlySorted(s)
    ensures StrictlySorted(AddAll(s, xs))
    ensures forall y :: y in AddAll(s, xs) <==>
      y in s || (y.Key() !in Keys(s) && exists i :: FirstOfKey(xs, i) && xs[i] == y)
    decreases |xs|
  {
    if |xs| > 0 {
      var x := xs[0];
      var rest := xs[1..];
      var s' := Insert(s, x);
      InsertSorted(s, x);
      InsertMembers(s, x);
      AddAllMembers(s', rest);
      forall y
        ensures y in AddAll(s, xs) <==>
          y in s || (y.Key() !in Keys(s) && exists i :: FirstOfKey(xs, i) && xs[i] == y)
      {
        if y in AddAll(s, xs) && y !in s {
          if y == x && x.Key() !in Keys(s) {
            assert FirstOfKey(xs, 0) && xs[0] == y;
          } else {
            assert y !in s';
            var i :| FirstOfKey(rest, i) && rest[i] == y;
            assert FirstOfKey(xs, i + 1) && xs[i + 1] == y by {
              forall j | 0 <= j < i + 1
                ensures xs[j].Key() != xs[i + 1].Key()
              {
                if j > 0 {
                  assert xs[j] == rest[j - 1];
                }
              }
            }
          }
        }
        if y !in s && y.Key() !in Keys(s) && exists i :: FirstOfKey(xs, i) && xs[i] == y {
          var i :| FirstOfKey(xs, i) && xs[i] == y;
          if i > 0 {
            assert xs[0].Key() != y.Key();
            assert FirstOfKey(rest, i - 1) && rest[i - 1] == y by {
              forall j | 0 <= j < i - 1
                ensures rest[j].Key() != rest[i - 1].Key()
              {
                assert rest[j] == xs[j + 1];
              }
            }
          }
        }
      }
    }
  }

  /** The merged, ordered children that Loop.toX12String walks: child loop
      definitions are added first, then segment definitions. */
  function MergedChildren(def: LoopDef): (r: seq<Positioned>)
    ensures StrictlySorted(r)
    ensures forall y :: y in r <==>
      exists i :: FirstOfKey(ChildItems(def), i) && ChildItems(def)[i] == y
  {
    AddAllMembers([], ChildItems(def));
    AddAll([], ChildItems(def))
  }

  /** Loop definitions, then segment definitions, as TreeSet.addAll sees
      them. */
  function ChildItems(def: LoopDef): seq<Positioned> {
    var ls := seq(|def.Children()|, i requires 0 <= i < |def.Children()| => PLoop(def.Children()[i]));
    var ss := if def.segments.None? then [] else
      seq(|def.segments.value|, i requires 0 <= i < |def.segments.value| => PSeg(def.segments.value[i]));
    ls + ss
  }
}

=== FILE: match.dfy ===
/** The reader's decision whether a data line starts (or ends) a loop:
    getMatchedLoop with isChildSegment and getFinalizedMatch. Configs are
    referred to by their index in the config table, which is how the reader
    tells them apart. */
module X12Match {
  import opened Wrappers
  import opened Mapping
  import opened X12Schema
  import opened X12Codes
  import opened X12LoopConfig

  // ---------------------------------------------------------------------------
  // isChildSegment

  function ChildFrom(segs: seq<SegmentDef>, tokens: seq<string>, i: nat): (r: Result<bool>)
    ensures r.Failure? <==> i < |segs| && |tokens| == 0
    ensures r.Failure? ==> r.error == ArrayIndexOutOfBounds
    ensures r == Success(true) <==> |tokens| > 0 && exists k :: i <= k < |segs| && segs[k].xid == tokens[0]
    decreases |segs| - i
  {
    if i >= |segs| then Success(false)
    else if |tokens| == 0 then Failure(ArrayIndexOutOfBounds)
    else if segs[i].xid == tokens[0] then Success(true)
    else ChildFrom(segs, tokens, i + 1)
  }

  /** isChildSegment(previousLoopId, tokens): the line's segment id is one of
      the previous loop's segment definitions other than the first. */
  function IsChildSegment(root: LoopDef, previous: Option<string>, tokens: seq<string>): (r: Result<bool>)
    ensures var segs := SegmentDefinitions(root, previous);
      r.Failure? <==> segs.Some? && |segs.value| > 1 && |tokens| == 0
    ensures var segs := SegmentDefinitions(root, previous);
      r == Success(true) <==> (segs.Some? && |tokens| > 0 &&
        exists k :: 1 <= k < |segs.value| && segs.value[k].xid == tokens[0])
  {
    var segs := SegmentDefinitions(root, previous);
    if segs.None? then Success(false) else ChildFrom(segs.value, tokens, 1)
  }

  // ---------------------------------------------------------------------------
  // The two checks of one config against a line

  /** The line begins with the config's first segment id, whose required
      coded elements hold valid codes. */
  function FirstCheck(c: LoopConfig, tokens: seq<string>): (r: Result<bool>)
    ensures c.firstSegment.None? ==> r == Success(false)
    ensures r == Success(true) <==> (c.firstSegment.Some? && |tokens| > 0 && tokens[0] == c.firstSegment.value.xid &&
      CodesValidatedForLoopId(tokens, c.firstSegment.value) == Success(true))
  {
    if c.firstSegment.None? then Success(false)
    else if |tokens| == 0 then Failure(ArrayIndexOutOfBounds)
    else if tokens[0] != c.firstSegment.value.xid then Success(false)
    else CodesValidatedForLoopId(tokens, c.firstSegment.value)
  }

  /** The line begins with the config's last segment id, the config is not
      the previous loop's, and the required coded elements hold valid
      codes. */
  function LastCheck(c: LoopConfig, tokens: seq<string>, previous: Option<string>): (r: Result<bool>)
    ensures c.lastSegment.None? ==> r == Success(false)
    ensures r == Success(true) <==> (c.lastSegment.Some? && |tokens| > 0 && tokens[0] == c.lastSegment.value.xid &&
      Some(c.loopId) != previous && CodesValidatedForLoopId(tokens, c.lastSegment.value) == Success(true))
  {
    if c.lastSegment.None? then Success(false)
    else if |tokens| == 0 then Failure(ArrayIndexOutOfBounds)
    else if tokens[0] != c.lastSegment.value.xid || Some(c.loopId) == previous then Success(false)
    else CodesValidatedForLoopId(tokens, c.lastSegment.value)
  }

  predicate IsCandidate(cs: seq<LoopConfig>, tokens: seq<string>, previous: Option<string>, j: int)
    requires 0 <= j < |cs|
  {
    FirstCheck(cs[j], tokens) == Success(true) || LastCheck(cs[j], tokens, previous) == Success(true)
  }

  predicate InRange(cs: seq<LoopConfig>, ms: seq<nat>) {
    forall k :: 0 <= k < |ms| ==> ms[k] < |cs|
  }

  predicate DistinctIds(cs: seq<LoopConfig>, ms: seq<nat>)
    requires InRange(cs, ms)
  {
    forall a, b :: 0 <= a < b < |ms| ==> cs[ms[a]].loopId != cs[ms[b]].loopId
  }

  function IdMatched(cs: seq<LoopConfig>, ms: seq<nat>, id: string): (r: bool)
    requires InRange(cs, ms)
    ensures r <==> exists k :: 0 <= k < |ms| && cs[ms[k]].loopId == id
  {
    if |ms| == 0 then false
    else if cs[ms[0]].loopId == id then true
    else
      assert forall k :: 1 <= k < |ms| ==> ms[k] == ms[1..][k - 1];
      IdMatched(cs, ms[1..], id)
  }

  /** The loop over the configs from index i on: each config passing either
      check is added unless one with its id is already there, and when the
      line is a child segment of the previous loop the matches are dropped
      and the loop ends. */
  function Collect(cs: seq<LoopConfig>, root: LoopDef, tokens: seq<string>, previous: Option<string>, i: nat, matched: seq<nat>):
    (r: Result<seq<nat>>)
    requires i <= |cs| && InRange(cs, matched) && DistinctIds(cs, matched)
    ensures r.Success? ==> InRange(cs, r.value) && DistinctIds(cs, r.value)
    decreases |cs| - i
  {
    if i == |cs| then Success(matched)
    else
      var f :- FirstCheck(cs[i], tokens);
      var l :- LastCheck(cs[i], tokens, previous);
      if f || l then
        // a line that passes a check is not empty, so isChildSegment cannot throw here
        if IsChildSegment(root, previous, tokens) == Success(true) then Success([])
        else if IdMatched(cs, matched, cs[i].loopId) then
          Collect(cs, root, tokens, previous, i + 1, matched)
        else
          Collect(cs, root, tokens, previous, i + 1, matched + [i])
      else Collect(cs, root, tokens, previous, i + 1, matched)
  }

  /** Every collected config was already matched or passes one of the two
      checks; with no candidate left the matches are unchanged. */
  lemma {:induction false} CollectSound(cs: seq<LoopConfig>, root: LoopDef, tokens: seq<string>, previous: Option<string>, i: nat, matched: seq<nat>)
    requires i <= |cs| && InRange(cs, matched) && DistinctIds(cs, matched)
    requires Collect(cs, root, tokens, previous, i, matched).Success?
    ensures var r := Collect(cs, root, tokens, previous, i, matched).value;
      forall k :: 0 <= k < |r| ==> r[k] in matched || (i <= r[k] < |cs| && IsCandidate(cs, tokens, previous, r[k]))
    ensures (forall j :: i <= j < |cs| ==> !IsCandidate(cs, tokens, previous, j)) ==>
      Collect(cs, root, tokens, previous, i, matched).value == matched
    decreases |cs| - i
  {
    if i < |cs| {
      var f := FirstCheck(cs[i], tokens).value;
      var l := LastCheck(cs[i], tokens, previous).value;
      if f || l {
        assert IsCandidate(cs, tokens, previous, i);
        if IsChildSegment(root, previous, tokens) != Success(true) {
          if IdMatched(cs, matched, cs[i].loopId) {
            CollectSound(cs, root, tokens, previous, i + 1, matched);
          } else {
            CollectSound(cs, root, tokens, previous, i + 1, matched + [i]);
          }
        }
      } else {
        CollectSound(cs, root, tokens, previous, i + 1, matched);
      }
    }
  }

  /** A line that is a child segment of the previous loop and passes some
      config's check leaves no match. */
  lemma {:induction false} CollectChildClears(cs: seq<LoopConfig>, root: LoopDef, tokens: seq<string>, previous: Option<string>, i: nat, matched: seq<nat>)
    requires i <= |cs| && InRange(cs, matched) && DistinctIds(cs, matched)
    requires Collect(cs, root, tokens, previous, i, matched).Success?
    ensures (IsChildSegment(root, previous, tokens) == Success(true) &&
      exists j :: i <= j < |cs| && IsCandidate(cs, tokens, previous, j)) ==>
        Collect(cs, root, tokens, previous, i, matched).value == []
    decreases |cs| - i
  {
    if IsChildSegment(root, previous, tokens) == Success(true) && exists j :: i <= j < |cs| && IsCandidate(cs, tokens, previous, j) {
      var f := FirstCheck(cs[i], tokens).value;
      var l := LastCheck(cs[i], tokens, previous).value;
      if !(f || l) {
        assert !IsCandidate(cs, tokens, previous, i);
        CollectChildClears(cs, root, tokens, previous, i + 1, matched);
      }
    }
  }

  /** Otherwise the matches found so far are kept, in order. */
  lemma {:induction false} CollectKeeps(cs: seq<LoopConfig>, root: LoopDef, tokens: seq<string>, previous: Option<string>, i: nat, matched: seq<nat>)
    requires i <= |cs| && InRange(cs, matched) && DistinctIds(cs, matched)
    requires Collect(cs, root, tokens, previous, i, matched).Success?
    requires IsChildSegment(root, previous, tokens) != Success(true)
    ensures matched <= Collect(cs, root, tokens, previous, i, matched).value
    decreases |cs| - i
  {
    if i < |cs| {
      var f := FirstCheck(cs[i], tokens).value;
      var l := LastCheck(cs[i], tokens, previous).value;
      if (f || l) && !IdMatched(cs, matched, cs[i].loopId) {
        CollectKeeps(cs, root, tokens, previous, i + 1, matched + [i]);
      } else {
        CollectKeeps(cs, root, tokens, previous, i + 1, matched);
      }
    }
  }

  /** ... and every candidate's id ends up among the matches. */
  lemma {:induction false} CollectComplete(cs: seq<LoopConfig>, root: LoopDef, tokens: seq<string>, previous: Option<string>, i: nat, matched: seq<nat>)
    requires i <= |cs| && InRange(cs, matched) && DistinctIds(cs, matched)
    requires Collect(cs, root, tokens, previous, i, matched).Success?
    requires IsChildSegment(root, previous, tokens) != Success(true)
    ensures var r := Collect(cs, root, tokens, previous, i, matched).value;
      forall j :: i <= j < |cs| && IsCandidate(cs, tokens, previous, j) ==> IdMatched(cs, r, cs[j].loopId)
    decreases |cs| - i
  {
    if i < |cs| {
      var r := Collect(cs, root, tokens, previous, i, matched).value;
      var f := FirstCheck(cs[i], tokens).value;
      var l := LastCheck(cs[i], tokens, previous).value;
      if !(f || l) {
        CollectComplete(cs, root, tokens, previous, i + 1, matched);
      } else if IdMatched(cs, matched, cs[i].loopId) {
        CollectComplete(cs, root, tokens, previous, i + 1, matched);
        CollectKeeps(cs, root, tokens, previous, i + 1, matched);
        var k :| 0 <= k < |matched| && cs[matched[k]].loopId == cs[i].loopId;
        assert r[k] == matched[k];
      } else {
        var next := matched + [i];
        CollectComplete(cs, root, tokens, previous, i + 1, next);
        CollectKeeps(cs, root, tokens, previous, i + 1, next);
        assert r[|matched|] == next[|matched|];
      }
    }
  }

  /** The matches kept when there are several: a config whose last segment id
      is the line's and passes the code check is dropped. */
  function KeepNotEnding(cs: seq<LoopConfig>, tokens: seq<string>, ms: seq<nat>): (r: Result<seq<nat>>)
    requires InRange(cs, ms)
    ensures r.Success? ==> |r.value| <= |ms| && forall k :: 0 <= k < |r.value| ==> r.value[k] in ms
    ensures r.Success? ==> InRange(cs, r.value)
    ensures r.Success? ==> forall k :: 0 <= k < |r.value| ==> !Ends(cs[r.value[k]], tokens)
    ensures r.Success? ==> forall k :: 0 <= k < |ms| && !Ends(cs[ms[k]], tokens) ==> ms[k] in r.value
  {
    if |ms| == 0 then Success([])
    else
      var c := cs[ms[0]];
      var ends :-
        if c.lastSegment.None? then Success(false)
        else if |tokens| == 0 then Failure(ArrayIndexOutOfBounds)
        else if c.lastSegment.value.xid != tokens[0] then Success(false)
        else CodesValidatedForLoopId(tokens, c.lastSegment.value);
      var rest :- KeepNotEnding(cs, tokens, ms[1..]);
      assert forall k :: 1 <= k < |ms| ==> ms[k] == ms[1..][k - 1];
      if ends then Success(rest) else Success([ms[0]] + rest)
  }

  /** The line is the config's last segment and passes the loop-id code
      check. */
  predicate Ends(c: LoopConfig, tokens: seq<string>) {
    c.lastSegment.Some? && |tokens| > 0 && c.lastSegment.value.xid == tokens[0] &&
    CodesValidatedForLoopId(tokens, c.lastSegment.value) == Success(true)
  }

  // ---------------------------------------------------------------------------
  // getFinalizedMatch

  /** The index of the first config with that id. */
  function FirstConfig(cs: seq<LoopConfig>, id: Option<string>): (r: Option<nat>)
    ensures r.Some? ==> r.value < |cs| && Some(cs[r.value].loopId) == id
    ensures r.Some? ==> forall j :: 0 <= j < r.value ==> Some(cs[j].loopId) != id
    ensures r.None? <==> forall j :: 0 <= j < |cs| ==> Some(cs[j].loopId) != id
  {
    if |cs| == 0 then None
    else if Some(cs[0].loopId) == id then Some(0)
    else
      var r := FirstConfig(cs[1..], id);
      assert forall j :: 1 <= j < |cs| ==> cs[j] == cs[1..][j - 1];
      if r.Some? then Some(r.value + 1) else None
  }

  /** The first match listed as a child loop of the previous loop. */
  function FirstChild(cs: seq<LoopConfig>, ms: seq<nat>, children: seq<string>): (r: Option<nat>)
    requires InRange(cs, ms)
    ensures r.Some? ==> exists k :: (0 <= k < |ms| && ms[k] == r.value &&
      cs[r.value].loopId in children && forall l :: 0 <= l < k ==> cs[ms[l]].loopId !in children)
    ensures r.None? <==> forall k :: 0 <= k < |ms| ==> cs[ms[k]].loopId !in children
  {
    if |ms| == 0 then None
    else if cs[ms[0]].loopId in children then Some(ms[0])
    else
      assert forall k :: 1 <= k < |ms| ==> ms[k] == ms[1..][k - 1];
      var r := FirstChild(cs, ms[1..], children);
      if r.Some? then
        var k :| 0 <= k < |ms[1..]| && ms[1..][k] == r.value &&
          cs[r.value].loopId in children && forall l :: 0 <= l < k ==> cs[ms[1..][l]].loopId !in children;
        assert ms[k + 1] == r.value;
        r
      else r
  }

  /** The first match whose schema parent is the given one. */
  function FirstSibling(cs: seq<LoopConfig>, root: LoopDef, ms: seq<nat>, parent: string): (r: Option<nat>)
    requires InRange(cs, ms)
    ensures r.Some? ==> r.value in ms && GetParentLoop(root, Some(cs[r.value].loopId), None) == Some(parent)
    ensures r.Some? ==> exists k :: (0 <= k < |ms| && ms[k] == r.value &&
      forall l :: 0 <= l < k ==> GetParentLoop(root, Some(cs[ms[l]].loopId), None) != Some(parent))
    ensures r.None? <==> forall k :: 0 <= k < |ms| ==> GetParentLoop(root, Some(cs[ms[k]].loopId), None) != Some(parent)
  {
    if |ms| == 0 then None
    else if GetParentLoop(root, Some(cs[ms[0]].loopId), None) == Some(parent) then Some(ms[0])
    else
      assert forall k :: 1 <= k < |ms| ==> ms[k] == ms[1..][k - 1];
      var r := FirstSibling(cs, root, ms[1..], parent);
      if r.Some? then
        var k :| 0 <= k < |ms[1..]| && ms[1..][k] == r.value &&
          forall l :: 0 <= l < k ==> GetParentLoop(root, Some(cs[ms[1..][l]].loopId), None) != Some(parent);
        assert ms[k + 1] == r.value;
        r
      else r
  }

  /** getFinalizedMatch(previousLoopId, matches): with the previous loop's
      config, the first match that is one of its child loops; failing that,
      the first match with the same schema parent as the previous loop. */
  function FinalizedMatch(cs: seq<LoopConfig>, root: LoopDef, previous: Option<string>, ms: seq<nat>): (r: Option<nat>)
    requires InRange(cs, ms)
    ensures r.Some? ==> r.value in ms
    ensures r.Some? ==> FirstConfig(cs, previous).Some?
    ensures r.Some? ==>
      var lc := cs[FirstConfig(cs, previous).value];
      (lc.childList.Some? && cs[r.value].loopId in lc.childList.value) ||
      (GetParentLoop(root, previous, None).Some? &&
       GetParentLoop(root, Some(cs[r.value].loopId), None) == GetParentLoop(root, previous, None))
    ensures FirstConfig(cs, previous).None? ==> r.None?
    ensures FirstConfig(cs, previous).Some? ==>
      var lc := cs[FirstConfig(cs, previous).value];
      (lc.childList.Some? && FirstChild(cs, ms, lc.childList.value).Some? ==> r == FirstChild(cs, ms, lc.childList.value))
    ensures FirstConfig(cs, previous).Some? ==>
      var lc := cs[FirstConfig(cs, previous).value];
      var parent := GetParentLoop(root, previous, None);
      ((lc.childList.None? || FirstChild(cs, ms, lc.childList.value).None?) ==>
        r == (if parent.Some? then FirstSibling(cs, root, ms, parent.value) else None))
  {
    var k := FirstConfig(cs, previous);
    if k.None? then None
    else
      var lc := cs[k.value];
      var byChild := if lc.childList.Some? then FirstChild(cs, ms, lc.childList.value) else None;
      if byChild.Some? then
        assert byChild.value in ms;
        byChild
      else
        var parent := GetParentLoop(root, previous, None);
        if parent.Some? then FirstSibling(cs, root, ms, parent.value) else None
  }

  // ---------------------------------------------------------------------------
  // getMatchedLoop

  /** How getMatchedLoop settles the collected matches: a sole match is the
      answer; with several, those whose closing segment the line is are
      dropped, a sole survivor is the answer, and several survivors go to
      getFinalizedMatch. */
  predicate TieBroken(cs: seq<LoopConfig>, root: LoopDef, tokens: seq<string>, previous: Option<string>, r: Option<nat>) {
    Collect(cs, root, tokens, previous, 0, []).Success? &&
    var m := Collect(cs, root, tokens, previous, 0, []).value;
    (|m| <= 1 ==> r == (if |m| == 1 then Some(m[0]) else None)) &&
    (|m| > 1 ==> (KeepNotEnding(cs, tokens, m).Success? &&
      var kept := KeepNotEnding(cs, tokens, m).value;
      r == (if |kept| == 0 then None else if |kept| == 1 then Some(kept[0])
            else FinalizedMatch(cs, root, previous, kept))))
  }

  /** getMatchedLoop(tokens, previousLoopId): the config whose loop this line
      starts (or ends), if any. */
  function GetMatchedLoop(cs: seq<LoopConfig>, root: LoopDef, tokens: seq<string>, previous: Option<string>): (r: Result<Option<nat>>)
    ensures r.Success? && r.value.Some? ==> r.value.value < |cs| && IsCandidate(cs, tokens, previous, r.value.value)
    ensures r.Success? && (forall j :: 0 <= j < |cs| ==> !IsCandidate(cs, tokens, previous, j)) ==> r.value.None?
    ensures r.Success? && IsChildSegment(root, previous, tokens) == Success(true) ==> r.value.None?
    ensures r.Success? ==> TieBroken(cs, root, tokens, previous, r.value)
  {
    var matched :- Collect(cs, root, tokens, previous, 0, []);
    CollectSound(cs, root, tokens, previous, 0, []);
    CollectChildClears(cs, root, tokens, previous, 0, []);
    if |matched| > 1 then
      var kept :- KeepNotEnding(cs, tokens, matched);
      if |kept| == 0 then Success(None)
      else if |kept| == 1 then
        assert kept[0] in matched;
        Success(Some(kept[0]))
      else
        assert InRange(cs, kept) by {
          forall k | 0 <= k < |kept| ensures kept[k] < |cs| {
            assert kept[k] in matched;
          }
        }
        var f := FinalizedMatch(cs, root, previous, kept);
        if f.Some? then
          assert f.value in matched;
          Success(f)
        else Success(f)
    else if |matched| == 1 then Success(Some(matched[0]))
    else Success(None)
  }

  /** With one candidate config and a line that is not a child segment of
      the previous loop, that config is the match. */
  lemma SingleCandidateMatches(cs: seq<LoopConfig>, root: LoopDef, tokens: seq<string>, previous: Option<string>, j: nat)
    requires UniqueIds(cs) && j < |cs| && IsCandidate(cs, tokens, previous, j)
    requires forall l :: 0 <= l < |cs| && l != j ==> !IsCandidate(cs, tokens, previous, l)
    requires IsChildSegment(root, previous, tokens) == Success(false)
    requires GetMatchedLoop(cs, root, tokens, previous).Success?
    ensures GetMatchedLoop(cs, root, tokens, previous) == Success(Some(j))
  {
    var matched := Collect(cs, root, tokens, previous, 0, []).value;
    CollectSound(cs, root, tokens, previous, 0, []);
    CollectComplete(cs, root, tokens, previous, 0, []);
    assert IdMatched(cs, matched, cs[j].loopId);
    forall k | 0 <= k < |matched|
      ensures matched[k] == j
    {
      assert IsCandidate(cs, tokens, previous, matched[k]);
    }
    var first, second := At(matched, 0), At(matched, 1);
    assert |matched| == 1;
  }

  /** The k-th element, or zero past the end. */
  function At(ms: seq<nat>, k: int): nat {
    if 0 <= k < |ms| then ms[k] else 0
  }
}

=== FILE: reader.dfy ===
/** X12Reader.parse: the driver that reads the segments of a file one by
    one, decides for each whether it starts (or ends) a loop, and hands the
    lines gathered for a loop to storeData. The header checks come first;
    after the last segment the loop errors are collected. */
module X12Reader {
  import opened Wrappers
  import opened Strings
  import opened Tokens
  import opened Mapping
  import opened X12Separators
  import opened X12Loop
  import opened X12LoopConfig
  import opened X12Match
  import opened X12Store
  import opened X12Header
  import opened X12LoopErrors

  function UnknownLoopMessage(): string {
    "Current loop is unknown. Bad structure detected"
  }

  function EndOfTransactionMessage(): string {
    "Unable to find end of transaction"
  }

  function LastLineMessage(): string {
    "Last line of data and we don't know the current loop."
  }

  function SeparatorsMessage(): string {
    "Error getting separators"
  }

  function UnprocessableMessage(): string {
    "Unable to process transaction!"
  }

  /** The local state of the parse loop: the reader, the lines gathered for
      the current loop (loopLines), the current config (currentLoopConfig, an
      index into the config table) and the last loop stored
      (lastLoopStored). */
  datatype Scan = Scan(rd: Reader, lines: seq<string>, current: Option<nat>, anchor: Option<nat>)
  {
    predicate Ok() {
      rd.Valid() && (current.Some? ==> current.value < |rd.configs|) && (anchor.Some? ==> rd.tree.Has(anchor.value))
    }

    function CurrentConfig(): (r: Option<LoopConfig>)
      requires Ok()
      ensures r.Some? <==> current.Some?
      ensures r.Some? ==> r.value == rd.configs[current.value]
    {
      if current.Some? then Some(rd.configs[current.value]) else None
    }

    function CurrentId(): (r: Option<string>)
      requires Ok()
      ensures r.Some? <==> current.Some?
      ensures r.Some? ==> r.value == rd.configs[current.value].loopId
    {
      if current.Some? then Some(rd.configs[current.value].loopId) else None
    }
  }

  /** What every step keeps: the state stays well formed, the config table
      keeps its length, and the error lists only grow. */
  predicate Keeps(sc: Scan, sc1: Scan) {
    sc1.Ok() && |sc1.rd.configs| == |sc.rd.configs| && sc.rd.errors <= sc1.rd.errors && sc.rd.fatal <= sc1.rd.fatal
  }

  /** Why the loop may stop: a new fatal error, or nothing stored and
      nothing pending (which the last line then turns into a fatal error). */
  predicate StopReason(sc: Scan, sc1: Scan) {
    |sc1.rd.fatal| > |sc.rd.fatal| || (sc1.anchor.None? && sc1.lines == [])
  }

  /** The matched config ends its loop: the line starts with the config's
      last segment id and the config is not the current one. */
  predicate Closes(sc: Scan, j: nat, line: string)
    requires sc.Ok() && j < |sc.rd.configs|
  {
    var c := sc.rd.configs[j];
    c.lastSegment.Some? && StartsWith(line, c.lastSegment.value.xid) && sc.current != Some(j)
  }

  /** The line ends a loop: pending lines are stored and the line is
      appended to the loop above that carries the config's id. */
  function StepClose(sc: Scan, root: LoopDef, seps: Separators, line: string, j: nat): (r: Result<(Scan, bool)>)
    requires sc.Ok() && seps.element.Some? && j < |sc.rd.configs|
    ensures r.Success? ==> Keeps(sc, r.value.0)
    ensures r.Success? && !r.value.1 ==> StopReason(sc, r.value.0)
    ensures r.Success? && r.value.1 ==> (r.value.0.lines == [] && r.value.0.current == Some(j) &&
      r.value.0.anchor.Some? && r.value.0.rd.tree.nodes[r.value.0.anchor.value].id == Some(sc.rd.configs[j].loopId))
  {
    var (rd1, stored) :- AppendEndingSegment(sc.rd, root, sc.anchor, sc.CurrentConfig(), Some(sc.rd.configs[j]), seps, line, sc.lines);
    if stored.Some? then Success((Scan(rd1, [], Some(j), stored), true))
    else Success((Scan(rd1, sc.lines, sc.current, None), false))
  }

  /** Before a new transaction starts, the lines still pending are stored
      when a loop was stored before; the boolean is false when that store
      found nowhere to put them. */
  function FlushPending(sc: Scan, root: LoopDef, seps: Separators): (r: Result<(Reader, seq<string>, bool)>)
    requires sc.Ok() && seps.element.Some?
    ensures r.Success? ==> (r.value.0.Valid() && r.value.0.configs == sc.rd.configs && r.value.0.roots == sc.rd.roots &&
      |r.value.0.tree.nodes| >= |sc.rd.tree.nodes| && sc.rd.errors <= r.value.0.errors && sc.rd.fatal <= r.value.0.fatal)
    ensures r.Success? && !r.value.2 ==> |r.value.0.fatal| > |sc.rd.fatal|
    ensures r.Success? && r.value.2 && sc.anchor.Some? && sc.lines != [] ==> r.value.1 == []
    ensures (sc.anchor.None? || sc.lines == []) ==> r == Success((sc.rd, sc.lines, true))
  {
    if sc.anchor.Some? && |sc.lines| > 0 then
      var (rd1, stored) :- StoreData(sc.rd, root, sc.CurrentConfig(), sc.lines, sc.anchor, seps);
      Success((rd1, [], stored.Some?))
    else Success((sc.rd, sc.lines, true))
  }

  /** A new transaction: a top-level loop without id is added to the
      document, nothing is stored in it yet, and the line is pending. */
  function OpenTransaction(rd: Reader, lines: seq<string>, seps: Separators, line: string, j: nat): (r: Scan)
    requires rd.Valid() && j < |rd.configs|
    ensures r.Ok() && r.rd.configs == rd.configs && r.rd.errors == rd.errors && r.rd.fatal == rd.fatal
    ensures r.current == Some(j) && r.anchor.None? && r.lines == lines + [line]
    ensures r.rd.roots == rd.roots + [|rd.tree.nodes|] && r.rd.tree.nodes == rd.tree.nodes + [Fresh(seps, None)]
  {
    var (t, n) := NewLoop(rd.tree, seps, None);
    Scan(rd.(tree := t, roots := rd.roots + [n]), lines + [line], Some(j), None)
  }

  /** The line starts a new transaction (the schema's root loop): pending
      lines are stored when a loop was stored before, a new top-level loop
      without id is added, and the line begins the new transaction's lines.
      A failed store stops the loop with the state as it was. */
  function StepRoot(sc: Scan, root: LoopDef, seps: Separators, line: string, j: nat): (r: Result<(Scan, bool)>)
    requires sc.Ok() && seps.element.Some? && j < |sc.rd.configs|
    ensures r.Success? ==> Keeps(sc, r.value.0)
    ensures r.Success? && !r.value.1 ==> |r.value.0.rd.fatal| > |sc.rd.fatal|
    ensures (sc.anchor.None? || sc.lines == []) ==> r == Success((OpenTransaction(sc.rd, sc.lines, seps, line, j), true))
    ensures r.Success? && r.value.1 ==> (r.value.0.current == Some(j) && r.value.0.anchor.None? &&
      |r.value.0.rd.roots| == |sc.rd.roots| + 1 && |r.value.0.lines| > 0 && r.value.0.lines[|r.value.0.lines| - 1] == line &&
      r.value.0.rd.tree.nodes[r.value.0.rd.roots[|sc.rd.roots|]] == Fresh(seps, None))
  {
    var (rd1, lines1, cont) :- FlushPending(sc, root, seps);
    if !cont then Success((sc.(rd := rd1), false))
    else Success((OpenTransaction(rd1, lines1, seps, line, j), true))
  }

  /** The line starts a loop below the current one: the new loop's config
      is counted, the current loop's lines are stored, and the line begins
      the new loop's lines. With no current loop the structure is unknown. */
  function StepOpen(sc: Scan, root: LoopDef, seps: Separators, line: string, j: nat): (r: Result<(Scan, bool)>)
    requires sc.Ok() && seps.element.Some? && j < |sc.rd.configs|
    ensures r.Success? ==> Keeps(sc, r.value.0)
    ensures r.Success? && !r.value.1 ==> StopReason(sc, r.value.0)
    ensures sc.current.None? ==> r == Success((sc.(rd := sc.rd.Fatal(UnknownLoopMessage())), false))
    ensures r.Success? && sc.current.Some? ==> r.value.0.rd.configs == UpdateLoopCounts(sc.rd.configs, sc.rd.configs[j].loopId)
    ensures r.Success? && r.value.1 ==> (r.value.0.lines == [line] && r.value.0.current == Some(j) &&
      r.value.0.anchor.Some? && (sc.lines == [] ==> r.value.0.anchor == sc.anchor))
  {
    if sc.current.None? then Success((sc.(rd := sc.rd.Fatal(UnknownLoopMessage())), false))
    else
      var rd1 := sc.rd.(configs := UpdateLoopCounts(sc.rd.configs, sc.rd.configs[j].loopId));
      var (rd2, anchor) :-
        if |sc.lines| > 0 then StoreData(rd1, root, Some(rd1.configs[sc.current.value]), sc.lines, sc.anchor, seps)
        else Success((rd1, sc.anchor));
      if anchor.None? then Success((Scan(rd2, sc.lines, sc.current, None), false))
      else Success((Scan(rd2, [line], Some(j), anchor), true))
  }

  /** Where a line matching config j goes: a line closing a config other
      than the current one to the ending branch, a match of the root loop
      to a new transaction, any other match to counting and flushing. */
  predicate Dispatched(sc: Scan, root: LoopDef, seps: Separators, line: string, j: nat, r: Result<(Scan, bool)>)
    requires sc.Ok() && seps.element.Some? && j < |sc.rd.configs|
  {
    (Closes(sc, j, line) ==> r == StepClose(sc, root, seps, line, j)) &&
    (!Closes(sc, j, line) && sc.rd.configs[j].loopId == root.xid ==> r == StepRoot(sc, root, seps, line, j)) &&
    (!Closes(sc, j, line) && sc.rd.configs[j].loopId != root.xid ==> r == StepOpen(sc, root, seps, line, j))
  }

  /** One pass of the parse loop over a (trimmed) line; the boolean says
      whether the loop goes on. */
  function Step(sc: Scan, root: LoopDef, seps: Separators, line: string): (r: Result<(Scan, bool)>)
    requires sc.Ok() && seps.element.Some?
    ensures r.Success? ==> Keeps(sc, r.value.0)
    ensures r.Success? && !r.value.1 ==> StopReason(sc, r.value.0)
    ensures r.Success? ==> GetMatchedLoop(sc.rd.configs, root, Split(line, seps.element.value), sc.CurrentId()).Success?
    ensures GetMatchedLoop(sc.rd.configs, root, Split(line, seps.element.value), sc.CurrentId()) == Success(None) ==>
      r == Success((sc.(lines := sc.lines + [line]), true))
    ensures (r.Success? && r.value.1 &&
             GetMatchedLoop(sc.rd.configs, root, Split(line, seps.element.value), sc.CurrentId()).value.Some?) ==>
      r.value.0.current == GetMatchedLoop(sc.rd.configs, root, Split(line, seps.element.value), sc.CurrentId()).value
    ensures var m := GetMatchedLoop(sc.rd.configs, root, Split(line, seps.element.value), sc.CurrentId());
      m.Success? && m.value.Some? ==> Dispatched(sc, root, seps, line, m.value.value, r)
  {
    var m :- GetMatchedLoop(sc.rd.configs, root, Split(line, seps.element.value), sc.CurrentId());
    if m.None? then Success((sc.(lines := sc.lines + [line]), true))
    else if Closes(sc, m.value, line) then StepClose(sc, root, seps, line, m.value)
    else if sc.rd.configs[m.value].loopId == root.xid then StepRoot(sc, root, seps, line, m.value)
    else StepOpen(sc, root, seps, line, m.value)
  }

  /** The parse loop from token k on: every token but the last goes through
      Step; the index returned is that of the line the loop ended on, which
      is the last token unless a step stopped the loop. */
  function Run(sc: Scan, root: LoopDef, seps: Separators, toks: seq<string>, k: nat): (r: Result<(Scan, nat)>)
    requires sc.Ok() && seps.element.Some? && k < |toks|
    ensures r.Success? ==> k <= r.value.1 < |toks| && Keeps(sc, r.value.0)
    ensures r.Success? && r.value.1 < |toks| - 1 ==> StopReason(sc, r.value.0)
    decreases |toks| - k
  {
    if k == |toks| - 1 then Success((sc, k))
    else
      var (sc1, cont) :- Step(sc, root, seps, toks[k]);
      if !cont then Success((sc1, k))
      else Run(sc1, root, seps, toks, k + 1)
  }

  /** The last line: with a current loop it is matched and appended as an
      ending segment, which must land in a loop carrying the root's id;
      without one the loop is unknown. */
  function EndLine(sc: Scan, root: LoopDef, seps: Separators, line: string): (r: Result<Reader>)
    requires sc.Ok() && seps.element.Some?
    ensures r.Success? ==> r.value.Valid() && sc.rd.errors <= r.value.errors && sc.rd.fatal <= r.value.fatal
    ensures r.Success? ==> r.value.configs == sc.rd.configs
    ensures sc.current.None? ==> r == Success(sc.rd.Fatal(LastLineMessage()))
    ensures sc.anchor.None? && sc.lines == [] ==> r.Success? ==> |r.value.fatal| > |sc.rd.fatal|
    ensures r.Success? && r.value.fatal == sc.rd.fatal ==>
      exists n :: 0 <= n < |r.value.tree.nodes| && r.value.tree.nodes[n].id == Some(root.xid)
    ensures sc.current.Some? ==>
      (r.Success? <==> (EndMatch(sc, root, seps, line).Success? &&
        AppendEndingSegment(sc.rd, root, sc.anchor, sc.CurrentConfig(), EndMatch(sc, root, seps, line).value,
                            seps, line, sc.lines).Success?))
    ensures sc.current.Some? && r.Success? ==>
      var matched := EndMatch(sc, root, seps, line).value;
      var out := AppendEndingSegment(sc.rd, root, sc.anchor, sc.CurrentConfig(), matched, seps, line, sc.lines).value;
      (out.1.Some? && matched.Some? && matched.value.loopId == root.xid ==> r.value == out.0) &&
      (!(out.1.Some? && matched.Some? && matched.value.loopId == root.xid) ==>
        r.value == out.0.Fatal(EndOfTransactionMessage()))
  {
    if sc.current.None? then Success(sc.rd.Fatal(LastLineMessage()))
    else
      var cs := sc.rd.configs;
      var matched :- EndMatch(sc, root, seps, line);
      var (rd1, stored) :- AppendEndingSegment(sc.rd, root, sc.anchor, sc.CurrentConfig(), matched, seps, line, sc.lines);
      if stored.None? || rd1.tree.nodes[stored.value].id != Some(root.xid) then Success(rd1.Fatal(EndOfTransactionMessage()))
      else Success(rd1)
  }

  /** The config the last line matches, given the current loop's id. */
  function EndMatch(sc: Scan, root: LoopDef, seps: Separators, line: string): (r: Result<Option<LoopConfig>>)
    requires sc.Ok() && seps.element.Some?
    ensures var m := GetMatchedLoop(sc.rd.configs, root, Split(line, seps.element.value), sc.CurrentId());
      (r.Failure? <==> m.Failure?) &&
      (r.Success? ==> (r.value.Some? <==> m.value.Some?) &&
                      (r.value.Some? ==> r.value.value == sc.rd.configs[m.value.value]))
  {
    var m :- GetMatchedLoop(sc.rd.configs, root, Split(line, seps.element.value), sc.CurrentId());
    Success(if m.Some? then Some(sc.rd.configs[m.value]) else None)
  }

  predicate EndsWith(xs: seq<string>, ys: seq<string>) {
    |ys| <= |xs| && xs[|xs| - |ys|..] == ys
  }

  /** After the loop: a non-empty last line is handled when no fatal error
      was found, and then, still without fatal errors, the loop errors are
      added. */
  function Finish(sc: Scan, root: LoopDef, seps: Separators, line: string): (r: Result<Reader>)
    requires sc.Ok() && seps.element.Some?
    ensures r.Success? ==> sc.rd.errors <= r.value.errors && sc.rd.fatal <= r.value.fatal
    ensures sc.rd.fatal != [] ==> r == Success(sc.rd)
    ensures r.Success? && line != "" && sc.rd.fatal == [] && sc.current.None? ==> r.value.fatal == [LastLineMessage()]
    ensures r.Success? && line != "" && sc.rd.fatal == [] && sc.anchor.None? && sc.lines == [] ==> r.value.fatal != []
    ensures r.Success? && r.value.fatal == [] ==> (CheckLoopErrors(r.value, root).Success? &&
      EndsWith(r.value.errors, CheckLoopErrors(r.value, root).value))
  {
    var rd1 :- if line != "" && |sc.rd.fatal| == 0 then EndLine(sc, root, seps, line) else Success(sc.rd);
    if |rd1.fatal| == 0 then
      var errs :- CheckLoopErrors(rd1, root);
      assert CheckLoopErrors(rd1.(errors := rd1.errors + errs), root) == CheckLoopErrors(rd1, root);
      Success(rd1.(errors := rd1.errors + errs))
    else Success(rd1)
  }

  /** The reader after a header the parse refuses. */
  function Rejected(message: string): (r: Reader)
    ensures r.errors == [message] && r.fatal == [UnprocessableMessage()] && r.roots == []
  {
    Reader([], Tree([]), [], map[], [message], [UnprocessableMessage()])
  }

  /** The initial state of the parse loop over the config table. */
  function Start(cs: seq<LoopConfig>): (r: Scan)
    ensures r.Ok() && r.rd.configs == cs && r.rd.errors == [] && r.rd.fatal == [] && r.rd.roots == []
    ensures r.lines == [] && r.current.None? && r.anchor.None?
  {
    Scan(Reader(cs, Tree([]), [], map[], [], []), [], None, None)
  }

  /** The scanner's tokens, each trimmed. */
  function TrimAll(tokens: seq<string>): (r: seq<string>)
    ensures |r| == |tokens| && forall i :: 0 <= i < |r| ==> r[i] == Trim(tokens[i])
  {
    seq(|tokens|, i requires 0 <= i < |tokens| => Trim(tokens[i]))
  }

  /** The body of parse once the header is accepted: the config table is
      built, the first token is read (there must be one), the loop runs
      and the last line is handled. */
  function ParseBody(root: LoopDef, seps: Separators, tokens: seq<string>): (r: Result<Reader>)
    requires seps.element.Some?
    ensures BuildConfigs(root).Success? && tokens == [] ==> r == Failure(NoSuchElement)
    ensures r.Success? ==> (BuildConfigs(root).Success? && tokens != [] &&
      Run(Start(BuildConfigs(root).value), root, seps, TrimAll(tokens), 0).Success?)
  {
    var cs :- BuildConfigs(root);
    if |tokens| == 0 then Failure(NoSuchElement)
    else
      var toks := TrimAll(tokens);
      var (sc, k) :- Run(Start(cs), root, seps, toks, 0);
      Finish(sc, root, seps, toks[k])
  }

  /** parse: the separators are read from the ISA segment and the version
      from the segment after it; either failing leaves one error and the
      fatal "Unable to process transaction!". The scanner's tokens (the text
      cut at each segment terminator) are given. */
  function Parse(ft: FileType, root: LoopDef, text: string, tokens: seq<string>): (r: Result<Reader>)
    ensures DetectSeparators(text).None? ==> r == Success(Rejected(SeparatorsMessage()))
    ensures (DetectSeparators(text).Some? && CheckVersions(ft, text, DetectSeparators(text).value).Some?) ==>
      r == Success(Rejected(VersionMessage(VersionOf(text, text[SegmentPos], text[ElementPos]), ft)))
    ensures (DetectSeparators(text).Some? && CheckVersions(ft, text, DetectSeparators(text).value).None?) ==>
      r == ParseBody(root, DetectSeparators(text).value, tokens)
  {
    var seps := DetectSeparators(text);
    if seps.None? then Success(Rejected(SeparatorsMessage()))
    else
      var v := CheckVersions(ft, text, seps.value);
      if v.Some? then Success(Rejected(v.value))
      else ParseBody(root, seps.value, tokens)
  }

  /** The loop stops early only for a reason that ends in a fatal error: a
      parse without fatal errors read every token, the last one included,
      unless the line the loop stopped on is empty. */
  lemma NoFatalMeansEveryLineRead(root: LoopDef, seps: Separators, tokens: seq<string>)
    requires seps.element.Some?
    requires ParseBody(root, seps, tokens).Success? && ParseBody(root, seps, tokens).value.fatal == []
    ensures var toks := TrimAll(tokens);
      var k := Run(Start(BuildConfigs(root).value), root, seps, toks, 0).value.1;
      k == |toks| - 1 || toks[k] == ""
  {
    var cs := BuildConfigs(root).value;
    var toks := TrimAll(tokens);
    var (sc, k) := Run(Start(cs), root, seps, toks, 0).value;
    var r := Finish(sc, root, seps, toks[k]);
    assert r == ParseBody(root, seps, tokens);
  }
}

=== FILE: schema.dfy ===
/** The reader's queries over the schema tree: which loops list a given loop
    as a child, which parent to prefer, the segment definitions of a loop and
    the required child loops of a loop. */
module X12Schema {
  import opened Wrappers
  import opened Mapping

  /** d is the root or lies below it. */
  predicate InSubtree(d: LoopDef, root: LoopDef)
    decreases root
  {
    d == root || exists i :: 0 <= i < |root.Children()| && InSubtree(d, root.Children()[i])
  }

  /** d lists a child loop with that id. */
  predicate ListsChild(d: LoopDef, id: Option<string>) {
    exists i :: 0 <= i < |d.Children()| && Some(d.Children()[i].xid) == id
  }

  // ---------------------------------------------------------------------------
  // getParentLoopsFromDefinition

  /** getParentLoopsFromDefinition(loop, id): walking the schema in
      pre-order, the id of every loop each time one of its children has the
      requested id. */
  function ParentLoops(loop: LoopDef, id: Option<string>): (r: seq<string>)
    decreases loop, 1
  {
    ParentLoopsFrom(loop, id, 0)
  }

  function ParentLoopsFrom(loop: LoopDef, id: Option<string>, i: nat): (r: seq<string>)
    requires i <= |loop.Children()|
    decreases loop, 0, |loop.Children()| - i
  {
    if i == |loop.Children()| then []
    else
      var c := loop.Children()[i];
      (if Some(c.xid) == id then [loop.xid] else []) + ParentLoops(c, id) + ParentLoopsFrom(loop, id, i + 1)
  }

  /** An id is reported exactly when some loop of the schema with that id
      lists a child with the requested id. */
  lemma {:induction false} ParentLoopsIff(loop: LoopDef, id: Option<string>, x: string)
    ensures x in ParentLoops(loop, id) <==> exists d :: InSubtree(d, loop) && d.xid == x && ListsChild(d, id)
    decreases loop, 1
  {
    ParentLoopsFromIff(loop, id, x, 0);
    var here := exists k :: 0 <= k < |loop.Children()| && Some(loop.Children()[k].xid) == id;
    if x in ParentLoops(loop, id) {
      if !(loop.xid == x && here) {
        var k :| 0 <= k < |loop.Children()| &&
          exists d :: InSubtree(d, loop.Children()[k]) && d.xid == x && ListsChild(d, id);
        var d :| InSubtree(d, loop.Children()[k]) && d.xid == x && ListsChild(d, id);
        assert InSubtree(d, loop);
      } else {
        assert InSubtree(loop, loop);
      }
    }
    if exists d :: InSubtree(d, loop) && d.xid == x && ListsChild(d, id) {
      var d :| InSubtree(d, loop) && d.xid == x && ListsChild(d, id);
      if d != loop {
        var k :| 0 <= k < |loop.Children()| && InSubtree(d, loop.Children()[k]);
        assert exists d' :: InSubtree(d', loop.Children()[k]) && d'.xid == x && ListsChild(d', id);
      }
    }
  }

  lemma {:induction false} ParentLoopsFromIff(loop: LoopDef, id: Option<string>, x: string, i: nat)
    requires i <= |loop.Children()|
    ensures x in ParentLoopsFrom(loop, id, i) <==>
      (loop.xid == x && exists k :: i <= k < |loop.Children()| && Some(loop.Children()[k].xid) == id) ||
      (exists k :: i <= k < |loop.Children()| &&
        exists d :: InSubtree(d, loop.Children()[k]) && d.xid == x && ListsChild(d, id))
    decreases loop, 0, |loop.Children()| - i
  {
    if i < |loop.Children()| {
      var c := loop.Children()[i];
      ParentLoopsIff(c, id, x);
      ParentLoopsFromIff(loop, id, x, i + 1);
    }
  }

  // ---------------------------------------------------------------------------
  // getParentLoop

  /** The first element of xs that ys also holds. */
  function FirstShared(xs: seq<string>, ys: seq<string>): (r: Option<string>)
    ensures r.Some? ==> r.value in xs && r.value in ys
    ensures r.None? <==> forall x :: x in xs ==> x !in ys
    ensures r.Some? ==> exists i :: 0 <= i < |xs| && xs[i] == r.value && forall j :: 0 <= j < i ==> xs[j] !in ys
  {
    if |xs| == 0 then None
    else if xs[0] in ys then Some(xs[0])
    else
      var r := FirstShared(xs[1..], ys);
      assert forall x :: x in xs ==> x == xs[0] || x in xs[1..];
      if r.Some? then
        var i :| 0 <= i < |xs[1..]| && xs[1..][i] == r.value && forall j :: 0 <= j < i ==> xs[1..][j] !in ys;
        assert xs[i + 1] == r.value;
        r
      else r
  }

  /** getParentLoop(loopId, previousLoopId): with a previous loop, the first
      schema parent of loopId that is also a schema parent of the previous
      loop; failing that, loopId's first schema parent; none if it has
      none. */
  function GetParentLoop(root: LoopDef, loopId: Option<string>, previous: Option<string>): (r: Option<string>)
    ensures r.None? <==> |ParentLoops(root, loopId)| == 0
    ensures r.Some? ==> r.value in ParentLoops(root, loopId)
    ensures previous.Some? && FirstShared(ParentLoops(root, loopId), ParentLoops(root, previous)).Some? ==>
      r == FirstShared(ParentLoops(root, loopId), ParentLoops(root, previous))
    ensures r.Some? && (previous.None? || FirstShared(ParentLoops(root, loopId), ParentLoops(root, previous)).None?) ==>
      r.value == ParentLoops(root, loopId)[0]
  {
    var parents := ParentLoops(root, loopId);
    var previousParents := ParentLoops(root, previous);
    var shared := if previous.Some? then FirstShared(parents, previousParents) else None;
    if shared.Some? then shared
    else if |parents| > 0 then Some(parents[0])
    else None
  }

  // ---------------------------------------------------------------------------
  // getSegmentDefinitions

  /** getSegmentDefinitions(loop, id): the segment list of the loop with that
      id (None when that list is absent). Below a loop with another id the
      children are searched in order, and the search stops at the first child
      whose answer is absent or non-empty. */
  function SegmentDefinitions(loop: LoopDef, id: Option<string>): (r: Option<seq<SegmentDef>>)
    ensures Some(loop.xid) == id ==> r == loop.segments
    ensures r.None? || |r.value| > 0 ==> exists d :: InSubtree(d, loop) && Some(d.xid) == id && d.segments == r
    decreases loop, 1
  {
    if Some(loop.xid) == id then
      assert InSubtree(loop, loop);
      loop.segments
    else SegmentDefinitionsFrom(loop, id, 0)
  }

  function SegmentDefinitionsFrom(loop: LoopDef, id: Option<string>, i: nat): (r: Option<seq<SegmentDef>>)
    requires i <= |loop.Children()|
    ensures r.None? || |r.value| > 0 ==>
      exists d :: InSubtree(d, loop) && Some(d.xid) == id && d.segments == r
    decreases loop, 0, |loop.Children()| - i
  {
    if i == |loop.Children()| then Some([])
    else
      var segs := SegmentDefinitions(loop.Children()[i], id);
      if segs.None? || |segs.value| > 0 then
        var d :| InSubtree(d, loop.Children()[i]) && Some(d.xid) == id && d.segments == segs;
        assert InSubtree(d, loop);
        segs
      else SegmentDefinitionsFrom(loop, id, i + 1)
  }

  /** The topmost loops of the schema with that id, in pre-order: the
      search does not go below a loop that has the id. */
  function TopNamesakes(loop: LoopDef, id: Option<string>): (r: seq<LoopDef>)
    ensures forall d :: d in r ==> InSubtree(d, loop) && Some(d.xid) == id
    decreases loop, 1
  {
    if Some(loop.xid) == id then
      assert InSubtree(loop, loop);
      [loop]
    else TopNamesakesFrom(loop, id, 0)
  }

  function TopNamesakesFrom(loop: LoopDef, id: Option<string>, i: nat): (r: seq<LoopDef>)
    requires i <= |loop.Children()|
    ensures forall d :: d in r ==> InSubtree(d, loop) && Some(d.xid) == id
    decreases loop, 0, |loop.Children()| - i
  {
    if i == |loop.Children()| then []
    else
      var here := TopNamesakes(loop.Children()[i], id);
      var rest := TopNamesakesFrom(loop, id, i + 1);
      assert forall d :: d in here ==> InSubtree(d, loop);
      here + rest
  }

  /** A segment list that ends the search: absent or non-empty. */
  predicate Decisive(segs: Option<seq<SegmentDef>>) {
    segs.None? || |segs.value| > 0
  }

  /** The segment list of the first loop in ds whose list is decisive, or
      an empty list when there is none. */
  function FirstDecisive(ds: seq<LoopDef>): (r: Option<seq<SegmentDef>>)
    ensures Decisive(r) <==> exists k :: 0 <= k < |ds| && Decisive(ds[k].segments)
    ensures !Decisive(r) ==> r == Some([])
    ensures Decisive(r) ==> exists k :: 0 <= k < |ds| && ds[k].segments == r &&
                                        forall j :: 0 <= j < k ==> !Decisive(ds[j].segments)
  {
    if |ds| == 0 then Some([])
    else if Decisive(ds[0].segments) then ds[0].segments
    else
      var r := FirstDecisive(ds[1..]);
      if Decisive(r) then
        var k :| 0 <= k < |ds[1..]| && ds[1..][k].segments == r && forall j :: 0 <= j < k ==> !Decisive(ds[1..][j].segments);
        assert ds[k + 1].segments == r;
        r
      else
        assert forall k :: 1 <= k < |ds| ==> ds[k] == ds[1..][k - 1];
        r
  }

  lemma {:induction false} FirstDecisiveAppend(a: seq<LoopDef>, b: seq<LoopDef>)
    ensures FirstDecisive(a + b) == if Decisive(FirstDecisive(a)) then FirstDecisive(a) else FirstDecisive(b)
  {
    if |a| > 0 {
      assert (a + b)[0] == a[0];
      if !Decisive(a[0].segments) {
        assert (a + b)[1..] == a[1..] + b;
        FirstDecisiveAppend(a[1..], b);
      }
    } else {
      assert a + b == b;
    }
  }

  /** getSegmentDefinitions is the first decisive segment list among the
      topmost namesakes in pre-order, and an empty list when there is none. */
  lemma {:induction false} SegmentDefinitionsIsFirstDecisive(loop: LoopDef, id: Option<string>)
    ensures SegmentDefinitions(loop, id) == FirstDecisive(TopNamesakes(loop, id))
    decreases loop, 1
  {
    if Some(loop.xid) != id {
      SegmentDefinitionsFromIsFirstDecisive(loop, id, 0);
    }
  }

  lemma {:induction false} SegmentDefinitionsFromIsFirstDecisive(loop: LoopDef, id: Option<string>, i: nat)
    requires i <= |loop.Children()|
    ensures SegmentDefinitionsFrom(loop, id, i) == FirstDecisive(TopNamesakesFrom(loop, id, i))
    decreases loop, 0, |loop.Children()| - i
  {
    if i < |loop.Children()| {
      var c := loop.Children()[i];
      SegmentDefinitionsIsFirstDecisive(c, id);
      SegmentDefinitionsFromIsFirstDecisive(loop, id, i + 1);
      FirstDecisiveAppend(TopNamesakes(c, id), TopNamesakesFrom(loop, id, i + 1));
    }
  }

  /** A schema without a loop of that id yields an empty list. */
  lemma {:induction false} SegmentDefinitionsMissing(loop: LoopDef, id: Option<string>)
    requires forall d :: InSubtree(d, loop) ==> Some(d.xid) != id
    ensures SegmentDefinitions(loop, id) == Some([])
  {
    assert InSubtree(loop, loop);
  }

  // ---------------------------------------------------------------------------
  // getRequiredChildLoops

  /** The ids of the direct children of d whose usage is REQUIRED; a child
      without a usage throws. */
  function RequiredChildren(d: LoopDef): (r: Result<set<string>>)
    ensures r.Failure? <==> exists i :: 0 <= i < |d.Children()| && d.Children()[i].usage.None?
    ensures r.Failure? ==> r.error == NullPointer
    ensures r.Success? ==> forall x :: x in r.value <==>
      exists i :: 0 <= i < |d.Children()| && d.Children()[i].usage == Some(REQUIRED) && d.Children()[i].xid == x
  {
    RequiredChildrenFrom(d.Children(), 0)
  }

  function RequiredChildrenFrom(cs: seq<LoopDef>, i: nat): (r: Result<set<string>>)
    requires i <= |cs|
    ensures r.Failure? <==> exists k :: i <= k < |cs| && cs[k].usage.None?
    ensures r.Failure? ==> r.error == NullPointer
    ensures r.Success? ==> forall x :: x in r.value <==>
      exists k :: i <= k < |cs| && cs[k].usage == Some(REQUIRED) && cs[k].xid == x
    decreases |cs| - i
  {
    if i == |cs| then Success({})
    else if cs[i].usage.None? then Failure(NullPointer)
    else
      var rest :- RequiredChildrenFrom(cs, i + 1);
      Success(if cs[i].usage == Some(REQUIRED) then {cs[i].xid} + rest else rest)
  }

  /** getRequiredChildLoops(loop, id, set): below loops with another id the
      children are searched; at a loop with that id its REQUIRED children are
      added (and the search does not go further down). */
  function RequiredChildLoops(loop: LoopDef, id: string, acc: set<string>): (r: Result<set<string>>)
    ensures r.Success? ==> acc <= r.value
    ensures r.Failure? ==> r.error == NullPointer
    ensures loop.xid == id && RequiredChildren(loop).Success? ==> r == Success(acc + RequiredChildren(loop).value)
    decreases loop, 1
  {
    if loop.xid != id then RequiredChildLoopsFrom(loop, id, 0, acc)
    else
      var req :- RequiredChildren(loop);
      Success(acc + req)
  }

  function RequiredChildLoopsFrom(loop: LoopDef, id: string, i: nat, acc: set<string>): (r: Result<set<string>>)
    requires i <= |loop.Children()|
    ensures r.Success? ==> acc <= r.value
    ensures r.Failure? ==> r.error == NullPointer
    decreases loop, 0, |loop.Children()| - i
  {
    if i == |loop.Children()| then Success(acc)
    else
      var acc1 :- RequiredChildLoops(loop.Children()[i], id, acc);
      RequiredChildLoopsFrom(loop, id, i + 1, acc1)
  }

  /** No loop of that id in the schema: nothing is added. */
  lemma {:induction false} RequiredChildLoopsMissing(loop: LoopDef, id: string, acc: set<string>)
    requires forall d :: InSubtree(d, loop) ==> d.xid != id
    ensures RequiredChildLoops(loop, id, acc) == Success(acc)
    decreases loop, 1
  {
    assert InSubtree(loop, loop);
    RequiredChildLoopsFromMissing(loop, id, 0, acc);
  }

  lemma {:induction false} RequiredChildLoopsFromMissing(loop: LoopDef, id: string, i: nat, acc: set<string>)
    requires i <= |loop.Children()|
    requires forall d :: InSubtree(d, loop) ==> d.xid != id
    ensures RequiredChildLoopsFrom(loop, id, i, acc) == Success(acc)
    decreases loop, 0, |loop.Children()| - i
  {
    if i < |loop.Children()| {
      var c := loop.Children()[i];
      forall d | InSubtree(d, c)
        ensures d.xid != id
      {
        assert InSubtree(d, loop);
      }
      RequiredChildLoopsMissing(c, id, acc);
      RequiredChildLoopsFromMissing(loop, id, i + 1, acc);
    }
  }

  // ---------------------------------------------------------------------------
  // getRequiredChildLoops as a list

  /** The ids a list holds. */
  function Elements(xs: seq<string>): set<string> {
    set x | x in xs
  }

  /** Adding the ids of xs one by one to a set kept as a list in insertion
      order (the iteration order the model gives to Java's HashSet). */
  function AddAll(acc: seq<string>, xs: seq<string>): (r: seq<string>)
    ensures Elements(r) == Elements(acc) + Elements(xs)
    ensures acc <= r
    ensures NoDuplicates(acc) ==> NoDuplicates(r)
    decreases |xs|
  {
    if |xs| == 0 then acc
    else
      var acc1 := if xs[0] in acc then acc else acc + [xs[0]];
      assert Elements(xs) == {xs[0]} + Elements(xs[1..]) by {
        assert forall x :: x in xs <==> x == xs[0] || x in xs[1..];
      }
      AddAll(acc1, xs[1..])
  }

  predicate NoDuplicates(xs: seq<string>) {
    forall a, b :: 0 <= a < b < |xs| ==> xs[a] != xs[b]
  }

  /** The REQUIRED children of a loop definition in schema order. */
  function RequiredChildrenList(cs: seq<LoopDef>, i: nat): (r: Result<seq<string>>)
    requires i <= |cs|
    ensures r.Success? <==> RequiredChildrenFrom(cs, i).Success?
    ensures r.Success? ==> Elements(r.value) == RequiredChildrenFrom(cs, i).value
    decreases |cs| - i
  {
    if i == |cs| then Success([])
    else if cs[i].usage.None? then Failure(NullPointer)
    else
      var rest :- RequiredChildrenList(cs, i + 1);
      var r := if cs[i].usage == Some(REQUIRED) then [cs[i].xid] + rest else rest;
      assert Elements(r) == (if cs[i].usage == Some(REQUIRED) then {cs[i].xid} else {}) + Elements(rest) by {
        assert forall x :: x in r <==> (cs[i].usage == Some(REQUIRED) && x == cs[i].xid) || x in rest;
      }
      Success(r)
  }

  /** getRequiredChildLoops with its set kept as a list in insertion order;
      it holds the same ids as RequiredChildLoops. */
  function RequiredChildList(loop: LoopDef, id: string, acc: seq<string>): (r: Result<seq<string>>)
    ensures r.Success? <==> RequiredChildLoops(loop, id, Elements(acc)).Success?
    ensures r.Success? ==> Elements(r.value) == RequiredChildLoops(loop, id, Elements(acc)).value
    ensures r.Success? && NoDuplicates(acc) ==> NoDuplicates(r.value)
    decreases loop, 1
  {
    if loop.xid != id then RequiredChildListFrom(loop, id, 0, acc)
    else
      var req :- RequiredChildrenList(loop.Children(), 0);
      Success(AddAll(acc, req))
  }

  function RequiredChildListFrom(loop: LoopDef, id: string, i: nat, acc: seq<string>): (r: Result<seq<string>>)
    requires i <= |loop.Children()|
    ensures r.Success? <==> RequiredChildLoopsFrom(loop, id, i, Elements(acc)).Success?
    ensures r.Success? ==> Elements(r.value) == RequiredChildLoopsFrom(loop, id, i, Elements(acc)).value
    ensures r.Success? && NoDuplicates(acc) ==> NoDuplicates(r.value)
    decreases loop, 0, |loop.Children()| - i
  {
    if i == |loop.Children()| then Success(acc)
    else
      var acc1 :- RequiredChildList(loop.Children()[i], id, acc);
      RequiredChildListFrom(loop, id, i + 1, acc1)
  }
}

=== FILE: segment.dfy ===
/** An X12 segment: an identifier ("NM1", "CLM", ...) followed by its data
    elements, rendered with the element delimiter between them. Element
    positions in the public operations are 1-based, as in the X12 element
    names (NM101 is the first element of NM1). */
module X12Segment {
  import opened Wrappers
  import opened Strings
  import opened Tokens
  import opened X12Separators
  import opened X12Element

  // ---------------------------------------------------------------------------
  // Element names

  /** The name addElements gives the i-th element (1-based) of segment segId:
      a zero-padded two-digit suffix below 10, the plain number above. */
  function ElementName(segId: string, i: nat): (r: string)
    ensures |r| >= |segId| + 2 && r[..|segId|] == segId
  {
    if i < 10 then segId + "0" + NatToString(i) else segId + NatToString(i)
  }

  /** The suffix of an element name is the element's position; below 100 it
      has exactly two digits. */
  lemma ElementNameEncodesPosition(segId: string, i: nat)
    ensures var suffix := ElementName(segId, i)[|segId|..];
      AllDigits(suffix) && DigitsValue(suffix) == i && (i < 100 ==> |suffix| == 2)
  {
    var name := ElementName(segId, i);
    NatToStringValue(i);
    if i < 10 {
      assert name[|segId|..] == "0" + NatToString(i);
      DigitsValueSnoc("0", DigitChar(i));
      assert DigitsValue("0") == 0 by {
        assert "0"[1..] == [];
      }
    } else {
      assert name[|segId|..] == NatToString(i);
      if i < 100 {
        assert NatToString(i) == NatToString(i / 10) + [DigitChar(i % 10)];
      }
    }
  }

  lemma ElementNamesDistinct(segId: string, i: nat, j: nat)
    requires i != j
    ensures ElementName(segId, i) != ElementName(segId, j)
  {
    ElementNameEncodesPosition(segId, i);
    ElementNameEncodesPosition(segId, j);
  }

  /** The name appendElement gives the element it adds after `size`
      existing ones: the padding test looks at the count before the append,
      so the tenth element comes out as segId + "010". */
  function AppendedNameAsWritten(segId: string, size: nat): string {
    if size < 10 then segId + "0" + NatToString(size + 1) else segId + NatToString(size + 1)
  }

  /** The appended name agrees with addElements' naming except when the
      new element is the tenth. */
  lemma AppendedNameDisagreesOnlyAtTen(segId: string, size: nat)
    ensures AppendedNameAsWritten(segId, size) == ElementName(segId, size + 1) <==> size != 9
  {
    if size == 9 {
      assert |NatToString(10)| == 2 by {
        assert NatToString(10) == NatToString(1) + [DigitChar(0)];
      }
      assert |AppendedNameAsWritten(segId, size)| == |segId| + 3;
    }
  }

  // ---------------------------------------------------------------------------
  // Composite values

  /** The text addCompositeElement and setCompositeElement build from the
      pieces: each piece followed by the composite delimiter ("null" when it is
      unset), minus the last character; no pieces leave nothing to cut. */
  function CompositeValue(parts: seq<string>, composite: Option<char>): (r: Option<string>)
    ensures r.Some? <==> |parts| > 0
    ensures r.Some? && composite.Some? ==> r.value == Join(parts, composite.value)
    ensures r.Some? && composite.None? ==> r.value == JoinText(parts, "null") + "nul"
  {
    var dump := Terminated(parts, CharOrNull(composite));
    if |dump| == 0 then None
    else if composite.Some? then
      TerminatedJoin(parts, composite.value);
      Some(dump[..|dump| - 1])
    else
      TerminatedJoinText(parts, "null");
      assert dump == JoinText(parts, "null") + "nul" + "l";
      Some(dump[..|dump| - 1])
  }

  // ---------------------------------------------------------------------------
  // Segment

  /** s is what addElements(String) makes of `before` from the pieces ts:
      the first piece names it, the old elements stay in front, and each
      later piece i follows them as an element named for position i. */
  predicate PopulatedFrom(before: Segment, ts: seq<string>, s: Segment) {
    |ts| >= 1 && s.id == Some(ts[0]) && s.separators == before.separators &&
    |s.elements| == |before.elements| + |ts| - 1 && s.elements[..|before.elements|] == before.elements &&
    forall i :: 1 <= i < |ts| ==>
      s.elements[|before.elements| + i - 1].id == ElementName(ts[0], i) &&
      s.elements[|before.elements| + i - 1].value == Some(ts[i])
  }

  lemma PopulatedByAppending(before: Segment, ts: seq<string>, added: seq<Element>, s: Segment)
    requires |ts| >= 1 && |added| == |ts| - 1
    requires forall i :: 0 <= i < |added| ==> added[i].id == ElementName(ts[0], i + 1) && added[i].value == Some(ts[i + 1])
    requires s.id == Some(ts[0]) && s.separators == before.separators && s.elements == before.elements + added
    ensures PopulatedFrom(before, ts, s)
  {
    assert s.elements[..|before.elements|] == before.elements;
    forall i | 1 <= i < |ts|
      ensures s.elements[|before.elements| + i - 1].id == ElementName(ts[0], i)
      ensures s.elements[|before.elements| + i - 1].value == Some(ts[i])
    {
      assert s.elements[|before.elements| + i - 1] == added[i - 1];
    }
  }

  datatype Segment = Segment(id: Option<string>, elements: seq<Element>, separators: Separators)
  {
    /** The printed form of every element, in order. */
    function Texts(): (r: seq<string>)
      ensures |r| == |elements|
      ensures forall i :: 0 <= i < |elements| ==> r[i] == elements[i].ToString()
    {
      seq(|elements|, i requires 0 <= i < |elements| => elements[i].ToString())
    }

    /** toString: the identifier and each element, each followed by the
        element delimiter, with the final character removed. With the
        delimiter set this is the identifier and the element texts joined by
        it. */
    function ToString(): (r: string)
      ensures separators.element.Some? ==> r == Join([OrNull(id)] + Texts(), separators.element.value)
    {
      var sep := CharOrNull(separators.element);
      var all := [OrNull(id)] + Texts();
      assert all[1..] == Texts();
      var out := Terminated(all, sep);
      if separators.element.Some? then
        TerminatedJoin(all, separators.element.value);
        out[..|out| - 1]
      else
        out[..|out| - 1]
    }

    /** addElement(element): appends it. */
    function AddElement(e: Element): (r: Segment)
      ensures r.elements == elements + [e] && r.id == id && r.separators == separators
    {
      this.(elements := elements + [e])
    }

    /** addElement(index, element): inserts it before position `index`
        (0-based, as List.add); an index below zero or past the end throws. */
    function AddElementAt(index: int, e: Element): (r: Result<Segment>)
      ensures r.Failure? <==> index < 0 || index > |elements|
      ensures r.Failure? ==> r.error == IndexOutOfBounds
      ensures r.Success? ==> (
        |r.value.elements| == |elements| + 1 && r.value.elements[index] == e &&
        r.value.elements[..index] == elements[..index] && r.value.elements[index + 1..] == elements[index..] &&
        r.value.id == id && r.value.separators == separators)
    {
      if index < 0 || index > |elements| then Failure(IndexOutOfBounds)
      else Success(this.(elements := elements[..index] + [e] + elements[index..]))
    }

    /** addElements(Element...): each is appended, but the loop stops with
        false after the first one when no identifier is set. */
    function AddElements(es: seq<Element>): (r: (Segment, bool))
      ensures r.1 <==> id.Some? || |es| == 0
      ensures r.0.elements == elements + (if r.1 then es else es[..1])
      ensures r.0.id == id && r.0.separators == separators
    {
      if |es| == 0 || id.Some? then (this.(elements := elements + es), true)
      else (this.(elements := elements + es[..1]), false)
    }

    /** addElements(String): splits the text on the element delimiter, takes
        the first piece as the segment identifier and appends one element per
        remaining piece, named by ElementName. With the delimiter unset it
        returns false; a text made only of delimiters splits to nothing and
        the array of -1 elements throws. */
    function AddElementsText(text: string): (r: Result<(Segment, bool)>)
      ensures r.Failure? <==> separators.element.Some? && OnlyDelimiters(text, separators.element.value)
      ensures r.Failure? ==> r.error == NegativeArraySize
      ensures r.Success? ==> (r.value.1 <==> separators.element.Some?)
      ensures r.Success? && !r.value.1 ==> r.value.0 == this
      ensures r.Success? && r.value.1 ==> PopulatedFrom(this, Split(text, separators.element.value), r.value.0)
    {
      match separators.element
      case None => Success((this, false))
      case Some(e) =>
        SplitEmptyIff(text, e);
        var ts := Split(text, e);
        if |ts| == 0 then Failure(NegativeArraySize)
        else Success((Populated(ts), true))
    }

    /** The segment addElements(String) builds from the split pieces: the
        first names it, each later one becomes an element named after its
        position. */
    function Populated(ts: seq<string>): (s: Segment)
      requires |ts| >= 1
      ensures PopulatedFrom(this, ts, s)
    {
      var added := seq(|ts| - 1, i requires 0 <= i < |ts| - 1 => Piece(ElementName(ts[0], i + 1), ts[i + 1]));
      var s := this.(id := Some(ts[0]), elements := elements + added);
      assert forall i :: 0 <= i < |added| ==> added[i].id == ElementName(ts[0], i + 1) && added[i].value == Some(ts[i + 1]);
      PopulatedByAppending(this, ts, added, s);
      s
    }

    /** One element addElements(String) creates: named, holding the piece. */
    function Piece(name: string, piece: string): (e: Element)
      requires |name| > 0
      ensures e.id == name && e.value == Some(piece)
    {
      NewElement(Some(name), Some(piece), separators).value
    }

    /** appendElement(text), as written: the new element's name pads with a
        zero whenever fewer than ten elements precede it. */
    function AppendElement(text: Option<string>): (r: Result<(Segment, bool)>)
      ensures r.Failure? <==> id.None? || text.None?
      ensures r.Failure? ==> r.error == IllegalState
      ensures r.Success? ==> (
        r.value.1 && r.value.0.id == id &&
        |r.value.0.elements| == |elements| + 1 && r.value.0.elements[..|elements|] == elements &&
        r.value.0.elements[|elements|].id == AppendedNameAsWritten(id.value, |elements|) &&
        r.value.0.elements[|elements|].value == text)
    {
      if id.None? || text.None? then Failure(IllegalState)
      else
        var e := NewElement(Some(AppendedNameAsWritten(id.value, |elements|)), text, separators).value;
        assert (elements + [e])[..|elements|] == elements;
        Success((this.(elements := elements + [e]), true))
    }

    /** appendElement(text) naming the new element the way addElements
        names the element at that position. */
    function AppendElementCorrected(text: Option<string>): (r: Result<(Segment, bool)>)
      ensures r.Failure? <==> id.None? || text.None?
      ensures r.Failure? ==> r.error == IllegalState
      ensures r.Success? ==> (
        r.value.1 && r.value.0.id == id &&
        |r.value.0.elements| == |elements| + 1 && r.value.0.elements[..|elements|] == elements &&
        r.value.0.elements[|elements|].id == ElementName(id.value, |elements| + 1) &&
        r.value.0.elements[|elements|].value == text)
    {
      if id.None? || text.None? then Failure(IllegalState)
      else
        var e := NewElement(Some(ElementName(id.value, |elements| + 1)), text, separators).value;
        assert (elements + [e])[..|elements|] == elements;
        Success((this.(elements := elements + [e]), true))
    }

    /** addCompositeElement(id, parts...): appends an element whose value is
        the parts joined by the composite delimiter. */
    function AddCompositeElement(elementId: Option<string>, parts: seq<string>): (r: Result<Segment>)
      ensures r.Failure? <==> |parts| == 0 || elementId.None? || |elementId.value| == 0
      ensures r.Failure? ==> r.error == (if |parts| == 0 then StringIndexOutOfBounds else IllegalState)
      ensures r.Success? ==> (
        |r.value.elements| == |elements| + 1 &&
        r.value.elements[..|elements|] == elements &&
        r.value.elements[|elements|].id == elementId.value)
      ensures r.Success? && separators.composite.Some? ==>
        r.value.elements[|elements|].value == Some(Join(parts, separators.composite.value))
      ensures r.Success? && separators.composite.None? ==>
        r.value.elements[|elements|].value == Some(JoinText(parts, "null") + "nul")
    {
      match CompositeValue(parts, separators.composite)
      case None => Failure(StringIndexOutOfBounds)
      case Some(v) =>
        var e :- NewElement(elementId, Some(v), separators);
        assert (elements + [e])[..|elements|] == elements;
        Success(this.(elements := elements + [e]))
    }

    /** addCompositeElement(index, id, parts...): the same element inserted
        before position `index` (0-based). The value is built and the element
        made before the index is tried, so those failures come first. */
    function AddCompositeElementAt(index: int, elementId: Option<string>, parts: seq<string>): (r: Result<Segment>)
      ensures r.Failure? <==> |parts| == 0 || elementId.None? || |elementId.value| == 0 || index < 0 || index > |elements|
      ensures |parts| == 0 ==> r == Failure(StringIndexOutOfBounds)
      ensures (|parts| > 0 && elementId.Some? && |elementId.value| > 0 && (index < 0 || index > |elements|)) ==>
        r == Failure(IndexOutOfBounds)
      ensures r.Success? ==> (
        |r.value.elements| == |elements| + 1 &&
        r.value.elements[..index] == elements[..index] && r.value.elements[index + 1..] == elements[index..] &&
        r.value.elements[index].id == elementId.value)
      ensures r.Success? && separators.composite.Some? ==>
        r.value.elements[index].value == Some(Join(parts, separators.composite.value))
      ensures r.Success? && separators.composite.None? ==>
        r.value.elements[index].value == Some(JoinText(parts, "null") + "nul")
    {
      match CompositeValue(parts, separators.composite)
      case None => Failure(StringIndexOutOfBounds)
      case Some(v) =>
        var e :- NewElement(elementId, Some(v), separators);
        AddElementAt(index, e)
    }

    /** Position of the first element with the given identifier. */
    function FindElement(elementId: string): (r: Option<nat>)
      ensures r.Some? ==> r.value < |elements| && elements[r.value].id == elementId
      ensures r.Some? ==> forall j :: 0 <= j < r.value ==> elements[j].id != elementId
      ensures r.None? <==> forall j :: 0 <= j < |elements| ==> elements[j].id != elementId
    {
      FindElementFrom(elementId, 0)
    }

    function FindElementFrom(elementId: string, from: nat): (r: Option<nat>)
      requires from <= |elements|
      ensures r.Some? ==> from <= r.value < |elements| && elements[r.value].id == elementId
      ensures r.Some? ==> forall j :: from <= j < r.value ==> elements[j].id != elementId
      ensures r.None? <==> forall j :: from <= j < |elements| ==> elements[j].id != elementId
      decreases |elements| - from
    {
      if from == |elements| then None
      else if elements[from].id == elementId then Some(from)
      else FindElementFrom(elementId, from + 1)
    }

    /** getElement(id): the first element with that identifier, or null. */
    function GetElement(elementId: string): (r: Option<Element>)
      ensures r.Some? <==> exists j :: 0 <= j < |elements| && elements[j].id == elementId
      ensures r.Some? ==> r.value == elements[FindElement(elementId).value]
    {
      match FindElement(elementId)
      case None => None
      case Some(j) => Some(elements[j])
    }

    /** getElementValue(id): the value of the first element with that
        identifier; null when there is none (or its value is null). */
    function GetElementValue(elementId: string): (r: Option<string>)
      ensures GetElement(elementId).None? ==> r.None?
      ensures GetElement(elementId).Some? ==> r == GetElement(elementId).value.value
    {
      match GetElement(elementId)
      case None => None
      case Some(e) => e.value
    }

    /** getElement(id, index): a composite piece of the first element with
        that identifier. */
    function GetSubElementOf(elementId: string, index: nat): (r: Option<string>)
      ensures r.Some? <==> GetElement(elementId).Some? && index < |GetElement(elementId).value.subValues|
      ensures r.Some? ==> r.value == GetElement(elementId).value.subValues[index]
    {
      match GetElement(elementId)
      case None => None
      case Some(e) => e.GetSubElement(index)
    }

    /** removeElement(index): removes and returns the element at 1-based
        position `index`; List.remove(index - 1) throws for position 0,
        below it, or past the end. */
    function RemoveElement(index: int): (r: Result<(Segment, Element)>)
      ensures r.Failure? <==> index < 1 || index > |elements|
      ensures r.Failure? ==> r.error == IndexOutOfBounds
      ensures r.Success? ==> (
        r.value.1 == elements[index - 1] &&
        |r.value.0.elements| == |elements| - 1 &&
        r.value.0.elements[..index - 1] == elements[..index - 1] &&
        r.value.0.elements[index - 1..] == elements[index..] &&
        r.value.0.id == id && r.value.0.separators == separators)
    {
      if index < 1 || index > |elements| then Failure(IndexOutOfBounds)
      else Success((this.(elements := elements[..index - 1] + elements[index..]), elements[index - 1]))
    }

    /** setElement(index, text): the value of the element at 1-based
        position `index` is set as Element.setValue does; List.get(index - 1)
        throws outside the list. */
    function SetElement(index: int, text: Option<string>): (r: Result<Segment>)
      ensures r.Failure? <==> index < 1 || index > |elements|
      ensures r.Failure? ==> r.error == IndexOutOfBounds
      ensures r.Success? ==> (
        |r.value.elements| == |elements| && r.value.id == id && r.value.separators == separators &&
        r.value.elements[index - 1].value == text && r.value.elements[index - 1].id == elements[index - 1].id &&
        forall j :: 0 <= j < |elements| && j != index - 1 ==> r.value.elements[j] == elements[j])
      ensures r.Success? ==> r.value.elements[index - 1] == elements[index - 1].SetValue(text)
    {
      if index < 1 || index > |elements| then Failure(IndexOutOfBounds)
      else Success(this.(elements := elements[index - 1 := elements[index - 1].SetValue(text)]))
    }

    /** setCompositeElement(index, parts...): sets the element at 1-based
        position `index` to the joined parts. The value is built before the
        element is looked up, so no parts fails first. */
    function SetCompositeElement(index: int, parts: seq<string>): (r: Result<Segment>)
      ensures r.Failure? <==> |parts| == 0 || index < 1 || index > |elements|
      ensures |parts| == 0 ==> r == Failure(StringIndexOutOfBounds)
      ensures |parts| > 0 && (index < 1 || index > |elements|) ==> r == Failure(IndexOutOfBounds)
      ensures r.Success? ==> (
        |r.value.elements| == |elements| && r.value.id == id && r.value.separators == separators &&
        r.value.elements[index - 1].id == elements[index - 1].id &&
        forall j :: 0 <= j < |elements| && j != index - 1 ==> r.value.elements[j] == elements[j])
      ensures r.Success? ==> r.value.elements[index - 1] == elements[index - 1].SetValue(CompositeValue(parts, separators.composite))
      ensures r.Success? && separators.composite.Some? ==>
        r.value.elements[index - 1].value == Some(Join(parts, separators.composite.value))
      ensures r.Success? && separators.composite.None? ==>
        r.value.elements[index - 1].value == Some(JoinText(parts, "null") + "nul")
    {
      match CompositeValue(parts, separators.composite)
      case None => Failure(StringIndexOutOfBounds)
      case Some(v) => SetElement(index, Some(v))
    }
  }

  /** new Segment(id, separators): no elements yet. */
  function NewSegment(id: Option<string>, separators: Separators): (r: Segment)
    ensures r.elements == [] && r.id == id && r.separators == separators
  {
    Segment(id, [], separators)
  }

  // ---------------------------------------------------------------------------
  // Lemmas

  /** A segment read from text prints back as that text, except for the
      element delimiters that trailed it. */
  lemma ReadThenPrint(separators: Separators, text: string)
    requires separators.element.Some?
    requires NewSegment(None, separators).AddElementsText(text).Success?
    ensures NewSegment(None, separators).AddElementsText(text).value.0.ToString()
         == TrimTrailing(text, separators.element.value)
  {
    var e := separators.element.value;
    var ts := Split(text, e);
    var r := NewSegment(None, separators).AddElementsText(text);
    assert r.value.1;
    var s := r.value.0;
    var all := [OrNull(s.id)] + s.Texts();
    assert |all| == |ts|;
    forall i | 0 <= i < |ts|
      ensures all[i] == ts[i]
    {
      if i > 0 {
        assert all[i] == s.Texts()[i - 1] == s.elements[i - 1].ToString();
      }
    }
    assert all == ts;
    JoinSplit(text, e);
  }

  /** Removing the element at a position and inserting it back there
      restores the segment. */
  lemma RemoveThenInsert(s: Segment, index: int)
    requires s.RemoveElement(index).Success?
    ensures var removed := s.RemoveElement(index).value;
      removed.0.AddElementAt(index - 1, removed.1) == Success(s)
  {
    var r := s.RemoveElement(index).value.0;
    assert r.elements[..index - 1] + [s.elements[index - 1]] + r.elements[index - 1..] == s.elements;
  }
}

=== FILE: separators.dfy ===
/** The three X12 delimiters (segment, element, composite element) and the
    line break the writer puts after each segment. A delimiter that has been
    set to null is `None`: splitting on it yields no pieces at all. */
module X12Separators {
  import opened Wrappers
  import opened Strings
  import opened Tokens

  /** LineBreak: the text emitted after every segment when writing. */
  datatype LineBreak = LF | CRLF | NONE {
    function Text(): string {
      match this
      case LF => "\n"
      case CRLF => "\r\n"
      case NONE => ""
    }
  }

  datatype Separators = Separators(
    segment: Option<char>,
    element: Option<char>,
    composite: Option<char>,
    lineBreak: LineBreak)
  {
    function SetSegment(s: Option<char>): (r: Separators)
      ensures r.segment == s
      ensures r.element == element && r.composite == composite && r.lineBreak == lineBreak
    {
      this.(segment := s)
    }

    function SetElement(e: Option<char>): (r: Separators)
      ensures r.element == e
      ensures r.segment == segment && r.composite == composite && r.lineBreak == lineBreak
    {
      this.(element := e)
    }

    function SetComposite(c: Option<char>): (r: Separators)
      ensures r.composite == c
      ensures r.segment == segment && r.element == element && r.lineBreak == lineBreak
    {
      this.(composite := c)
    }

    function SetLineBreak(lb: LineBreak): (r: Separators)
      ensures r.lineBreak == lb
      ensures SameDelimiters(r, this)
    {
      this.(lineBreak := lb)
    }

    function SplitSegment(line: string): (r: Option<seq<string>>)
      ensures r == SplitOn(segment, line)
    {
      SplitOn(segment, line)
    }

    function SplitElement(line: string): (r: Option<seq<string>>)
      ensures r == SplitOn(element, line)
    {
      SplitOn(element, line)
    }

    function SplitComposite(line: string): (r: Option<seq<string>>)
      ensures r == SplitOn(composite, line)
    {
      SplitOn(composite, line)
    }

    /** "[s,e,c]", with "null" for an unset delimiter. */
    function ToString(): (r: string)
      ensures |r| >= 7 && r[0] == '[' && r[|r| - 1] == ']'
      ensures segment.Some? && element.Some? && composite.Some? ==>
        r == ['[', segment.value, ',', element.value, ',', composite.value, ']']
      ensures segment.None? ==> r[1..6] == "null,"
      ensures segment.Some? ==> r[1] == segment.value && r[2] == ','
    {
      "[" + CharOrNull(segment) + "," + CharOrNull(element) + "," + CharOrNull(composite) + "]"
    }
  }

  /** new Separators(): '~', '*', ':' and no line break. */
  function Default(): Separators {
    Separators(Some('~'), Some('*'), Some(':'), NONE)
  }

  /** new Separators(segment, element, composite): no line break. */
  function Make(segment: Option<char>, element: Option<char>, composite: Option<char>): (r: Separators)
    ensures r.segment == segment && r.element == element && r.composite == composite
    ensures r.lineBreak == NONE
    ensures SameDelimiters(r, Default()) <==> segment == Some('~') && element == Some('*') && composite == Some(':')
  {
    Separators(segment, element, composite, NONE)
  }

  /** Splitting on an optional delimiter: nothing when it is unset, else the
      Pattern.split pieces, which join back to the line minus the delimiters
      that trailed it. */
  function SplitOn(sep: Option<char>, line: string): (r: Option<seq<string>>)
    ensures r.Some? <==> sep.Some?
    ensures r.Some? ==> NoSeparator(r.value, sep.value)
    ensures r.Some? ==> Join(r.value, sep.value) == TrimTrailing(line, sep.value)
  {
    match sep
    case None => None
    case Some(c) => JoinSplit(line, c); Some(Split(line, c))
  }

  /** Separators.equals: the three delimiters, not the line break. */
  predicate SameDelimiters(a: Separators, b: Separators) {
    a.segment == b.segment && a.element == b.element && a.composite == b.composite
  }

  lemma SameDelimitersIff(a: Separators, b: Separators)
    ensures SameDelimiters(a, b) <==> a.SetLineBreak(NONE) == b.SetLineBreak(NONE)
  {
  }

  /** One field of Separators.toString followed by the character `close`:
      a single character, or "null" for an unset delimiter. */
  function ReadField(s: string, close: char): (r: Option<(Option<char>, string)>)
    ensures r.Some? ==> |r.value.1| < |s|
  {
    if |s| >= 2 && s[1] == close then Some((Some(s[0]), s[2..]))
    else if |s| >= 5 && s[..5] == "null" + [close] then Some((None, s[5..]))
    else None
  }

  /** Reads a toString text back into its three delimiters. */
  function ParseToString(s: string): (r: Option<Separators>)
    ensures r.Some? ==> r.value.lineBreak == NONE
  {
    if |s| == 0 || s[0] != '[' then None
    else match ReadField(s[1..], ',')
      case None => None
      case Some((seg, t1)) => match ReadField(t1, ',')
        case None => None
        case Some((ele, t2)) => match ReadField(t2, ']')
          case None => None
          case Some((com, t3)) => if t3 == "" then Some(Make(seg, ele, com)) else None
  }

  /** A field is read back from its printed form, whatever follows it. */
  lemma ReadFieldPrinted(o: Option<char>, close: char, rest: string)
    requires close == ',' || close == ']'
    ensures ReadField(CharOrNull(o) + [close] + rest, close) == Some((o, rest))
  {
  }

  /** toString loses nothing but the line break: its text gives the three
      delimiters back, so two separators print alike exactly when they are
      equal. */
  lemma ToStringRoundTrip(x: Separators)
    ensures ParseToString(x.ToString()) == Some(x.SetLineBreak(NONE))
  {
    var s := x.ToString();
    var f2 := CharOrNull(x.composite) + "]";
    var f1 := CharOrNull(x.element) + "," + f2;
    assert s[1..] == CharOrNull(x.segment) + "," + f1;
    ReadFieldPrinted(x.segment, ',', f1);
    ReadFieldPrinted(x.element, ',', f2);
    ReadFieldPrinted(x.composite, ']', "");
    assert CharOrNull(x.composite) + "]" + "" == f2;
  }

  lemma ToStringInjective(a: Separators, b: Separators)
    ensures a.ToString() == b.ToString() <==> SameDelimiters(a, b)
  {
    ToStringRoundTrip(a);
    ToStringRoundTrip(b);
  }

  lemma DefaultToString()
    ensures Default().ToString() == "[~,*,:]"
  {
  }

  /** Splitting a line on the default element delimiter drops the empty
      piece after a trailing '*'. */
  lemma DefaultElementSplitExample()
    ensures Default().SplitElement("Test1*Test2*Test3*") == Some(["Test1", "Test2", "Test3"])
  {
    var xs := ["Test1", "Test2", "Test3"];
    assert NoSeparator(xs, '*');
    assert Join(xs[2..], '*') == "Test3";
    assert Join(xs[1..], '*') == "Test2" + "*" + "Test3";
    assert Join(xs, '*') == "Test1" + "*" + "Test2" + "*" + "Test3";
    JoinSnoc(xs, "", '*');
    assert Join(xs + [""], '*') == "Test1*Test2*Test3*";
    SplitJoinTrailingEmpty(xs, '*');
  }
}

=== FILE: store.dfy ===
/** How the reader files the lines of one loop into the loop tree
    (storeData): the segments read from the lines, the search for the parent
    loop, the wrapper built for a parent loop that has no segments of its
    own, the child-loop tracker, and the ending segment of a loop whose
    segments are not grouped together (appendEndingSegment). */
module X12Store {
  import opened Wrappers
  import opened Strings
  import opened Mapping
  import opened Tokens
  import opened X12Separators
  import opened X12Segment
  import opened X12Loop
  import opened X12LoopSegments
  import opened X12LoopWalk
  import opened X12LoopConfig
  import opened X12Schema
  import opened X12Validate
  import opened X12Match

  /** _childLoopTracker: for each loop id, one set per stored instance of
      that loop, holding the ids of the loops stored directly under that
      instance. */
  type Tracker = map<Option<string>, seq<set<Option<string>>>>

  /** Every tracked loop has a current instance. */
  predicate TrackerOk(tr: Tracker) {
    forall k :: k in tr ==> |tr[k]| > 0
  }

  /** The reader's state while it files loops: the config table, the loop
      arena with the top-level loops of the document (_dataLoops), the
      tracker, and the two error lists. */
  datatype Reader = Reader(
    configs: seq<LoopConfig>,
    tree: Tree,
    roots: seq<nat>,
    tracker: Tracker,
    errors: seq<string>,
    fatal: seq<string>)
  {
    predicate Valid() {
      tree.Valid() && forall k :: 0 <= k < |roots| ==> roots[k] < |tree.nodes|
    }

    /** The same reader with one more fatal error. */
    function Fatal(message: string): (r: Reader)
      ensures r == this.(fatal := fatal + [message])
    {
      this.(fatal := fatal + [message])
    }
  }

  // ---------------------------------------------------------------------------
  // updateChildLoopTracker

  /** updateChildLoopTracker(parentId, newId): the new loop is recorded in the
      parent's current instance, and the new loop starts an instance of its
      own. An untracked parent throws; so would one with no instance. */
  function UpdateChildLoopTracker(tr: Tracker, parent: Option<string>, child: Option<string>): (r: Result<Tracker>)
    ensures r.Failure? <==> parent !in tr || |tr[parent]| == 0
    ensures r.Failure? ==> r.error == (if parent !in tr then NullPointer else IndexOutOfBounds)
    ensures r.Success? ==> r.value.Keys == tr.Keys + {child}
    ensures r.Success? ==> forall k :: k in tr && k != parent && k != child ==> r.value[k] == tr[k]
    ensures r.Success? ==> child in r.value && |r.value[child]| > 0 && r.value[child][|r.value[child]| - 1] == {}
    ensures r.Success? && child in tr ==> |r.value[child]| == |tr[child]| + 1
    ensures r.Success? && child !in tr ==> r.value[child] == [{}]
    ensures r.Success? ==> var n := |tr[parent]| - 1;
      n < |r.value[parent]| && r.value[parent][n] == tr[parent][n] + {child} && r.value[parent][..n] == tr[parent][..n]
    ensures r.Success? && TrackerOk(tr) ==> TrackerOk(r.value)
  {
    if parent !in tr then Failure(NullPointer)
    else if |tr[parent]| == 0 then Failure(IndexOutOfBounds)
    else
      var l := tr[parent];
      var n := |l| - 1;
      var tr1 := tr[parent := l[n := l[n] + {child}]];
      if child in tr1 then Success(tr1[child := tr1[child] + [{}]])
      else Success(tr1[child := [{}]])
  }

  // ---------------------------------------------------------------------------
  // findParentLoop

  /** The loop n, its parent, the parent's parent, and so on. */
  function Chain(t: Tree, n: nat): (r: seq<nat>)
    requires t.Valid() && t.Has(n)
    ensures |r| > 0 && r[0] == n && r[1..] == Ancestors(t, n)
    ensures forall k :: 0 <= k < |r| ==> r[k] < |t.nodes|
  {
    [n] + Ancestors(t, n)
  }

  predicate InIds(id: Option<string>, ids: set<string>) {
    id.Some? && id.value in ids
  }

  /** The first loop of the chain whose id is one of ids. */
  function FirstIn(t: Tree, chain: seq<nat>, ids: set<string>): (r: Option<nat>)
    requires forall k :: 0 <= k < |chain| ==> chain[k] < |t.nodes|
    ensures r.None? <==> forall k :: 0 <= k < |chain| ==> !InIds(t.nodes[chain[k]].id, ids)
    ensures r.Some? ==> exists j :: (0 <= j < |chain| && chain[j] == r.value && InIds(t.nodes[r.value].id, ids) &&
      forall k :: 0 <= k < j ==> !InIds(t.nodes[chain[k]].id, ids))
  {
    if |chain| == 0 then None
    else if InIds(t.nodes[chain[0]].id, ids) then Some(chain[0])
    else
      assert forall k :: 1 <= k < |chain| ==> chain[k] == chain[1..][k - 1];
      var r := FirstIn(t, chain[1..], ids);
      if r.Some? then
        var j :| 0 <= j < |chain[1..]| && chain[1..][j] == r.value && InIds(t.nodes[r.value].id, ids) &&
          forall k :: 0 <= k < j ==> !InIds(t.nodes[chain[1..][k]].id, ids);
        assert chain[j + 1] == r.value;
        r
      else r
  }

  /** The ids of the loops the schema lists the loop under. */
  function SchemaParents(root: LoopDef, loopId: string): set<string> {
    Elements(ParentLoops(root, Some(loopId)))
  }

  /** findParentLoop(config, lastLoopStored): a loop the schema lists under no
      other goes under the last stored loop; one with a single schema parent
      goes under the nearest loop, from the last stored loop upwards, that
      carries the config's parent id; one with several goes under the
      nearest loop, from the last stored loop upwards, carrying any of them.
      Comparing a loop without an id throws. */
  function FindParentLoop(t: Tree, root: LoopDef, cfg: LoopConfig, anchor: nat): (r: Result<Option<nat>>)
    requires t.Valid() && t.Has(anchor)
    ensures var ids := SchemaParents(root, cfg.loopId);
      r.Failure? <==> |ids| == 1 && t.nodes[anchor].id.None?
    ensures r.Failure? ==> r.error == NullPointer
    ensures |SchemaParents(root, cfg.loopId)| == 0 ==> r == Success(Some(anchor))
    ensures |SchemaParents(root, cfg.loopId)| == 1 && t.nodes[anchor].id.Some? ==>
      r == Success(if cfg.parentLoop.None? then None else FirstWithId(t, Chain(t, anchor), cfg.parentLoop.value))
    ensures |SchemaParents(root, cfg.loopId)| > 1 ==> r == Success(FirstIn(t, Chain(t, anchor), SchemaParents(root, cfg.loopId)))
    ensures r.Success? && r.value.Some? ==> r.value.value in Chain(t, anchor)
  {
    var ids := SchemaParents(root, cfg.loopId);
    var chain := Chain(t, anchor);
    if |ids| == 0 then Success(Some(anchor))
    else if |ids| == 1 then
      if t.nodes[anchor].id.None? then Failure(NullPointer)
      else if t.nodes[anchor].id == cfg.parentLoop then
        assert FirstAt(t, chain, cfg.parentLoop.value, 0);
        Success(Some(anchor))
      else
        var r := FindTopParentById(t, anchor, cfg.parentLoop);
        assert cfg.parentLoop.Some? ==> FirstWithId(t, chain, cfg.parentLoop.value) == FirstWithId(t, chain[1..], cfg.parentLoop.value);
        if r.Some? then
          var j :| FirstAt(t, Ancestors(t, anchor), cfg.parentLoop.value, j) && Ancestors(t, anchor)[j] == r.value;
          assert chain[j + 1] == r.value;
          Success(r)
        else Success(r)
    else
      var r := FirstIn(t, chain, ids);
      if r.Some? then
        var j :| 0 <= j < |chain| && chain[j] == r.value && InIds(t.nodes[r.value].id, ids) &&
          forall k :: 0 <= k < j ==> !InIds(t.nodes[chain[k]].id, ids);
        Success(r)
      else Success(r)
  }

  /** With several schema parents, the loop found is one the schema lists
      the configured loop under. */
  lemma FindParentLoopIsSchemaParent(t: Tree, root: LoopDef, cfg: LoopConfig, anchor: nat)
    requires t.Valid() && t.Has(anchor)
    requires |SchemaParents(root, cfg.loopId)| > 1
    requires FindParentLoop(t, root, cfg, anchor).Success? && FindParentLoop(t, root, cfg, anchor).value.Some?
    ensures var p := FindParentLoop(t, root, cfg, anchor).value.value;
      t.nodes[p].id.Some? &&
      exists d :: InSubtree(d, root) && d.xid == t.nodes[p].id.value && ListsChild(d, Some(cfg.loopId))
  {
    var p := FindParentLoop(t, root, cfg, anchor).value.value;
    var x := t.nodes[p].id.value;
    assert x in ParentLoops(root, Some(cfg.loopId));
    ParentLoopsIff(root, Some(cfg.loopId), x);
  }

  // ---------------------------------------------------------------------------
  // storeData

  /** The segments storeData builds from the lines, each read with the
      reader's separators. */
  function ReadSegments(lines: seq<string>, seps: Separators): (r: Result<seq<Segment>>)
    requires seps.element.Some?
    ensures r.Failure? <==> exists k :: 0 <= k < |lines| && NewSegment(None, seps).AddElementsText(lines[k]).Failure?
    ensures r.Failure? ==> r.error == NegativeArraySize
    ensures r.Success? ==> (|r.value| == |lines| &&
      forall k :: 0 <= k < |lines| ==> r.value[k] == NewSegment(None, seps).AddElementsText(lines[k]).value.0)
  {
    if |lines| == 0 then Success([])
    else
      var (s, _) :- NewSegment(None, seps).AddElementsText(lines[0]);
      var rest :- ReadSegments(lines[1..], seps);
      assert forall k :: 1 <= k < |lines| ==> lines[k] == lines[1..][k - 1];
      Success([s] + rest)
  }

  /** Each stored segment prints back as its line, less the element
      delimiters that trailed it. */
  lemma ReadSegmentsPrintBack(lines: seq<string>, seps: Separators, k: nat)
    requires seps.element.Some? && ReadSegments(lines, seps).Success? && k < |lines|
    ensures ReadSegments(lines, seps).value[k].ToString() == TrimTrailing(lines[k], seps.element.value)
  {
    ReadThenPrint(seps, lines[k]);
  }

  /** No loop stored yet in this transaction: the last top-level loop takes
      the config's id, the reader's separators and the segments, and the
      tracker starts that id afresh. With no top-level loop the lookup
      throws. */
  function StoreTop(rd: Reader, id: string, segs: seq<Segment>, seps: Separators): (r: Result<(Reader, nat)>)
    requires rd.Valid()
    ensures r.Failure? <==> |rd.roots| == 0
    ensures r.Failure? ==> r.error == IndexOutOfBounds
    ensures r.Success? ==> r.value.0.Valid() && r.value.1 == rd.roots[|rd.roots| - 1]
    ensures r.Success? ==> (|r.value.0.tree.nodes| == |rd.tree.nodes| &&
      forall m :: 0 <= m < |rd.tree.nodes| && m != r.value.1 ==> r.value.0.tree.nodes[m] == rd.tree.nodes[m])
    ensures r.Success? ==> var n := r.value.1;
      r.value.0.tree.nodes[n] == rd.tree.nodes[n].(id := Some(id), separators := seps, segments := rd.tree.nodes[n].segments + segs)
    ensures r.Success? ==> r.value.0 == rd.(tree := r.value.0.tree, tracker := rd.tracker[Some(id) := [{}]])
  {
    if |rd.roots| == 0 then Failure(IndexOutOfBounds)
    else
      var n := rd.roots[|rd.roots| - 1];
      var node := rd.tree.nodes[n];
      var t := Put(rd.tree, n, node.(id := Some(id), separators := seps, segments := node.segments + segs));
      Success((rd.(tree := t, tracker := rd.tracker[Some(id) := [{}]]), n))
  }

  /** A new loop with the config's id and the segments, appended to the
      parent's children, and recorded under the parent's current instance. */
  function StoreChild(rd: Reader, p: nat, id: string, segs: seq<Segment>, seps: Separators): (r: Result<(Reader, nat)>)
    requires rd.Valid() && rd.tree.Has(p)
    ensures r.Failure? <==> UpdateChildLoopTracker(rd.tracker, rd.tree.nodes[p].id, Some(id)).Failure?
    ensures r.Success? ==> r.value.0.Valid() && r.value.1 == |rd.tree.nodes| && |r.value.0.tree.nodes| == |rd.tree.nodes| + 1
    ensures r.Success? ==> r.value.0.tree.nodes[r.value.1] == Node(Some(id), segs, [], Some(p), seps)
    ensures r.Success? ==> r.value.0.tree.nodes[p] == rd.tree.nodes[p].(loops := rd.tree.nodes[p].loops + [r.value.1])
    ensures r.Success? ==> forall m :: 0 <= m < |rd.tree.nodes| && m != p ==> r.value.0.tree.nodes[m] == rd.tree.nodes[m]
    ensures r.Success? ==> r.value.0 == rd.(tree := r.value.0.tree,
      tracker := UpdateChildLoopTracker(rd.tracker, rd.tree.nodes[p].id, Some(id)).value)
  {
    var (t1, c) := NewLoop(rd.tree, seps, Some(id));
    var t2 := Put(t1, c, t1.nodes[c].(segments := segs));
    assert t2.Valid();
    var t3 := InsertLoop(t2, p, |t2.nodes[p].loops|, c);
    assert t2.nodes[p].loops[..|t2.nodes[p].loops|] == t2.nodes[p].loops;
    var tr :- UpdateChildLoopTracker(rd.tracker, t3.nodes[p].id, Some(id));
    Success((rd.(tree := t3, tracker := tr), c))
  }

  /** The tree with the wrapper loop (id wid) appended under gp and a new
      loop with the config's id and the segments inside it. */
  function WrapperTree(t: Tree, gp: nat, wid: string, id: string, segs: seq<Segment>, seps: Separators): (r: Tree)
    requires t.Valid() && t.Has(gp)
    ensures r.Valid() && |r.nodes| == |t.nodes| + 2
    ensures var w := |t.nodes|; var c := w + 1;
      r.nodes[w] == Node(Some(wid), [], [c], Some(gp), seps) &&
      r.nodes[c] == Node(Some(id), segs, [], Some(w), seps) &&
      r.nodes[gp] == t.nodes[gp].(loops := t.nodes[gp].loops + [w])
    ensures forall m :: 0 <= m < |t.nodes| && m != gp ==> r.nodes[m] == t.nodes[m]
  {
    var (t1, w) := NewLoop(t, seps, Some(wid));
    var (t2, c) := NewLoop(t1, seps, Some(id));
    var t3 := Put(t2, c, t2.nodes[c].(segments := segs));
    assert t3.Valid();
    var t4 := InsertLoop(t3, w, 0, c);
    assert t4.nodes[gp].loops[..|t4.nodes[gp].loops|] == t4.nodes[gp].loops;
    InsertLoop(t4, gp, |t4.nodes[gp].loops|, w)
  }

  /** A segment-less parent loop (id wid) is created under gp, holding a new
      loop with the config's id and the segments. Both are recorded in the
      tracker and the inner loop is the one returned, unless the two ids
      coincide, in which case only the wrapper is recorded and returned. */
  function StoreWrapped(rd: Reader, gp: nat, wid: string, id: string, segs: seq<Segment>, seps: Separators): (r: Result<(Reader, nat)>)
    requires rd.Valid() && rd.tree.Has(gp)
    ensures r.Success? ==> r.value.0.Valid() && |r.value.0.tree.nodes| == |rd.tree.nodes| + 2
    ensures r.Success? ==> var w := |rd.tree.nodes|; var c := w + 1; var t := r.value.0.tree;
      t.nodes[w] == Node(Some(wid), [], [c], Some(gp), seps) &&
      t.nodes[c] == Node(Some(id), segs, [], Some(w), seps) &&
      t.nodes[gp] == rd.tree.nodes[gp].(loops := rd.tree.nodes[gp].loops + [w]) &&
      r.value.1 == (if wid != id then c else w)
    ensures r.Success? ==> (|rd.tree.nodes| <= r.value.1 < |r.value.0.tree.nodes| &&
      r.value.0.tree.nodes[r.value.1].id == Some(id))
    ensures r.Success? ==> forall m :: 0 <= m < |rd.tree.nodes| && m != gp ==> r.value.0.tree.nodes[m] == rd.tree.nodes[m]
    ensures r.Success? ==> forall m :: 0 <= m < |rd.tree.nodes| ==> r.value.0.tree.nodes[m].segments == rd.tree.nodes[m].segments
    ensures r.Success? ==> (r.value.0.configs == rd.configs && r.value.0.roots == rd.roots &&
      r.value.0.errors == rd.errors && r.value.0.fatal == rd.fatal)
    ensures r.Failure? ==> r.error == NullPointer || r.error == IndexOutOfBounds
  {
    var t := WrapperTree(rd.tree, gp, wid, id, segs, seps);
    var w := |rd.tree.nodes|;
    var tr := UpdateChildLoopTracker(rd.tracker, t.nodes[gp].id, Some(wid));
    if tr.Failure? then Failure(tr.error)
    else if wid != id then
      // the wrapper was just tracked, so this update cannot throw
      var tr2 := UpdateChildLoopTracker(tr.value, Some(wid), Some(id)).value;
      Success((rd.(tree := t, tracker := tr2), w + 1))
    else Success((rd.(tree := t, tracker := tr.value), w))
  }

  function MissingConfigMessage(parentId: Option<string>): string {
    "Parent loop " + OrNull(parentId) + " does not exist in loop configuration!"
  }

  function ShouldExistMessage(parentId: Option<string>): string {
    "Parent loop " + OrNull(parentId) + " is missing and should already exist"
  }

  function NoGrandparentMessage(parentId: Option<string>): string {
    "Parent loop of " + OrNull(parentId) + " is not found!"
  }

  function FailedMessage(loopId: string): string {
    "Failed to store loop data for " + loopId
  }

  /** No parent loop found: the config's parent must be a known loop without
      segments of its own whose parent can be found above the last stored
      loop; that loop gets a wrapper loop holding the new loop. Otherwise a
      fatal error says which condition failed. */
  function StoreMissingParent(rd: Reader, cfg: LoopConfig, segs: seq<Segment>, seps: Separators, anchor: nat):
    (r: Result<(Reader, Option<nat>)>)
    requires rd.Valid() && rd.tree.Has(anchor)
    ensures r.Success? ==> r.value.0.Valid() && |r.value.0.tree.nodes| >= |rd.tree.nodes|
    ensures r.Success? ==> r.value.0.configs == rd.configs && r.value.0.roots == rd.roots && r.value.0.errors == rd.errors
    ensures r.Success? ==> rd.fatal <= r.value.0.fatal
    ensures r.Success? && r.value.1.Some? ==> r.value.0.fatal == rd.fatal
    ensures r.Success? && r.value.1.None? ==> |r.value.0.fatal| == |rd.fatal| + 1 && r.value.0.tree == rd.tree
    ensures r.Success? && r.value.1.Some? ==> (|rd.tree.nodes| <= r.value.1.value < |r.value.0.tree.nodes| &&
      r.value.0.tree.nodes[r.value.1.value].id == Some(cfg.loopId))
    ensures r.Success? ==> forall m :: 0 <= m < |rd.tree.nodes| ==> r.value.0.tree.nodes[m].segments == rd.tree.nodes[m].segments
    ensures var info := FirstConfig(rd.configs, cfg.parentLoop);
      info.None? ==> r == Success((rd.Fatal(MissingConfigMessage(cfg.parentLoop)), None))
    ensures var info := FirstConfig(rd.configs, cfg.parentLoop);
      info.Some? && rd.configs[info.value].hasDataSegments ==> r == Success((rd.Fatal(ShouldExistMessage(cfg.parentLoop)), None))
  {
    var pid := cfg.parentLoop;
    var info := FirstConfig(rd.configs, pid);
    if info.None? then Success((rd.Fatal(MissingConfigMessage(pid)), None))
    else
      var pc := rd.configs[info.value];
      if pc.hasDataSegments then Success((rd.Fatal(ShouldExistMessage(pid)), None))
      else StoreViaWrapper(rd, cfg, pc, segs, seps, anchor)
  }

  /** The parent of the segment-less parent loop, found from the last stored
      loop upwards, gets the wrapper. */
  function StoreViaWrapper(rd: Reader, cfg: LoopConfig, pc: LoopConfig, segs: seq<Segment>, seps: Separators, anchor: nat):
    (r: Result<(Reader, Option<nat>)>)
    requires rd.Valid() && rd.tree.Has(anchor) && Some(pc.loopId) == cfg.parentLoop
    ensures r.Success? ==> r.value.0.Valid() && |r.value.0.tree.nodes| >= |rd.tree.nodes|
    ensures r.Success? ==> r.value.0.configs == rd.configs && r.value.0.roots == rd.roots && r.value.0.errors == rd.errors
    ensures r.Success? ==> rd.fatal <= r.value.0.fatal
    ensures r.Success? && r.value.1.Some? ==> r.value.0.fatal == rd.fatal
    ensures r.Success? && r.value.1.None? ==> r.value.0 == rd.Fatal(NoGrandparentMessage(cfg.parentLoop))
    ensures r.Success? && r.value.1.Some? ==> (|rd.tree.nodes| <= r.value.1.value < |r.value.0.tree.nodes| &&
      r.value.0.tree.nodes[r.value.1.value].id == Some(cfg.loopId))
    ensures r.Success? ==> forall m :: 0 <= m < |rd.tree.nodes| ==> r.value.0.tree.nodes[m].segments == rd.tree.nodes[m].segments
    ensures FindTopParentById(rd.tree, anchor, pc.parentLoop).None? ==> r == Success((rd.Fatal(NoGrandparentMessage(cfg.parentLoop)), None))
  {
    var gp := FindTopParentById(rd.tree, anchor, pc.parentLoop);
    if gp.None? then
      var f := rd.Fatal(NoGrandparentMessage(cfg.parentLoop));
      assert f.tree == rd.tree && f.roots == rd.roots;
      Success((f, None))
    else
      var w := StoreWrapped(rd, gp.value, pc.loopId, cfg.loopId, segs, seps);
      if w.Failure? then Failure(w.error) else Success((w.value.0, Some(w.value.1)))
  }

  /** The loop found by findParentLoop gets the new loop, or, when there is
      none, the wrapper route is taken. */
  function StoreUnder(rd: Reader, root: LoopDef, cfg: LoopConfig, segs: seq<Segment>, seps: Separators, anchor: nat):
    (r: Result<(Reader, Option<nat>)>)
    requires rd.Valid() && rd.tree.Has(anchor)
    ensures r.Success? ==> r.value.0.Valid() && |r.value.0.tree.nodes| >= |rd.tree.nodes|
    ensures r.Success? ==> r.value.0.configs == rd.configs && r.value.0.roots == rd.roots && r.value.0.errors == rd.errors
    ensures r.Success? ==> rd.fatal <= r.value.0.fatal
    ensures r.Success? && r.value.1.Some? ==> r.value.0.fatal == rd.fatal
    ensures r.Success? && r.value.1.None? ==> |r.value.0.fatal| == |rd.fatal| + 1
    ensures r.Success? && r.value.1.Some? ==> (|rd.tree.nodes| <= r.value.1.value < |r.value.0.tree.nodes| &&
      r.value.0.tree.nodes[r.value.1.value].id == Some(cfg.loopId))
    ensures r.Success? ==> FindParentLoop(rd.tree, root, cfg, anchor).Success?
    ensures (r.Success? && FindParentLoop(rd.tree, root, cfg, anchor).value.Some?) ==> (r.value.1.Some? &&
      r.value.0.tree.nodes[r.value.1.value].segments == segs &&
      r.value.0.tree.nodes[r.value.1.value].parent == FindParentLoop(rd.tree, root, cfg, anchor).value)
    ensures r.Success? ==> forall m :: 0 <= m < |rd.tree.nodes| ==> r.value.0.tree.nodes[m].segments == rd.tree.nodes[m].segments
  {
    var parent :- FindParentLoop(rd.tree, root, cfg, anchor);
    if parent.Some? then
      var (rd1, n) :- StoreChild(rd, parent.value, cfg.loopId, segs, seps);
      Success((rd1, Some(n)))
    else StoreMissingParent(rd, cfg, segs, seps, anchor)
  }

  /** The filing half of storeData: into the current top-level loop when
      nothing has been stored yet in this transaction, otherwise as a new
      loop below the parent found from the last stored loop. When nothing
      could be filed a fatal error names the loop. */
  function FileSegments(rd: Reader, root: LoopDef, c: LoopConfig, segs: seq<Segment>, anchor: Option<nat>, seps: Separators):
    (r: Result<(Reader, Option<nat>)>)
    requires rd.Valid() && (anchor.Some? ==> rd.tree.Has(anchor.value))
    ensures r.Success? ==> r.value.0.Valid() && |r.value.0.tree.nodes| >= |rd.tree.nodes|
    ensures r.Success? ==> r.value.0.configs == rd.configs && r.value.0.roots == rd.roots && r.value.0.errors == rd.errors
    ensures r.Success? && r.value.1.Some? ==> (r.value.1.value < |r.value.0.tree.nodes| &&
      r.value.0.tree.nodes[r.value.1.value].id == Some(c.loopId) && r.value.0.fatal == rd.fatal)
    ensures r.Success? ==> rd.fatal <= r.value.0.fatal
    ensures r.Success? && r.value.1.None? ==> |r.value.0.fatal| > |rd.fatal|
    ensures r.Success? && r.value.1.None? ==> (|r.value.0.fatal| >= 1 &&
      r.value.0.fatal[|r.value.0.fatal| - 1] == FailedMessage(c.loopId) && rd.fatal <= r.value.0.fatal)
    ensures r.Success? && anchor.None? ==> (|rd.roots| > 0 && r.value.1 == Some(rd.roots[|rd.roots| - 1]) &&
      r.value.0.tree.nodes[rd.roots[|rd.roots| - 1]].segments == rd.tree.nodes[rd.roots[|rd.roots| - 1]].segments + segs)
    ensures r.Success? && anchor.Some? ==> FindParentLoop(rd.tree, root, c, anchor.value).Success?
    ensures (r.Success? && anchor.Some? && FindParentLoop(rd.tree, root, c, anchor.value).value.Some?) ==>
      (r.value.1.Some? && r.value.0.tree.nodes[r.value.1.value].segments == segs &&
       r.value.0.tree.nodes[r.value.1.value].parent == FindParentLoop(rd.tree, root, c, anchor.value).value)
  {
    if anchor.None? then
      var (rd1, n) :- StoreTop(rd, c.loopId, segs, seps);
      Success((rd1, Some(n)))
    else
      var (rd1, stored) :- StoreUnder(rd, root, c, segs, seps, anchor.value);
      if stored.None? then Success((rd1.Fatal(FailedMessage(c.loopId)), None))
      else Success((rd1, stored))
  }

  /** storeData(config, lines, lastLoopStored): the lines are validated
      against the loop's segment definitions (the messages join the error
      list), read into segments and filed. The loop that now holds the lines
      is returned. */
  function StoreData(rd: Reader, root: LoopDef, cfg: Option<LoopConfig>, lines: seq<string>, anchor: Option<nat>, seps: Separators):
    (r: Result<(Reader, Option<nat>)>)
    requires rd.Valid() && (anchor.Some? ==> rd.tree.Has(anchor.value)) && seps.element.Some?
    ensures cfg.None? ==> r == Failure(NullPointer)
    ensures r.Success? ==> (cfg.Some? && ValidateLines(root, lines, cfg.value.loopId, seps.element.value).Success? &&
      ReadSegments(lines, seps).Success?)
    ensures r.Success? ==> r == FileSegments(
      rd.(errors := rd.errors + ValidateLines(root, lines, cfg.value.loopId, seps.element.value).value),
      root, cfg.value, ReadSegments(lines, seps).value, anchor, seps)
    ensures r.Success? ==> rd.errors <= r.value.0.errors && rd.fatal <= r.value.0.fatal
    ensures r.Success? && r.value.1.None? ==> |r.value.0.fatal| > |rd.fatal|
  {
    if cfg.None? then Failure(NullPointer)
    else
      var c := cfg.value;
      var messages :- ValidateLines(root, lines, c.loopId, seps.element.value);
      var segs :- ReadSegments(lines, seps);
      FileSegments(rd.(errors := rd.errors + messages), root, c, segs, anchor, seps)
  }

  /** What storeData leaves behind: the validation messages are appended to
      the errors, and the returned loop carries the config's id and holds
      the segments read from the lines, in order. */
  lemma StoreDataStores(rd: Reader, root: LoopDef, cfg: LoopConfig, lines: seq<string>, anchor: Option<nat>, seps: Separators)
    requires rd.Valid() && (anchor.Some? ==> rd.tree.Has(anchor.value)) && seps.element.Some?
    requires StoreData(rd, root, Some(cfg), lines, anchor, seps).Success?
    ensures var r := StoreData(rd, root, Some(cfg), lines, anchor, seps).value;
      var segs := ReadSegments(lines, seps).value;
      r.0.Valid() && r.0.configs == rd.configs && r.0.roots == rd.roots &&
      r.0.errors == rd.errors + ValidateLines(root, lines, cfg.loopId, seps.element.value).value &&
      (r.1.Some? ==> r.0.tree.nodes[r.1.value].id == Some(cfg.loopId)) &&
      (anchor.None? ==> r.1.Some? && r.0.tree.nodes[r.1.value].segments == rd.tree.nodes[r.1.value].segments + segs) &&
      (anchor.Some? && FindParentLoop(rd.tree, root, cfg, anchor.value).value.Some? ==>
        r.1.Some? && r.0.tree.nodes[r.1.value].segments == segs &&
        r.0.tree.nodes[r.1.value].parent == FindParentLoop(rd.tree, root, cfg, anchor.value).value)
  {
  }

  // ---------------------------------------------------------------------------
  // appendEndingSegment

  /** The message is one sentence; it is spelled as two literals because the
      single 74-character literal makes the reader's proofs exceed the
      solver's resource limit. */
  function EndingMessage(): string {
    "We found an ending segment" + " but we never stored the first part of the loop!"
  }

  /** The segment goes to the end of the nearest loop strictly above the
      stored one that carries the id; with no such loop, a fatal error. */
  function AppendToAncestor(rd: Reader, stored: nat, id: string, seg: Segment): (r: (Reader, Option<nat>))
    requires rd.Valid() && rd.tree.Has(stored)
    ensures r.0.Valid() && r.0.configs == rd.configs && r.0.roots == rd.roots && r.0.errors == rd.errors
    ensures r.1 == FindTopParentById(rd.tree, stored, Some(id))
    ensures r.1.None? ==> r.0 == rd.Fatal(EndingMessage())
    ensures r.1.Some? ==> (r.1.value in Ancestors(rd.tree, stored) && rd.tree.nodes[r.1.value].id == Some(id) &&
      r.0.tree == AddSegment(rd.tree, r.1.value, seg))
  {
    var target := FindTopParentById(rd.tree, stored, Some(id));
    if target.None? then (rd.Fatal(EndingMessage()), None)
    else
      var j :| FirstAt(rd.tree, Ancestors(rd.tree, stored), id, j) && Ancestors(rd.tree, stored)[j] == target.value;
      (rd.(tree := AddSegment(rd.tree, target.value, seg)), target)
  }

  /** appendEndingSegment: pending lines are stored first; then the line is
      read as a segment and appended to the nearest loop above the last
      stored one that carries the matched config's id. Finding none is a
      fatal error. */
  function AppendEndingSegment(rd: Reader, root: LoopDef, anchor: Option<nat>, previous: Option<LoopConfig>,
                               matched: Option<LoopConfig>, seps: Separators, line: string, lines: seq<string>):
    (r: Result<(Reader, Option<nat>)>)
    requires rd.Valid() && (anchor.Some? ==> rd.tree.Has(anchor.value)) && seps.element.Some?
    ensures r.Success? ==> r.value.0.Valid() && r.value.0.configs == rd.configs && r.value.0.roots == rd.roots
    ensures r.Success? ==> rd.errors <= r.value.0.errors && rd.fatal <= r.value.0.fatal
    ensures r.Success? && r.value.1.None? ==> |r.value.0.fatal| > |rd.fatal| || (|lines| == 0 && anchor.None? && r.value.0 == rd)
    ensures |lines| == 0 && anchor.None? ==> r == Success((rd, None))
    ensures |lines| == 0 && anchor.Some? && NewSegment(None, seps).AddElementsText(line).Success? && matched.Some? ==>
      r == Success(AppendToAncestor(rd, anchor.value, matched.value.loopId, NewSegment(None, seps).AddElementsText(line).value.0))
    ensures r.Success? && r.value.1.Some? ==> (r.value.1.value < |r.value.0.tree.nodes| &&
      matched.Some? && r.value.0.tree.nodes[r.value.1.value].id == Some(matched.value.loopId))
  {
    var (rd1, stored) :- if |lines| > 0 then StoreData(rd, root, previous, lines, anchor, seps) else Success((rd, anchor));
    if stored.None? then Success((rd1, None))
    else
      var (seg, _) :- NewSegment(None, seps).AddElementsText(line);
      if matched.None? then Failure(NullPointer)
      else Success(AppendToAncestor(rd1, stored.value, matched.value.loopId, seg))
  }

  /** The ending segment goes to a loop strictly above the last stored loop,
      the nearest one with the matched id, at the end of its segments. */
  lemma AppendEndingTarget(rd: Reader, root: LoopDef, anchor: nat, matched: LoopConfig, seps: Separators, line: string)
    requires rd.Valid() && rd.tree.Has(anchor) && seps.element.Some?
    ensures var out := AppendEndingSegment(rd, root, Some(anchor), None, Some(matched), seps, line, []);
      out.Success? && out.value.1.Some? ==>
      var r := out.value;
      var n := r.1.value;
      NewSegment(None, seps).AddElementsText(line).Success? &&
      n in Ancestors(rd.tree, anchor) &&
      r.0.tree.nodes[n].segments == rd.tree.nodes[n].segments + [NewSegment(None, seps).AddElementsText(line).value.0] &&
      forall a :: (0 <= a < |Ancestors(rd.tree, anchor)| && Ancestors(rd.tree, anchor)[a] != n &&
        rd.tree.nodes[Ancestors(rd.tree, anchor)[a]].id == Some(matched.loopId)) ==>
        exists b :: 0 <= b < a && Ancestors(rd.tree, anchor)[b] == n
  {
    var out := AppendEndingSegment(rd, root, Some(anchor), None, Some(matched), seps, line, []);
    if out.Success? && out.value.1.Some? {
      var chain := Ancestors(rd.tree, anchor);
      var n := FindTopParentById(rd.tree, anchor, Some(matched.loopId)).value;
      var j :| FirstAt(rd.tree, chain, matched.loopId, j) && chain[j] == n;
      forall a | 0 <= a < |chain| && chain[a] != n && rd.tree.nodes[chain[a]].id == Some(matched.loopId)
        ensures exists b :: 0 <= b < a && chain[b] == n
      {
        assert j < a;
      }
    }
  }
}

=== FILE: strings.dfy ===
/** The pieces of java.lang.String, Character and Integer that the parser relies
    on: decimal rendering and parsing of integers, String.compareTo, prefix and
    substring tests, lastIndexOf, and the character classes used by separator
    detection (restricted to ASCII). */
module Strings {
  import opened Wrappers

  // ---------------------------------------------------------------------------
  // Character classes (Character.isDigit / isLetter / isWhitespace on ASCII)

  predicate IsDigit(c: char) {
    '0' <= c <= '9'
  }

  predicate IsLetter(c: char) {
    ('a' <= c <= 'z') || ('A' <= c <= 'Z')
  }

  /** Character.isWhitespace restricted to the ASCII range: space, the tab and
      line/page controls U+0009..U+000D and the separators U+001C..U+001F. */
  predicate IsWhitespace(c: char) {
    c == ' ' || ('\U{9}' <= c <= '\U{D}') || ('\U{1C}' <= c <= '\U{1F}')
  }

  // ---------------------------------------------------------------------------
  // Decimal numbers

  function Pow10(n: nat): (r: nat)
    ensures r >= 1
  {
    if n == 0 then 1 else 10 * Pow10(n - 1)
  }

  predicate AllDigits(s: string) {
    forall i :: 0 <= i < |s| ==> IsDigit(s[i])
  }

  function DigitValue(c: char): (d: nat)
    requires IsDigit(c)
    ensures d < 10
  {
    c as int - '0' as int
  }

  /** Value of a digit string, most significant digit first. */
  function DigitsValue(s: string): nat
    requires AllDigits(s)
  {
    if |s| == 0 then 0
    else
      var d: nat := DigitValue(s[0]);
      var p: nat := Pow10(|s| - 1);
      var hi: nat := d * p;
      hi + DigitsValue(s[1..])
  }

  lemma {:induction false} DigitsValueBound(s: string)
    requires AllDigits(s)
    ensures DigitsValue(s) < Pow10(|s|)
  {
    if |s| > 0 {
      DigitsValueBound(s[1..]);
      var d := DigitValue(s[0]);
      var p := Pow10(|s| - 1);
      assert d <= 9;
      assert DigitsValue(s) == d * p + DigitsValue(s[1..]);
      assert Pow10(|s|) == 10 * p;
      LeadingDigitBound(d, p, DigitsValue(s[1..]));
    }
  }

  lemma LeadingDigitBound(d: int, p: int, v: int)
    requires 0 <= d <= 9 && 0 <= v < p
    ensures d * p + v < 10 * p
  {
    assert d * p <= 9 * p;
  }

  const MaxInt: int := 0x7FFF_FFFF
  const MinInt: int := -0x8000_0000

  /** The text Integer.parseInt reads in radix 10: an optional '+' or '-'
      and then at least one digit. */
  predicate IntText(s: string) {
    |s| > 0 && (if s[0] == '-' || s[0] == '+' then |s| > 1 && AllDigits(s[1..]) else AllDigits(s))
  }

  /** The number such a text denotes, sign included. */
  function SignedValue(s: string): int
    requires IntText(s)
  {
    if s[0] == '-' then -(DigitsValue(s[1..]) as int)
    else if s[0] == '+' then DigitsValue(s[1..])
    else DigitsValue(s)
  }

  /** s is decimal text whose value a 32-bit int can hold. */
  predicate FitsInt(s: string) {
    IntText(s) && MinInt <= SignedValue(s) <= MaxInt
  }

  /** s is the decimal text of v, a value a 32-bit int can hold. */
  predicate Denotes(s: string, v: int) {
    FitsInt(s) && SignedValue(s) == v
  }

  /** Integer.parseInt(s) in radix 10: an optional sign followed by at least
      one digit, within the 32-bit range; anything else (the empty text, a
      bare sign, any other character, a value out of range) throws
      NumberFormatException, which is `None` here. */
  function ParseInt(s: string): (r: Option<int>)
    ensures r.Some? <==> FitsInt(s)
    ensures r.Some? ==> Denotes(s, r.value)
    ensures r.Some? ==> MinInt <= r.value <= MaxInt
    ensures AllDigits(s) && |s| > 0 && DigitsValue(s) <= MaxInt ==> r == Some(DigitsValue(s))
  {
    if |s| == 0 then None
    else if s[0] == '-' || s[0] == '+' then
      var rest := s[1..];
      if |rest| == 0 || !AllDigits(rest) then None
      else
        var v: int := if s[0] == '-' then -(DigitsValue(rest) as int) else DigitsValue(rest) as int;
        if MinInt <= v <= MaxInt then Some(v) else None
    else if !AllDigits(s) then None
    else if DigitsValue(s) <= MaxInt then Some(DigitsValue(s))
    else None
  }

  /** ParseInt with the NumberFormatException surfaced as a failure. */
  function ParseIntOrFail(s: string): (r: Result<int>)
    ensures r.Success? <==> ParseInt(s).Some?
    ensures r.Success? ==> r.value == ParseInt(s).value
  {
    match ParseInt(s)
    case Some(v) => Success(v)
    case None => Failure(NumberFormat)
  }

  function DigitChar(d: nat): char
    requires d < 10
  {
    ('0' as int + d) as char
  }

  /** Decimal rendering of a natural number, as StringBuilder.append(int). */
  function NatToString(n: nat): (r: string)
    ensures |r| > 0
    ensures AllDigits(r)
    decreases n
  {
    if n < 10 then [DigitChar(n)] else NatToString(n / 10) + [DigitChar(n % 10)]
  }

  lemma ShiftDigit(d: int, p: int, v: int, e: int)
    ensures d * (10 * p) + (10 * v + e) == 10 * (d * p + v) + e
  {
  }

  lemma {:induction false} DigitsValueSnoc(s: string, c: char)
    requires AllDigits(s) && IsDigit(c)
    ensures AllDigits(s + [c])
    ensures DigitsValue(s + [c]) == 10 * DigitsValue(s) + DigitValue(c)
  {
    var t := s + [c];
    assert forall i :: 0 <= i < |t| ==> IsDigit(t[i]) by {
      assert forall i :: 0 <= i < |s| ==> t[i] == s[i];
    }
    if |s| > 0 {
      assert t[1..] == s[1..] + [c];
      DigitsValueSnoc(s[1..], c);
      var d := DigitValue(s[0]);
      var p := Pow10(|s| - 1);
      assert t[0] == s[0] && Pow10(|t| - 1) == 10 * p;
      assert DigitsValue(t) == d * (10 * p) + DigitsValue(t[1..]);
      assert DigitsValue(s) == d * p + DigitsValue(s[1..]);
      ShiftDigit(d, p, DigitsValue(s[1..]), DigitValue(c));
    } else {
      assert t[1..] == [];
    }
  }

  /** Rendering a number and reading it back gives the number. */
  lemma {:induction false} NatToStringValue(n: nat)
    ensures DigitsValue(NatToString(n)) == n
    decreases n
  {
    if n < 10 {
      assert NatToString(n)[1..] == [];
    } else {
      NatToStringValue(n / 10);
      DigitsValueSnoc(NatToString(n / 10), DigitChar(n % 10));
    }
  }

  function IntToString(i: int): (r: string)
    ensures |r| > 0
  {
    if i < 0 then "-" + NatToString(-i) else NatToString(i)
  }

  /** Every 32-bit value printed in decimal parses back to itself. */
  lemma ParseIntToString(i: int)
    requires MinInt <= i <= MaxInt
    ensures ParseInt(IntToString(i)) == Some(i)
  {
    if i < 0 {
      var d := NatToString(-i);
      NatToStringValue(-i);
      assert IntToString(i)[1..] == d;
    } else {
      NatToStringValue(i);
    }
  }

  /** example: a sign is read, while a bare sign, the empty text and a
      letter are refused. */
  lemma ParseIntExamples()
    ensures ParseInt("-12") == Some(-12) && ParseInt("+7") == Some(7)
    ensures ParseInt("-") == None && ParseInt("") == None && ParseInt("1a") == None
  {
  }

  /** String.valueOf of a possibly-null string: null renders as "null". */
  function OrNull(s: Option<string>): string {
    match s
    case Some(v) => v
    case None => "null"
  }

  /** String.valueOf of a possibly-null Character. */
  function CharOrNull(c: Option<char>): string {
    match c
    case Some(v) => [v]
    case None => "null"
  }

  // ---------------------------------------------------------------------------
  // String.compareTo

  /** java.lang.String.compareTo: the difference of the first differing
      characters, or else the difference of the lengths. */
  function CompareTo(a: string, b: string): int {
    if |a| == 0 || |b| == 0 then |a| - |b|
    else if a[0] != b[0] then a[0] as int - b[0] as int
    else CompareTo(a[1..], b[1..])
  }

  lemma {:induction false} CompareToZeroIff(a: string, b: string)
    ensures CompareTo(a, b) == 0 <==> a == b
  {
    if |a| > 0 && |b| > 0 && a[0] == b[0] {
      CompareToZeroIff(a[1..], b[1..]);
      assert a == [a[0]] + a[1..];
      assert b == [b[0]] + b[1..];
    }
  }

  lemma {:induction false} CompareToAntisymmetric(a: string, b: string)
    ensures CompareTo(a, b) == -CompareTo(b, a)
  {
    if |a| > 0 && |b| > 0 && a[0] == b[0] {
      CompareToAntisymmetric(a[1..], b[1..]);
    }
  }

  lemma {:induction false} CompareToTransitive(a: string, b: string, c: string)
    requires CompareTo(a, b) < 0 && CompareTo(b, c) < 0
    ensures CompareTo(a, c) < 0
  {
    if |a| > 0 && |b| > 0 && |c| > 0 && a[0] == b[0] && b[0] == c[0] {
      CompareToTransitive(a[1..], b[1..], c[1..]);
    }
  }

  lemma MulMonotone(x: nat, y: nat, p: nat)
    requires x <= y
    ensures x * p <= y * p
  {
  }

  /** A larger leading digit gives a larger value among equal-width strings. */
  lemma {:induction false} LeadingDigitDecides(a: string, b: string)
    requires AllDigits(a) && AllDigits(b) && |a| == |b| > 0
    requires DigitValue(a[0]) < DigitValue(b[0])
    ensures DigitsValue(a) < DigitsValue(b)
  {
    DigitsValueBound(a[1..]);
    var p := Pow10(|a| - 1);
    var da := DigitValue(a[0]);
    var db := DigitValue(b[0]);
    assert DigitsValue(a) < da * p + p;
    assert da * p + p == (da + 1) * p;
    MulMonotone(da + 1, db, p);
    assert db * p <= DigitsValue(b);
  }

  /** On digit strings of equal width, compareTo agrees in sign with the
      numeric order; this is the only case in which schema positions compared
      as text and as numbers are guaranteed to agree. */
  lemma {:induction false} CompareToNumericOnEqualWidth(a: string, b: string)
    requires AllDigits(a) && AllDigits(b) && |a| == |b|
    ensures CompareTo(a, b) < 0 <==> DigitsValue(a) < DigitsValue(b)
    ensures CompareTo(a, b) == 0 <==> DigitsValue(a) == DigitsValue(b)
  {
    if |a| > 0 {
      if DigitValue(a[0]) < DigitValue(b[0]) {
        LeadingDigitDecides(a, b);
      } else if DigitValue(b[0]) < DigitValue(a[0]) {
        LeadingDigitDecides(b, a);
      } else {
        CompareToNumericOnEqualWidth(a[1..], b[1..]);
        assert a[0] == b[0];
      }
    }
  }

  /** Width matters: "10" sorts before "9" as text although 10 > 9. */
  lemma CompareToDisagreesWithNumericOnUnequalWidth()
    ensures CompareTo("10", "9") < 0 && DigitsValue("10") > DigitsValue("9")
  {
    assert CompareTo("10", "9") == '1' as int - '9' as int;
    assert DigitsValue("0") == 0;
    assert DigitsValue("10") == 10;
  }

  // ---------------------------------------------------------------------------
  // Searching

  predicate StartsWith(s: string, prefix: string) {
    |prefix| <= |s| && s[..|prefix|] == prefix
  }

  predicate OccursAt(s: string, sub: string, i: int) {
    0 <= i <= |s| - |sub| && s[i..i + |sub|] == sub
  }

  /** String.contains: `sub` occurs somewhere in `s`. */
  predicate Contains(s: string, sub: string) {
    exists i :: 0 <= i <= |s| - |sub| && OccursAt(s, sub, i)
  }

  /** String.lastIndexOf(char): the last position holding c, if any. */
  function LastIndexOf(s: string, c: char): (r: Option<nat>)
    ensures r.Some? ==> r.value < |s| && s[r.value] == c
    ensures r.Some? ==> forall j :: r.value < j < |s| ==> s[j] != c
    ensures r.None? ==> c !in s
  {
    if |s| == 0 then None
    else if s[|s| - 1] == c then Some(|s| - 1)
    else LastIndexOf(s[..|s| - 1], c)
  }

  /** The last c is the one before a tail without c. */
  lemma {:induction false} LastIndexOfBeforeTail(a: string, b: string, c: char)
    requires c !in b
    ensures LastIndexOf(a + [c] + b, c) == Some(|a|)
    decreases |b|
  {
    var s := a + [c] + b;
    if |b| > 0 {
      assert s[..|s| - 1] == a + [c] + b[..|b| - 1];
      LastIndexOfBeforeTail(a, b[..|b| - 1], c);
    }
  }

  // ---------------------------------------------------------------------------
  // String.trim

  /** A character String.trim removes from either end: code U+0020 and below. */
  predicate IsTrimmed(c: char) {
    c <= ' '
  }

  function TrimStart(s: string): (r: string)
    ensures |r| <= |s| && r == s[|s| - |r|..]
    ensures forall k :: 0 <= k < |s| - |r| ==> IsTrimmed(s[k])
    ensures |r| > 0 ==> !IsTrimmed(r[0])
  {
    if |s| > 0 && IsTrimmed(s[0]) then TrimStart(s[1..]) else s
  }

  function TrimEnd(s: string): (r: string)
    ensures |r| <= |s| && r == s[..|r|]
    ensures forall k :: |r| <= k < |s| ==> IsTrimmed(s[k])
    ensures |r| > 0 ==> !IsTrimmed(r[|r| - 1])
  {
    if |s| > 0 && IsTrimmed(s[|s| - 1]) then TrimEnd(s[..|s| - 1]) else s
  }

  /** s[a..b] is a middle part of s with only trimmed characters around it. */
  predicate TrimmedAround(s: string, a: int, b: int) {
    0 <= a <= b <= |s| &&
    (forall k :: 0 <= k < a ==> IsTrimmed(s[k])) && (forall k :: b <= k < |s| ==> IsTrimmed(s[k]))
  }

  /** String.trim: the longest middle part of s that neither starts nor ends
      with a character at or below U+0020. */
  function Trim(s: string): (r: string)
    ensures exists a, b :: TrimmedAround(s, a, b) && r == s[a..b]
    ensures |r| > 0 ==> !IsTrimmed(r[0]) && !IsTrimmed(r[|r| - 1])
    ensures |r| == 0 <==> forall k :: 0 <= k < |s| ==> IsTrimmed(s[k])
  {
    var t := TrimStart(s);
    var r := TrimEnd(t);
    TrimAround(s, t, r);
    r
  }

  lemma TrimAround(s: string, t: string, r: string)
    requires |t| <= |s| && t == s[|s| - |t|..] && forall k :: 0 <= k < |s| - |t| ==> IsTrimmed(s[k])
    requires |t| > 0 ==> !IsTrimmed(t[0])
    requires |r| <= |t| && r == t[..|r|] && forall k :: |r| <= k < |t| ==> IsTrimmed(t[k])
    requires |r| > 0 ==> !IsTrimmed(r[|r| - 1])
    ensures TrimmedAround(s, |s| - |t|, |s| - |t| + |r|) && r == s[|s| - |t|..|s| - |t| + |r|]
    ensures |r| > 0 ==> !IsTrimmed(r[0]) && !IsTrimmed(r[|r| - 1])
    ensures |r| == 0 <==> forall k :: 0 <= k < |s| ==> IsTrimmed(s[k])
  {
  }

  /** A prefix of a suffix of s is a slice of s. */
  lemma SliceOfSuffix(s: string, t: string, r: string, a: int)
    requires 0 <= a <= |s| && t == s[a..] && |r| <= |t| && r == t[..|r|]
    ensures r == s[a..a + |r|]
    ensures forall k :: a <= k < |s| ==> s[k] == t[k - a]
  {
  }

  /** Trimming twice changes nothing more. */
  lemma TrimIdempotent(s: string)
    ensures Trim(Trim(s)) == Trim(s)
  {
    var r := Trim(s);
    if |r| > 0 {
      assert TrimStart(r) == r;
      assert TrimEnd(r) == r;
    }
  }
}

=== FILE: tokens.dfy ===
/** Splitting a line on a single separator character with the semantics of
    java.util.regex.Pattern.split(input) for a quoted one-character pattern:
    a line without the separator comes back whole (so "" gives [""]);
    otherwise every piece between separators is kept, leading empty pieces
    included, and the trailing empty pieces are dropped. Joining is the
    inverse as far as the dropped trailing separators allow. */
module Tokens {
  import opened Wrappers

  /** Position of the first occurrence of c in s. */
  function IndexOf(s: string, c: char): (r: Option<nat>)
    ensures r.Some? ==> r.value < |s| && s[r.value] == c && c !in s[..r.value]
    ensures r.None? <==> c !in s
  {
    if |s| == 0 then None
    else if s[0] == c then Some(0)
    else match IndexOf(s[1..], c)
      case None => None
      case Some(i) => Some(i + 1)
  }

  /** Every piece between separators, trailing empty pieces included. */
  function RawSplit(s: string, c: char): (r: seq<string>)
    ensures |r| >= 1
    ensures forall k :: 0 <= k < |r| ==> c !in r[k]
    decreases |s|
  {
    match IndexOf(s, c)
    case None => [s]
    case Some(i) => [s[..i]] + RawSplit(s[i + 1..], c)
  }

  /** Removes the empty strings at the end of xs. */
  function DropTrailingEmpty(xs: seq<string>): (r: seq<string>)
    ensures r <= xs
    ensures |r| == 0 || r[|r| - 1] != ""
    ensures forall k :: |r| <= k < |xs| ==> xs[k] == ""
  {
    if |xs| == 0 then []
    else if xs[|xs| - 1] == "" then DropTrailingEmpty(xs[..|xs| - 1])
    else xs
  }

  /** Pattern.split(s) with limit 0 for the one-character pattern c. */
  function Split(s: string, c: char): (r: seq<string>)
    ensures forall k :: 0 <= k < |r| ==> c !in r[k]
  {
    if c !in s then [s] else DropTrailingEmpty(RawSplit(s, c))
  }

  /** The pieces of xs with c between consecutive ones. */
  function Join(xs: seq<string>, c: char): string {
    if |xs| == 0 then ""
    else if |xs| == 1 then xs[0]
    else xs[0] + [c] + Join(xs[1..], c)
  }

  /** s without the run of c characters at its end. */
  function TrimTrailing(s: string, c: char): (r: string)
    ensures r <= s
    ensures |r| == 0 || r[|r| - 1] != c
    ensures forall k :: |r| <= k < |s| ==> s[k] == c
  {
    if |s| > 0 && s[|s| - 1] == c then TrimTrailing(s[..|s| - 1], c) else s
  }

  predicate NoSeparator(xs: seq<string>, c: char) {
    forall k :: 0 <= k < |xs| ==> c !in xs[k]
  }

  // ---------------------------------------------------------------------------
  // Lemmas

  lemma IndexOfAfterPrefix(a: string, b: string, c: char)
    requires c !in a
    ensures IndexOf(a + [c] + b, c) == Some(|a|)
  {
    var s := a + [c] + b;
    assert s[|a|] == c;
  }

  lemma {:induction false} JoinRawSplit(s: string, c: char)
    ensures Join(RawSplit(s, c), c) == s
    decreases |s|
  {
    match IndexOf(s, c)
    case None =>
    case Some(i) =>
      var rest := RawSplit(s[i + 1..], c);
      JoinRawSplit(s[i + 1..], c);
      assert RawSplit(s, c) == [s[..i]] + rest;
      assert ([s[..i]] + rest)[1..] == rest;
      assert s == s[..i] + [c] + s[i + 1..];
  }

  lemma {:induction false} RawSplitJoin(xs: seq<string>, c: char)
    requires |xs| >= 1 && NoSeparator(xs, c)
    ensures RawSplit(Join(xs, c), c) == xs
  {
    if |xs| > 1 {
      var head := xs[0];
      var tail := Join(xs[1..], c);
      var s := head + [c] + tail;
      assert Join(xs, c) == s;
      assert c !in head;
      IndexOfAfterPrefix(head, tail, c);
      assert s[..|head|] == head;
      assert s[|head| + 1..] == tail;
      assert RawSplit(s, c) == [head] + RawSplit(tail, c);
      RawSplitJoin(xs[1..], c);
      assert xs == [head] + xs[1..];
    } else {
      assert Join(xs, c) == xs[0];
      assert c !in xs[0];
    }
  }

  lemma {:induction false} JoinSnoc(xs: seq<string>, y: string, c: char)
    requires |xs| >= 1
    ensures Join(xs + [y], c) == Join(xs, c) + [c] + y
  {
    if |xs| > 1 {
      assert (xs + [y])[1..] == xs[1..] + [y];
      JoinSnoc(xs[1..], y, c);
    } else {
      assert (xs + [y])[1..] == [y];
    }
  }

  /** The joined text ends with the last piece. */
  lemma JoinEndsWithLast(xs: seq<string>, c: char)
    requires |xs| >= 1
    ensures |Join(xs, c)| >= |xs[|xs| - 1]|
    ensures Join(xs, c)[|Join(xs, c)| - |xs[|xs| - 1]|..] == xs[|xs| - 1]
  {
    if |xs| > 1 {
      var init := xs[..|xs| - 1];
      JoinSnoc(init, xs[|xs| - 1], c);
      assert init + [xs[|xs| - 1]] == xs;
    }
  }

  lemma {:induction false} JoinDropTrailing(xs: seq<string>, c: char)
    requires |xs| >= 1 && NoSeparator(xs, c)
    ensures Join(DropTrailingEmpty(xs), c) == TrimTrailing(Join(xs, c), c)
  {
    var last := xs[|xs| - 1];
    if last != "" {
      assert DropTrailingEmpty(xs) == xs;
      JoinEndsWithLast(xs, c);
      var j := Join(xs, c);
      assert j[|j| - 1] == last[|last| - 1];
      assert last[|last| - 1] in last;
      assert TrimTrailing(j, c) == j;
    } else if |xs| > 1 {
      var init := xs[..|xs| - 1];
      assert DropTrailingEmpty(xs) == DropTrailingEmpty(init);
      JoinSnoc(init, last, c);
      assert init + [last] == xs;
      var j := Join(init, c) + [c];
      assert Join(xs, c) == j;
      assert j[..|j| - 1] == Join(init, c);
      assert TrimTrailing(j, c) == TrimTrailing(Join(init, c), c);
      JoinDropTrailing(init, c);
    } else {
      assert DropTrailingEmpty(xs) == [];
      assert Join(xs, c) == "";
    }
  }

  /** Joining the pieces of a split restores the line up to the separators
      that trailed it. */
  lemma JoinSplit(s: string, c: char)
    ensures Join(Split(s, c), c) == TrimTrailing(s, c)
  {
    if c in s {
      JoinDropTrailing(RawSplit(s, c), c);
      JoinRawSplit(s, c);
    } else if |s| > 0 {
      assert s[|s| - 1] in s;
    }
  }

  /** Splitting joined pieces gives them back, provided none holds the
      separator and (when there are several) the last is not empty. */
  lemma SplitJoin(xs: seq<string>, c: char)
    requires |xs| >= 1 && NoSeparator(xs, c)
    requires |xs| == 1 || xs[|xs| - 1] != ""
    ensures Split(Join(xs, c), c) == xs
  {
    if |xs| > 1 {
      var s := Join(xs, c);
      assert s == xs[0] + [c] + Join(xs[1..], c);
      assert s[|xs[0]|] == c;
      RawSplitJoin(xs, c);
    }
  }

  lemma {:induction false} TrimTrailingEmptyIff(s: string, c: char)
    ensures TrimTrailing(s, c) == "" <==> forall k :: 0 <= k < |s| ==> s[k] == c
  {
    if |s| > 0 && s[|s| - 1] == c {
      TrimTrailingEmptyIff(s[..|s| - 1], c);
      assert forall k :: 0 <= k < |s| - 1 ==> s[..|s| - 1][k] == s[k];
    }
  }

  /** The split is empty exactly for a non-empty line made only of
      separators; Pattern.split returns [""] for the empty line. */
  /** A non-empty text made of nothing but c. */
  predicate OnlyDelimiters(s: string, c: char) {
    |s| > 0 && forall k :: 0 <= k < |s| ==> s[k] == c
  }

  lemma SplitEmptyIff(s: string, c: char)
    ensures Split(s, c) == [] <==> OnlyDelimiters(s, c)
  {
    JoinSplit(s, c);
    TrimTrailingEmptyIff(s, c);
    var r := Split(s, c);
    if |r| > 0 {
      JoinEndsWithLast(r, c);
      if c in s {
        assert r[|r| - 1] != "";
      } else if |s| > 0 {
        assert s[0] in s;
      }
    }
  }

  /** A single trailing separator after non-empty last piece is dropped by
      the split. */
  lemma SplitJoinTrailingEmpty(xs: seq<string>, c: char)
    requires |xs| >= 1 && NoSeparator(xs, c) && xs[|xs| - 1] != ""
    ensures Split(Join(xs + [""], c), c) == xs
  {
    var ys := xs + [""];
    assert NoSeparator(ys, c) by {
      assert forall k :: 0 <= k < |xs| ==> ys[k] == xs[k];
    }
    RawSplitJoin(ys, c);
    JoinSnoc(xs, "", c);
    var s := Join(ys, c);
    assert s[|s| - 1] == c;
    assert ys[..|ys| - 1] == xs;
  }

  /** Every piece followed by the separator text, as a StringBuilder loop
      that appends a piece and then a delimiter produces it. */
  function Terminated(xs: seq<string>, sep: string): string {
    if |xs| == 0 then "" else xs[0] + sep + Terminated(xs[1..], sep)
  }

  /** Dropping the last delimiter of a terminated list gives the join. */
  lemma {:induction false} TerminatedJoin(xs: seq<string>, c: char)
    requires |xs| >= 1
    ensures Terminated(xs, [c]) == Join(xs, c) + [c]
  {
    if |xs| > 1 {
      TerminatedJoin(xs[1..], c);
    } else {
      assert xs[1..] == [];
    }
  }

  /** The pieces of xs with the text sep between consecutive ones. */
  function JoinText(xs: seq<string>, sep: string): string {
    if |xs| == 0 then ""
    else if |xs| == 1 then xs[0]
    else xs[0] + sep + JoinText(xs[1..], sep)
  }

  /** A terminated list is the join followed by one more separator. */
  lemma {:induction false} TerminatedJoinText(xs: seq<string>, sep: string)
    requires |xs| >= 1
    ensures Terminated(xs, sep) == JoinText(xs, sep) + sep
  {
    if |xs| > 1 {
      TerminatedJoinText(xs[1..], sep);
    } else {
      assert xs[1..] == [];
    }
  }
}

=== FILE: validate.dfy ===
/** The reader's checks of the lines stored for one loop against the loop's
    segment definitions (validateLines, validateSegments and the checks they
    call), and the repeat check of a loop against its parent's count
    (compareRepeats). Each check yields the error messages it appends to the
    reader's error list; an exception of the original code is a Failure. */
module X12Validate {
  import opened Wrappers
  import opened Strings
  import opened Tokens
  import opened Mapping
  import opened X12Schema
  import opened X12Codes
  import opened X12LoopConfig

  // ---------------------------------------------------------------------------
  // Counting helpers

  function Sum(s: seq<int>): int {
    if |s| == 0 then 0 else s[0] + Sum(s[1..])
  }

  lemma {:induction false} SumIncrement(s: seq<int>, i: nat)
    requires i < |s|
    ensures Sum(s[i := s[i] + 1]) == Sum(s) + 1
  {
    if i > 0 {
      SumIncrement(s[1..], i - 1);
      assert s[i := s[i] + 1][1..] == s[1..][i - 1 := s[1..][i - 1] + 1];
    }
  }

  function Zeros(n: nat): (r: seq<int>)
    ensures |r| == n && Sum(r) == 0
    ensures forall i :: 0 <= i < n ==> r[i] == 0
  {
    if n == 0 then [] else assert ([0] + Zeros(n - 1))[1..] == Zeros(n - 1); [0] + Zeros(n - 1)
  }

  /** The number of times x occurs in xs. */
  function Occurrences(xs: seq<string>, x: string): nat {
    if |xs| == 0 then 0 else (if xs[0] == x then 1 else 0) + Occurrences(xs[1..], x)
  }

  lemma {:induction false} OccurrencesAppend(a: seq<string>, b: seq<string>, x: string)
    ensures Occurrences(a + b, x) == Occurrences(a, x) + Occurrences(b, x)
  {
    if |a| > 0 {
      assert (a + b)[0] == a[0];
      assert (a + b)[1..] == a[1..] + b;
      OccurrencesAppend(a[1..], b, x);
    } else {
      assert a + b == b;
    }
  }

  // ---------------------------------------------------------------------------
  // Messages

  function UnmatchedMessage(loopId: string): string {
    "Unable to find" + " a matching segment format in loop " + loopId
  }

  function PositionMessage(xid: string, loopId: string): string {
    "Segment " + xid + " in loop " + loopId + " is not in the correct position."
  }

  function RequiredMessage(xid: string, loopId: string): string {
    xid + " in loop " + loopId + " is required but not found"
  }

  function TooManyMessage(xid: string, loopId: string): string {
    xid + " in loop " + loopId + " appears too many times"
  }

  /** The two messages of checkRequiredElements ("element") and
      checkRequiredComposites ("composite element"). */
  function AbsentMessage(xid: string, loopId: string, kind: string, pos: int): string {
    xid + " in loop " + loopId + " " + kind + " at position " + IntToString(pos) + " does not exist!!!!"
  }

  function EmptyMessage(xid: string, loopId: string, kind: string, pos: int): string {
    xid + " in loop " + loopId + " is missing a required " + kind + " at " + IntToString(pos)
  }

  /** The segments whose absence is never reported. */
  predicate IsEnvelopeTrailer(xid: string) {
    xid == "IEA" || xid == "GE" || xid == "SE"
  }

  // ---------------------------------------------------------------------------
  // checkUsage, checkRepeats

  /** checkUsage(usage, count): only a REQUIRED segment that was not seen
      fails. */
  function CheckUsage(usage: Option<Usage>, count: int): (r: bool)
    ensures !r <==> usage == Some(REQUIRED) && count <= 0
  {
    !(usage == Some(REQUIRED) && count <= 0)
  }

  /** checkRepeats(repeats, count): ">1" asks for at least one occurrence;
      any other text is parsed as the maximum count. */
  function CheckRepeats(repeats: string, count: int): (r: Result<bool>)
    ensures repeats == ">1" ==> r == Success(count > 0)
    ensures repeats != ">1" ==> (r.Failure? <==> ParseInt(repeats).None?)
    ensures repeats != ">1" && r.Success? ==> (r.value <==> count <= ParseInt(repeats).value)
    ensures r.Failure? ==> r.error == NumberFormat
  {
    if repeats == ">1" then Success(count > 0)
    else
      var max :- ParseIntOrFail(repeats);
      Success(count <= max)
  }

  /** A segment whose maximum use is ">1" and that does not occur at all is
      reported as appearing too many times. */
  lemma UnboundedAbsentFailsRepeats()
    ensures CheckRepeats(">1", 0) == Success(false)
  {
  }

  // ---------------------------------------------------------------------------
  // checkRequiredElements, checkRequiredComposites

  /** The first required position, from index i on, whose token is missing or
      empty yields one message; a negative position throws. */
  function MissingRequired(tokens: seq<string>, positions: seq<int>, i: nat, xid: string, loopId: string, kind: string):
    (r: Result<Option<string>>)
    requires i <= |positions|
    ensures r == Success(None) <==> forall k :: i <= k < |positions| ==> 0 <= positions[k] < |tokens| && tokens[positions[k]] != ""
    ensures r.Failure? ==> r.error == ArrayIndexOutOfBounds
    ensures r.Failure? ==> exists k :: i <= k < |positions| && positions[k] < 0
    decreases |positions| - i
  {
    if i == |positions| then Success(None)
    else
      var p := positions[i];
      if p >= |tokens| then Success(Some(AbsentMessage(xid, loopId, kind, p)))
      else if p < 0 then Failure(ArrayIndexOutOfBounds)
      else if tokens[p] == "" then Success(Some(EmptyMessage(xid, loopId, kind, p)))
      else MissingRequired(tokens, positions, i + 1, xid, loopId, kind)
  }

  /** The message names the first position that is missing or empty: an
      absent one when the position lies past the last token, an empty one
      otherwise. */
  lemma {:induction false} MissingRequiredFirst(tokens: seq<string>, positions: seq<int>, i: nat, xid: string, loopId: string, kind: string)
    requires i <= |positions|
    requires MissingRequired(tokens, positions, i, xid, loopId, kind).Success?
    requires MissingRequired(tokens, positions, i, xid, loopId, kind).value.Some?
    ensures exists k :: (i <= k < |positions| &&
      (forall l :: i <= l < k ==> 0 <= positions[l] < |tokens| && tokens[positions[l]] != "") &&
      MissingRequired(tokens, positions, i, xid, loopId, kind).value.value ==
        (if positions[k] >= |tokens| then AbsentMessage(xid, loopId, kind, positions[k])
         else EmptyMessage(xid, loopId, kind, positions[k])))
    decreases |positions| - i
  {
    var p := positions[i];
    if p < |tokens| && tokens[p] != "" {
      MissingRequiredFirst(tokens, positions, i + 1, xid, loopId, kind);
      var k :| i + 1 <= k < |positions| &&
        (forall l :: i + 1 <= l < k ==> 0 <= positions[l] < |tokens| && tokens[positions[l]] != "") &&
        MissingRequired(tokens, positions, i + 1, xid, loopId, kind).value.value ==
          (if positions[k] >= |tokens| then AbsentMessage(xid, loopId, kind, positions[k])
           else EmptyMessage(xid, loopId, kind, positions[k]));
      assert forall l :: i <= l < k ==> 0 <= positions[l] < |tokens| && tokens[positions[l]] != "";
    }
  }

  /** checkRequiredElements(tokens, seg, loopId). */
  function CheckRequiredElements(tokens: seq<string>, seg: SegmentDef, loopId: string): (r: Result<Option<string>>)
    ensures RequiredElementPositions(seg).Failure? ==> r.Failure?
    ensures RequiredElementPositions(seg).Success? ==>
      r == MissingRequired(tokens, RequiredElementPositions(seg).value, 0, seg.xid, loopId, "element")
  {
    var positions :- RequiredElementPositions(seg);
    MissingRequired(tokens, positions, 0, seg.xid, loopId, "element")
  }

  /** checkRequiredComposites(tokens, seg, loopId). */
  function CheckRequiredComposites(tokens: seq<string>, seg: SegmentDef, loopId: string): (r: Result<Option<string>>)
    ensures RequiredCompositePositions(seg).Failure? ==> r.Failure?
    ensures RequiredCompositePositions(seg).Success? ==>
      r == MissingRequired(tokens, RequiredCompositePositions(seg).value, 0, seg.xid, loopId, "composite element")
  {
    var positions :- RequiredCompositePositions(seg);
    MissingRequired(tokens, positions, 0, seg.xid, loopId, "composite element")
  }

  /** A line holding every required element passes checkRequiredElements. */
  lemma RequiredElementsPresent(tokens: seq<string>, seg: SegmentDef, loopId: string)
    requires RequiredElementPositions(seg).Success?
    requires forall p :: p in RequiredElementPositions(seg).value ==> 0 <= p < |tokens| && tokens[p] != ""
    ensures CheckRequiredElements(tokens, seg, loopId) == Success(None)
  {
    var ps := RequiredElementPositions(seg).value;
    assert forall k :: 0 <= k < |ps| ==> ps[k] in ps;
  }

  // ---------------------------------------------------------------------------
  // validateSegments

  function Opt(m: Option<string>): seq<string> {
    if m.Some? then [m.value] else []
  }

  /** The checks of required elements and composites on each line whose
      segment id is seg's, made only when seg was counted at least once. */
  function LineChecks(lines: seq<string>, k: nat, seg: SegmentDef, loopId: string, count: int, elem: char): (r: Result<seq<string>>)
    requires k <= |lines|
    ensures count <= 0 ==> r == Success([])
    decreases |lines| - k
  {
    if k == |lines| || count <= 0 then Success([])
    else
      var tokens := Split(lines[k], elem);
      var here :-
        if |tokens| == 0 then Failure(ArrayIndexOutOfBounds)
        else if tokens[0] == seg.xid then
          var e :- CheckRequiredElements(tokens, seg, loopId);
          var c :- CheckRequiredComposites(tokens, seg, loopId);
          Success(Opt(e) + Opt(c))
        else Success([]);
      var rest :- LineChecks(lines, k + 1, seg, loopId, count, elem);
      Success(here + rest)
  }

  /** A REQUIRED segment, other than an envelope trailer, counted zero times. */
  predicate ReportedAbsent(d: SegmentDef, count: int) {
    d.usage == Some(REQUIRED) && count <= 0 && !IsEnvelopeTrailer(d.xid)
  }

  /** A segment counted more often than its numeric maximum use. */
  predicate Exceeds(d: SegmentDef, count: int) {
    d.maxUse != ">1" && ParseInt(d.maxUse).Some? && count > ParseInt(d.maxUse).value
  }

  /** Definition d with count accounts for message m: m is its missing
      message, its too-many message, or one of the per-line messages made
      because d was counted. */
  predicate Explains(m: string, lines: seq<string>, d: SegmentDef, loopId: string, count: int, elem: char) {
    (m == RequiredMessage(d.xid, loopId) && ReportedAbsent(d, count)) ||
    (m == TooManyMessage(d.xid, loopId) && ((d.maxUse == ">1" && count <= 0) || Exceeds(d, count))) ||
    (count > 0 && LineChecks(lines, 0, d, loopId, count, elem).Success? &&
     m in LineChecks(lines, 0, d, loopId, count, elem).value)
  }

  /** A definition whose checks throw: its maximum use does not parse, or a
      line check of a counted definition throws. */
  predicate Throws(lines: seq<string>, d: SegmentDef, loopId: string, count: int, elem: char) {
    CheckRepeats(d.maxUse, count).Failure? || LineChecks(lines, 0, d, loopId, count, elem).Failure?
  }

  /** out holds every message definition d with count calls for: its missing
      message, its too-many message, and its per-line messages. */
  predicate Reports(lines: seq<string>, d: SegmentDef, loopId: string, count: int, elem: char, out: seq<string>) {
    (ReportedAbsent(d, count) ==> RequiredMessage(d.xid, loopId) in out) &&
    ((d.maxUse == ">1" && count <= 0) || Exceeds(d, count) ==> TooManyMessage(d.xid, loopId) in out) &&
    (LineChecks(lines, 0, d, loopId, count, elem).Success? ==>
      forall m :: m in LineChecks(lines, 0, d, loopId, count, elem).value ==> m in out)
  }

  /** out reports every definition from index i on. */
  predicate ReportsFrom(lines: seq<string>, format: seq<SegmentDef>, loopId: string, counter: seq<int>, elem: char, i: nat, out: seq<string>)
    requires |counter| == |format|
  {
    forall j :: i <= j < |format| ==> Reports(lines, format[j], loopId, counter[j], elem, out)
  }

  /** Every message of out is explained by a definition from index i on. */
  predicate ExplainedFrom(lines: seq<string>, format: seq<SegmentDef>, loopId: string, counter: seq<int>, elem: char, i: nat, out: seq<string>)
    requires |counter| == |format|
  {
    forall m :: m in out ==> exists j :: i <= j < |format| && Explains(m, lines, format[j], loopId, counter[j], elem)
  }

  /** validateSegments over the definitions from index i on: per definition
      its usage error, its repeat error, then the per-line checks. */
  function ValidateSegmentsFrom(lines: seq<string>, format: seq<SegmentDef>, loopId: string, counter: seq<int>, elem: char, i: nat):
    (r: Result<seq<string>>)
    requires |counter| == |format| && i <= |format|
    ensures r.Failure? <==> exists j :: i <= j < |format| && Throws(lines, format[j], loopId, counter[j], elem)
    ensures r.Success? ==> ReportsFrom(lines, format, loopId, counter, elem, i, r.value)
    ensures r.Success? ==> ExplainedFrom(lines, format, loopId, counter, elem, i, r.value)
    ensures (exists j :: i <= j < |format| && format[j].maxUse != ">1" && ParseInt(format[j].maxUse).None?) ==> r.Failure?
    decreases |format| - i
  {
    if i == |format| then Success([])
    else
      var head :- DefinitionMessages(lines, format[i], loopId, counter[i], elem);
      var rest :- ValidateSegmentsFrom(lines, format, loopId, counter, elem, i + 1);
      ValidateSegmentsStep(lines, format, loopId, counter, elem, i, head, rest);
      Success(head + rest)
  }

  /** The messages validateSegments makes for one definition d counted
      `count` times: its usage error, its repeat error, then the per-line
      checks. */
  function DefinitionMessages(lines: seq<string>, d: SegmentDef, loopId: string, count: int, elem: char): (r: Result<seq<string>>)
    ensures r.Failure? <==> Throws(lines, d, loopId, count, elem)
    ensures r.Success? ==> Reports(lines, d, loopId, count, elem, r.value)
    ensures r.Success? ==> forall m :: m in r.value ==> Explains(m, lines, d, loopId, count, elem)
    ensures d.maxUse != ">1" && ParseInt(d.maxUse).None? ==> r.Failure?
  {
    var usageErrors := if !CheckUsage(d.usage, count) && !IsEnvelopeTrailer(d.xid) then [RequiredMessage(d.xid, loopId)] else [];
    var repeatsOk :- CheckRepeats(d.maxUse, count);
    var repeatErrors := if !repeatsOk then [TooManyMessage(d.xid, loopId)] else [];
    var lineErrors :- LineChecks(lines, 0, d, loopId, count, elem);
    var head := usageErrors + repeatErrors + lineErrors;
    assert forall m :: m in head ==> Explains(m, lines, d, loopId, count, elem);
    Success(head)
  }

  /** The messages of definition i put in front of those of the definitions
      after it report and explain every definition from i on. */
  lemma ValidateSegmentsStep(lines: seq<string>, format: seq<SegmentDef>, loopId: string, counter: seq<int>, elem: char, i: nat,
                             head: seq<string>, rest: seq<string>)
    requires |counter| == |format| && i < |format|
    requires Reports(lines, format[i], loopId, counter[i], elem, head)
    requires forall m :: m in head ==> Explains(m, lines, format[i], loopId, counter[i], elem)
    requires ReportsFrom(lines, format, loopId, counter, elem, i + 1, rest)
    requires ExplainedFrom(lines, format, loopId, counter, elem, i + 1, rest)
    ensures ReportsFrom(lines, format, loopId, counter, elem, i, head + rest)
    ensures ExplainedFrom(lines, format, loopId, counter, elem, i, head + rest)
  {
    forall j | i <= j < |format|
      ensures Reports(lines, format[j], loopId, counter[j], elem, head + rest)
    {
      if j == i {
        ReportsGrows(lines, format[j], loopId, counter[j], elem, head, rest);
      } else {
        ReportsGrows(lines, format[j], loopId, counter[j], elem, rest, head);
      }
    }
  }

  /** Reporting survives adding messages on either side. */
  lemma ReportsGrows(lines: seq<string>, d: SegmentDef, loopId: string, count: int, elem: char, a: seq<string>, b: seq<string>)
    requires Reports(lines, d, loopId, count, elem, a)
    ensures Reports(lines, d, loopId, count, elem, a + b) && Reports(lines, d, loopId, count, elem, b + a)
  {
  }

  // ---------------------------------------------------------------------------
  // validateLines

  /** The line's tokens start with the definition's id and pass codesValidated. */
  predicate Fits(tokens: seq<string>, d: SegmentDef) {
    |tokens| > 0 && tokens[0] == d.xid && CodesValidated(tokens, d) == Success(true)
  }

  /** The index of the first definition, from j on, that the line fits;
      reading tokens[0] of an empty split throws. */
  function MatchFormat(tokens: seq<string>, format: seq<SegmentDef>, j: nat): (r: Result<Option<nat>>)
    requires j <= |format|
    ensures r.Success? && r.value.Some? ==> j <= r.value.value < |format| && Fits(tokens, format[r.value.value])
    ensures r.Success? && r.value.Some? ==> forall l :: j <= l < r.value.value ==> !Fits(tokens, format[l])
    ensures r.Success? && r.value.None? ==> forall l :: j <= l < |format| ==> !Fits(tokens, format[l])
    ensures r.Failure? ==> j < |format|
    decreases |format| - j
  {
    if j == |format| then Success(None)
    else if |tokens| == 0 then Failure(ArrayIndexOutOfBounds)
    else if tokens[0] == format[j].xid then
      var ok :- CodesValidated(tokens, format[j]);
      if ok then Success(Some(j)) else MatchFormat(tokens, format, j + 1)
    else MatchFormat(tokens, format, j + 1)
  }

  /** The line loop of validateLines from line k on: a line fitting a
      definition is counted against the first one it fits (with a message
      when that definition's position, as a number, is below the previous
      fitted one's); a line fitting none gets the unmatched message. */
  function ValidateLinesFrom(lines: seq<string>, k: nat, format: seq<SegmentDef>, loopId: string, elem: char,
                             previous: Option<string>, counter: seq<int>): (r: Result<(seq<int>, seq<string>)>)
    requires k <= |lines| && |counter| == |format|
    ensures r.Success? ==> |r.value.0| == |format|
    decreases |lines| - k
  {
    if k == |lines| then Success((counter, []))
    else
      var tokens := Split(lines[k], elem);
      var m :- MatchFormat(tokens, format, 0);
      match m
      case None =>
        var rest :- ValidateLinesFrom(lines, k + 1, format, loopId, elem, previous, counter);
        Success((rest.0, [UnmatchedMessage(loopId)] + rest.1))
      case Some(i) =>
        var current := format[i].pos;
        var outOfPlace :- OutOfPlace(previous, current);
        var rest :- ValidateLinesFrom(lines, k + 1, format, loopId, elem, Some(current), counter[i := counter[i] + 1]);
        Success((rest.0, (if outOfPlace then [PositionMessage(format[i].xid, loopId)] else []) + rest.1))
  }

  /** The previous fitted position, as a number, exceeds the current one;
      both texts are parsed when there is a previous one. */
  function OutOfPlace(previous: Option<string>, current: string): (r: Result<bool>)
    ensures previous.None? ==> r == Success(false)
    ensures previous.Some? ==> (r.Success? <==> ParseInt(previous.value).Some? && ParseInt(current).Some?)
    ensures r == Success(true) <==> (previous.Some? && ParseInt(previous.value).Some? && ParseInt(current).Some? &&
      ParseInt(previous.value).value > ParseInt(current).value)
  {
    if previous.None? then Success(false)
    else
      var a :- ParseIntOrFail(previous.value);
      var b :- ParseIntOrFail(current);
      Success(a > b)
  }

  /** Counting in validateLines never lowers a counter. */
  lemma {:induction false} ValidateLinesGrows(lines: seq<string>, k: nat, format: seq<SegmentDef>, loopId: string, elem: char,
                                              previous: Option<string>, counter: seq<int>)
    requires k <= |lines| && |counter| == |format|
    requires ValidateLinesFrom(lines, k, format, loopId, elem, previous, counter).Success?
    ensures var r := ValidateLinesFrom(lines, k, format, loopId, elem, previous, counter).value;
      forall i :: 0 <= i < |format| ==> r.0[i] >= counter[i]
    decreases |lines| - k
  {
    if k < |lines| {
      match MatchFormat(Split(lines[k], elem), format, 0).value
      case None =>
        ValidateLinesGrows(lines, k + 1, format, loopId, elem, previous, counter);
      case Some(i) =>
        ValidateLinesGrows(lines, k + 1, format, loopId, elem, Some(format[i].pos), counter[i := counter[i] + 1]);
    }
  }

  /** A definition that no line from k on fits keeps its count. */
  lemma {:induction false} ValidateLinesUnfitted(lines: seq<string>, k: nat, format: seq<SegmentDef>, loopId: string, elem: char,
                                                 previous: Option<string>, counter: seq<int>, d: nat)
    requires k <= |lines| && |counter| == |format| && d < |format|
    requires ValidateLinesFrom(lines, k, format, loopId, elem, previous, counter).Success?
    requires forall l :: k <= l < |lines| ==> !Fits(Split(lines[l], elem), format[d])
    ensures ValidateLinesFrom(lines, k, format, loopId, elem, previous, counter).value.0[d] == counter[d]
    decreases |lines| - k
  {
    if k < |lines| {
      match MatchFormat(Split(lines[k], elem), format, 0).value
      case None =>
        ValidateLinesUnfitted(lines, k + 1, format, loopId, elem, previous, counter, d);
      case Some(i) =>
        assert i != d;
        ValidateLinesUnfitted(lines, k + 1, format, loopId, elem, Some(format[i].pos), counter[i := counter[i] + 1], d);
    }
  }

  /** Every line is either counted once or reported as unmatched. */
  lemma {:induction false} ValidateLinesCounts(lines: seq<string>, k: nat, format: seq<SegmentDef>, loopId: string, elem: char,
                                               previous: Option<string>, counter: seq<int>)
    requires k <= |lines| && |counter| == |format|
    requires ValidateLinesFrom(lines, k, format, loopId, elem, previous, counter).Success?
    ensures var r := ValidateLinesFrom(lines, k, format, loopId, elem, previous, counter).value;
      Sum(r.0) + Occurrences(r.1, UnmatchedMessage(loopId)) == Sum(counter) + |lines| - k
    decreases |lines| - k
  {
    if k < |lines| {
      var r := ValidateLinesFrom(lines, k, format, loopId, elem, previous, counter).value;
      var tokens := Split(lines[k], elem);
      var m := MatchFormat(tokens, format, 0).value;
      match m
      case None =>
        ValidateLinesCounts(lines, k + 1, format, loopId, elem, previous, counter);
        var rest := ValidateLinesFrom(lines, k + 1, format, loopId, elem, previous, counter).value;
        assert r.1 == [UnmatchedMessage(loopId)] + rest.1;
        OccurrencesAppend([UnmatchedMessage(loopId)], rest.1, UnmatchedMessage(loopId));
      case Some(i) =>
        var current := format[i].pos;
        var outOfPlace := OutOfPlace(previous, current).value;
        var counter1 := counter[i := counter[i] + 1];
        SumIncrement(counter, i);
        ValidateLinesCounts(lines, k + 1, format, loopId, elem, Some(current), counter1);
        var rest := ValidateLinesFrom(lines, k + 1, format, loopId, elem, Some(current), counter1).value;
        var here := if outOfPlace then [PositionMessage(format[i].xid, loopId)] else [];
        assert r.1 == here + rest.1;
        OccurrencesAppend(here, rest.1, UnmatchedMessage(loopId));
        assert Occurrences(here, UnmatchedMessage(loopId)) == 0 by {
          if outOfPlace {
            MessagesDiffer(format[i].xid, loopId);
          }
        }
    }
  }

  /** No line's tokens fit d. */
  predicate FitsNoLine(lines: seq<string>, elem: char, d: SegmentDef) {
    forall k :: 0 <= k < |lines| ==> !Fits(Split(lines[k], elem), d)
  }

  lemma MessagesDiffer(xid: string, loopId: string)
    ensures PositionMessage(xid, loopId) != UnmatchedMessage(loopId)
  {
    var a := "Segment " + xid + " in loop " + loopId + " is not in the correct position.";
    assert a[0] == 'S';
    assert ("Unable to find" + " a matching segment format in loop " + loopId)[0] == 'U';
  }

  /** validateLines(lines, loopId): the loop's segment definitions are
      looked up in the schema (an absent list throws), the lines are matched
      and counted, then validateSegments runs on the counts. */
  function ValidateLines(root: LoopDef, lines: seq<string>, loopId: string, elem: char): (r: Result<seq<string>>)
    ensures SegmentDefinitions(root, Some(loopId)).None? ==> r == Failure(NullPointer)
    ensures r.Success? ==> var format := SegmentDefinitions(root, Some(loopId)).value;
      forall j :: 0 <= j < |format| && ReportedAbsent(format[j], 0) && FitsNoLine(lines, elem, format[j]) ==>
        RequiredMessage(format[j].xid, loopId) in r.value
  {
    var defs := SegmentDefinitions(root, Some(loopId));
    if defs.None? then Failure(NullPointer)
    else
      var format := defs.value;
      var (counts, lineErrors) :- ValidateLinesFrom(lines, 0, format, loopId, elem, None, Zeros(|format|));
      var segmentErrors :- ValidateSegmentsFrom(lines, format, loopId, counts, elem, 0);
      assert forall j :: 0 <= j < |format| && FitsNoLine(lines, elem, format[j]) ==> counts[j] == 0 by {
        forall j | 0 <= j < |format| && FitsNoLine(lines, elem, format[j])
          ensures counts[j] == 0
        {
          ValidateLinesUnfitted(lines, 0, format, loopId, elem, None, Zeros(|format|), j);
        }
      }
      Success(lineErrors + segmentErrors)
  }

  // ---------------------------------------------------------------------------
  // compareRepeats

  /** The repeat count of the last config with the parent's id, one when
      there is none. */
  function ParentCount(cs: seq<LoopConfig>, parentId: string): (r: nat)
    ensures !HasId(cs, parentId) ==> r == 1
    ensures forall i :: 0 <= i < |cs| && LastWithId(cs, i, parentId) ==> r == cs[i].repeatCount
  {
    if |cs| == 0 then 1
    else if cs[|cs| - 1].loopId == parentId then cs[|cs| - 1].repeatCount
    else
      var init := cs[..|cs| - 1];
      var r := ParentCount(init, parentId);
      assert forall i :: 0 <= i < |cs| && LastWithId(cs, i, parentId) ==> i < |init| && LastWithId(init, i, parentId);
      r
  }

  /** cs[i] has the id and no later config does. */
  predicate LastWithId(cs: seq<LoopConfig>, i: nat, id: string)
    requires i < |cs|
  {
    cs[i].loopId == id && forall j :: i < j < |cs| ==> cs[j].loopId != id
  }

  /** Math.ceil(count / parentCount) for a positive parent count. */
  function CeilDiv(count: nat, parentCount: nat): nat
    requires parentCount > 0
  {
    (count + parentCount - 1) / parentCount
  }

  lemma CeilDivAtMost(count: nat, p: nat, n: int)
    requires p > 0
    ensures CeilDiv(count, p) <= n <==> count <= n * p
  {
    var q := CeilDiv(count, p);
    var s := count + p - 1;
    assert s == q * p + s % p;
    assert 0 <= s % p < p;
    if q <= n {
      assert q * p <= n * p by { MulLe(q, n, p); }
    } else {
      assert (n + 1) * p <= q * p by { MulLe(n + 1, q, p); }
    }
  }

  lemma MulLe(a: int, b: int, p: nat)
    requires a <= b
    ensures a * p <= b * p
  {
  }

  /** compareRepeats(count, repeat, parentId): ">1" with at least one
      occurrence passes; a repeat text holding '>' otherwise fails; a plain
      number n passes when count does not exceed n occurrences per parent
      occurrence (a parent counted zero times makes the quotient infinite or
      undefined, so the check fails). */
  function CompareRepeats(cs: seq<LoopConfig>, count: nat, repeat: string, parentId: string): (r: Result<bool>)
    ensures r.Failure? <==> !(repeat == ">1" && count > 0) && '>' !in repeat && ParseInt(repeat).None?
    ensures r.Failure? ==> r.error == NumberFormat
    ensures r == Success(true) <==>
      (repeat == ">1" && count > 0) ||
      ('>' !in repeat && ParseInt(repeat).Some? && ParentCount(cs, parentId) > 0 &&
        count <= ParseInt(repeat).value * ParentCount(cs, parentId))
  {
    var parentCount := ParentCount(cs, parentId);
    if repeat == ">1" && count > 0 then Success(true)
    else if '>' in repeat then Success(false)
    else
      var max :- ParseIntOrFail(repeat);
      if parentCount == 0 then Success(false)
      else
        CeilDivAtMost(count, parentCount, max);
        Success(CeilDiv(count, parentCount) <= max)
  }
}

=== FILE: wrappers.dfy ===
/** Option and a failure-compatible Result used across the model.
    `Failure` carries the name of the Java exception the original code would
    throw at that point (a dereference of null, an index out of range, a
    number that does not parse). */
module Wrappers {

  datatype Option<+T> = None | Some(value: T) {
    function GetOr(default: T): T {
      match this
      case Some(v) => v
      case None => default
    }
  }

  datatype Result<+T> = Success(value: T) | Failure(error: string) {
    predicate IsFailure() {
      Failure?
    }

    function PropagateFailure<U>(): Result<U>
      requires Failure?
    {
      Failure(error)
    }

    function Extract(): T
      requires Success?
    {
      value
    }
  }

  const NullPointer: string := "NullPointerException"
  const IndexOutOfBounds: string := "IndexOutOfBoundsException"
  const NumberFormat: string := "NumberFormatException"
  const IllegalState: string := "IllegalStateException"
  const NegativeArraySize: string := "NegativeArraySizeException"
  const StringIndexOutOfBounds: string := "StringIndexOutOfBoundsException"
  const ArrayIndexOutOfBounds: string := "ArrayIndexOutOfBoundsException"
  const NoSuchElement: string := "NoSuchElementException"
}

=== FILE: writer.dfy ===
/** Writing a loop tree back out in schema order (Loop.toX12String and
    getLoopForPrinting) and X12Writer, which writes every top-level loop of
    a document. */
module X12Writer {
  import opened Wrappers
  import opened Strings
  import opened Tokens
  import opened Mapping
  import opened X12Separators
  import opened X12Segment
  import opened X12Loop
  import opened X12LoopSearch
  import opened X12LoopWalk

  // ---------------------------------------------------------------------------
  // Loop.toX12String

  /** What follows every written segment: the loop's segment delimiter
      ("null" when unset) and its line break. */
  function Terminator(seps: Separators): string {
    CharOrNull(seps.segment) + seps.lineBreak.Text()
  }

  /** The loop's own segments with the given id, in order, each followed by
      the terminator (the getSegment(xid, idx++) loop). */
  function SegmentsText(t: Tree, n: nat, id: string): (r: string)
    requires t.Has(n)
  {
    var ss := FindSegment(t, n, id);
    Terminated(seq(|ss|, i requires 0 <= i < |ss| => ss[i].ToString()), Terminator(t.nodes[n].separators))
  }

  /** The id of the k-th direct child of n. */
  function ChildId(t: Tree, n: nat, k: nat): Option<string>
    requires t.Valid() && t.Has(n) && k < |t.nodes[n].loops|
  {
    t.nodes[t.nodes[n].loops[k]].id
  }

  /** The k-th direct child is named, and not `id`: the noneMatch goes on. */
  predicate Passes(t: Tree, n: nat, id: string, k: nat)
    requires t.Valid() && t.Has(n) && k < |t.nodes[n].loops|
  {
    ChildId(t, n, k).Some? && ChildId(t, n, k) != Some(id)
  }

  /** The noneMatch over the direct children: the first child that is
      either unnamed or named `id` decides; an unnamed one throws. */
  function ChildNamed(t: Tree, n: nat, id: string, i: nat): (r: Result<bool>)
    requires t.Valid() && t.Has(n) && i <= |t.nodes[n].loops|
    ensures r.Failure? ==> r.error == NullPointer
    ensures r == Success(false) <==> forall k :: i <= k < |t.nodes[n].loops| ==> Passes(t, n, id, k)
    ensures r.Failure? <==> exists k :: (i <= k < |t.nodes[n].loops| && ChildId(t, n, k).None? &&
      forall j :: i <= j < k ==> Passes(t, n, id, j))
    ensures r == Success(true) <==> exists k :: (i <= k < |t.nodes[n].loops| && ChildId(t, n, k) == Some(id) &&
      forall j :: i <= j < k ==> Passes(t, n, id, j))
    decreases |t.nodes[n].loops| - i
  {
    if i == |t.nodes[n].loops| then Success(false)
    else
      var c := ChildId(t, n, i);
      if c.None? then
        assert !Passes(t, n, id, i);
        Failure(NullPointer)
      else if c == Some(id) then
        assert !Passes(t, n, id, i);
        Success(true)
      else
        var r := ChildNamed(t, n, id, i + 1);
        assert Passes(t, n, id, i);
        if r.Failure? then
          var k :| i + 1 <= k < |t.nodes[n].loops| && ChildId(t, n, k).None? && forall j :: i + 1 <= j < k ==> Passes(t, n, id, j);
          assert forall j :: i <= j < k ==> Passes(t, n, id, j);
          r
        else if r == Success(true) then
          var k :| i + 1 <= k < |t.nodes[n].loops| && ChildId(t, n, k) == Some(id) && forall j :: i + 1 <= j < k ==> Passes(t, n, id, j);
          assert forall j :: i <= j < k ==> Passes(t, n, id, j);
          r
        else r
  }

  /** getLoopForPrinting(def, idx): the idx-th descendant named after the
      definition, provided some direct child carries that name. */
  function LoopForPrinting(t: Tree, n: nat, id: string, idx: nat): (r: Result<Option<nat>>)
    requires t.Valid() && t.Has(n)
    ensures r.Success? && r.value.Some? ==> (idx < |Filter(t, Desc(t, n), id)| &&
      r.value.value == Filter(t, Desc(t, n), id)[idx] && ChildNamed(t, n, id, 0) == Success(true))
    ensures idx >= |Filter(t, Desc(t, n), id)| ==> r == Success(None)
    ensures ChildNamed(t, n, id, 0) == Success(false) ==> r == Success(None)
    ensures ChildNamed(t, n, id, 0) == Success(true) && idx < |Filter(t, Desc(t, n), id)| ==>
      r == Success(Some(Filter(t, Desc(t, n), id)[idx]))
    ensures r.Failure? ==> r.error == NullPointer && idx < |Filter(t, Desc(t, n), id)|
  {
    var loop := GetLoopByIdIndex(t, n, id, idx);
    if loop.None? then Success(None)
    else
      var named :- ChildNamed(t, n, id, 0);
      if named then Success(loop) else Success(None)
  }

  /** Every loop child of a schema loop's merged children is one of its
      child definitions, hence smaller. */
  lemma MergedLoopSmaller(def: LoopDef, k: nat)
    requires k < |MergedChildren(def)| && MergedChildren(def)[k].PLoop?
    ensures MergedChildren(def)[k].loop < def
  {
    var y := MergedChildren(def)[k];
    assert y in MergedChildren(def);
    var items := ChildItems(def);
    var i :| FirstOfKey(items, i) && items[i] == y;
    var ls := seq(|def.Children()|, j requires 0 <= j < |def.Children()| => PLoop(def.Children()[j]));
    var ss := if def.segments.None? then [] else
      seq(|def.segments.value|, j requires 0 <= j < |def.segments.value| => PSeg(def.segments.value[j]));
    assert items == ls + ss;
    assert y.loop == def.Children()[i];
    assert y.loop in def.Children();
  }

  /** toX12String(def): the definition's child segments and loops in
      Positioned order; for a segment definition the loop's own segments
      with that id, for a loop definition each loop getLoopForPrinting
      yields, written against that definition. */
  function ToX12(t: Tree, n: nat, def: LoopDef): (r: Result<string>)
    requires t.Valid() && t.Has(n)
    ensures r.Failure? ==> r.error == NullPointer
    ensures t.nodes[n].loops == [] ==> r.Success?
    decreases def, 2, 0, 0
  {
    ItemsText(t, n, def, 0)
  }

  function ItemsText(t: Tree, n: nat, def: LoopDef, i: nat): (r: Result<string>)
    requires t.Valid() && t.Has(n) && i <= |MergedChildren(def)|
    ensures r.Failure? ==> r.error == NullPointer
    ensures t.nodes[n].loops == [] ==> r.Success?
    decreases def, 1, |MergedChildren(def)| - i, 0
  {
    if i == |MergedChildren(def)| then Success("")
    else
      var head :- ItemText(t, n, def, i);
      var rest :- ItemsText(t, n, def, i + 1);
      Success(head + rest)
  }

  function ItemText(t: Tree, n: nat, def: LoopDef, i: nat): (r: Result<string>)
    requires t.Valid() && t.Has(n) && i < |MergedChildren(def)|
    ensures r.Failure? ==> r.error == NullPointer
    ensures t.nodes[n].loops == [] ==> r.Success?
    decreases def, 0, |MergedChildren(def)| - i, 1
  {
    match MergedChildren(def)[i]
    case PSeg(sd) => Success(SegmentsText(t, n, sd.xid))
    case PLoop(ld) => LoopsText(t, n, def, i, 0)
  }

  /** The loops printed for the loop definition at merged position i, from
      the idx-th on. */
  function LoopsText(t: Tree, n: nat, def: LoopDef, i: nat, idx: nat): (r: Result<string>)
    requires t.Valid() && t.Has(n) && i < |MergedChildren(def)| && MergedChildren(def)[i].PLoop?
    ensures r.Failure? ==> r.error == NullPointer
    ensures t.nodes[n].loops == [] ==> r == Success("")
    decreases def, 0, |MergedChildren(def)| - i, 0, |Filter(t, Desc(t, n), MergedChildren(def)[i].loop.xid)| - idx
  {
    var ld := MergedChildren(def)[i].loop;
    var next :- LoopForPrinting(t, n, ld.xid, idx);
    if next.None? then Success("")
    else
      MergedLoopSmaller(def, i);
      var text :- ToX12(t, next.value, ld);
      var rest :- LoopsText(t, n, def, i, idx + 1);
      Success(text + rest)
  }

  /** A loop definition none of whose namesakes is a direct child writes
      nothing, even when deeper loops carry the name. */
  lemma NoDirectChildWritesNothing(t: Tree, n: nat, def: LoopDef, i: nat)
    requires t.Valid() && t.Has(n) && i < |MergedChildren(def)| && MergedChildren(def)[i].PLoop?
    requires forall k :: 0 <= k < |t.nodes[n].loops| ==>
      t.nodes[t.nodes[n].loops[k]].id.Some? && t.nodes[t.nodes[n].loops[k]].id != Some(MergedChildren(def)[i].loop.xid)
    ensures ItemText(t, n, def, i) == Success("")
  {
    assert ChildNamed(t, n, MergedChildren(def)[i].loop.xid, 0) == Success(false);
  }

  /** The descendants carrying the id, in pre-order (findLoop). */
  function Namesakes(t: Tree, n: nat, id: string): (r: seq<nat>)
    requires t.Valid() && t.Has(n)
    ensures r == Filter(t, Desc(t, n), id)
    ensures forall k :: 0 <= k < |r| ==> n < r[k] < |t.nodes| && t.nodes[r[k]].id == Some(id)
  {
    var r := Filter(t, Desc(t, n), id);
    assert forall k :: 0 <= k < |r| ==> r[k] in r;
    r
  }

  /** The loops of ms, each written against ld, one after the other. */
  function AllText(t: Tree, ms: seq<nat>, ld: LoopDef): (r: Result<string>)
    requires t.Valid() && forall k :: 0 <= k < |ms| ==> ms[k] < |t.nodes|
  {
    if |ms| == 0 then Success("")
    else
      var head :- ToX12(t, ms[0], ld);
      var rest :- AllText(t, ms[1..], ld);
      Success(head + rest)
  }

  /** Joining a head write to the writes after it, failing with the first
      failure. */
  function AllTextCons(head: Result<string>, rest: Result<string>): (r: Result<string>)
    ensures r.Success? <==> head.Success? && rest.Success?
    ensures r.Success? ==> r.value == head.value + rest.value
  {
    if head.Failure? then Failure(head.error)
    else if rest.Failure? then Failure(rest.error)
    else Success(head.value + rest.value)
  }

  lemma AllTextStep(t: Tree, ms: seq<nat>, ld: LoopDef)
    requires t.Valid() && forall k :: 0 <= k < |ms| ==> ms[k] < |t.nodes|
    requires |ms| > 0
    ensures AllText(t, ms, ld) == AllTextCons(ToX12(t, ms[0], ld), AllText(t, ms[1..], ld))
  {
  }

  /** One step of the loops written for a definition whose name a direct
      child carries: the idx-th namesake, then the rest. */
  lemma LoopsTextStep(t: Tree, n: nat, def: LoopDef, i: nat, idx: nat)
    requires t.Valid() && t.Has(n) && i < |MergedChildren(def)| && MergedChildren(def)[i].PLoop?
    requires ChildNamed(t, n, MergedChildren(def)[i].loop.xid, 0) == Success(true)
    requires idx < |Filter(t, Desc(t, n), MergedChildren(def)[i].loop.xid)|
    ensures LoopsText(t, n, def, i, idx) ==
      AllTextCons(ToX12(t, Namesakes(t, n, MergedChildren(def)[i].loop.xid)[idx], MergedChildren(def)[i].loop),
                  LoopsText(t, n, def, i, idx + 1))
  {
    var ld := MergedChildren(def)[i].loop;
    assert LoopForPrinting(t, n, ld.xid, idx) == Success(Some(Namesakes(t, n, ld.xid)[idx]));
  }

  /** Once a direct child carries the definition's name, what is written
      for it is every descendant carrying the name, in pre-order, each
      written against the definition; deeper namesakes are written here as
      well as under their own parents. */
  lemma {:induction false} LoopsTextIsEveryNamesake(t: Tree, n: nat, def: LoopDef, i: nat, idx: nat)
    requires t.Valid() && t.Has(n) && i < |MergedChildren(def)| && MergedChildren(def)[i].PLoop?
    requires ChildNamed(t, n, MergedChildren(def)[i].loop.xid, 0) == Success(true)
    requires idx <= |Filter(t, Desc(t, n), MergedChildren(def)[i].loop.xid)|
    ensures LoopsText(t, n, def, i, idx) ==
      AllText(t, Namesakes(t, n, MergedChildren(def)[i].loop.xid)[idx..], MergedChildren(def)[i].loop)
    decreases |Filter(t, Desc(t, n), MergedChildren(def)[i].loop.xid)| - idx
  {
    var ld := MergedChildren(def)[i].loop;
    var found := Namesakes(t, n, ld.xid);
    if idx < |found| {
      var tail := found[idx..];
      assert tail[0] == found[idx] && tail[1..] == found[idx + 1..];
      LoopsTextIsEveryNamesake(t, n, def, i, idx + 1);
      LoopsTextStep(t, n, def, i, idx);
      AllTextStep(t, tail, ld);
    } else {
      assert LoopForPrinting(t, n, ld.xid, idx) == Success(None);
      assert found[idx..] == [];
    }
  }

  /** A definition with one segment definition and no loop definitions
      writes exactly the loop's own segments with that id. */
  lemma SingleSegmentDefinition(t: Tree, n: nat, def: LoopDef, sd: SegmentDef)
    requires t.Valid() && t.Has(n)
    requires def.segments == Some([sd]) && def.Children() == []
    ensures ToX12(t, n, def) == Success(SegmentsText(t, n, sd.xid))
  {
    var x := PSeg(sd);
    assert ChildItems(def) == [x];
    assert [x][1..] == [];
    assert AddAll([], [x]) == AddAll(Insert([], x), []) == [x];
    assert MergedChildren(def) == [x];
    assert ItemsText(t, n, def, 1) == Success("");
    assert ItemText(t, n, def, 0) == Success(SegmentsText(t, n, sd.xid));
    assert ItemsText(t, n, def, 0) == Success(SegmentsText(t, n, sd.xid) + "");
    assert SegmentsText(t, n, sd.xid) + "" == SegmentsText(t, n, sd.xid);
  }

  /** With no line break, a loop all of whose own segments carry the id
      writes them exactly as toString does. */
  lemma SegmentsTextAllNamed(t: Tree, n: nat, id: string)
    requires t.Has(n) && t.nodes[n].separators.lineBreak == NONE
    requires forall k :: 0 <= k < |t.nodes[n].segments| ==> t.nodes[n].segments[k].id == Some(id)
    ensures SegmentsText(t, n, id) == OwnText(t, n)
  {
    AllNamedKept(t.nodes[n].segments, id);
    assert Terminator(t.nodes[n].separators) == CharOrNull(t.nodes[n].separators.segment);
  }

  lemma {:induction false} AllNamedKept(ss: seq<Segment>, id: string)
    requires forall k :: 0 <= k < |ss| ==> ss[k].id == Some(id)
    ensures SegmentsWithId(ss, id) == ss
  {
    if |ss| > 0 {
      AllNamedKept(ss[1..], id);
    }
  }

  // ---------------------------------------------------------------------------
  // X12Writer

  /** An X12Writer: the document's top-level loops, the schema's root loop
      definition, the writer's separators (none when the reader had none),
      and whether those are the very separators the loops write with, as
      when the writer is built from a reader. */
  datatype Writer = Writer(tree: Tree, loops: seq<nat>, definition: LoopDef, separators: Option<Separators>, shared: bool)
  {
    predicate Valid() {
      tree.Valid() && forall k :: 0 <= k < |loops| ==> loops[k] < |tree.nodes|
    }
  }

  /** X12Writer(fileType, loops, separators). */
  function WithSeparators(tree: Tree, loops: seq<nat>, definition: LoopDef, separators: Separators): (w: Writer)
    ensures w.separators == Some(separators) && !w.shared && w.loops == loops && w.tree == tree && w.definition == definition
  {
    Writer(tree, loops, definition, Some(separators), false)
  }

  /** X12Writer(fileType, loops): the default separators. */
  function WithDefaults(tree: Tree, loops: seq<nat>, definition: LoopDef): (w: Writer)
    ensures w.separators == Some(Default()) && !w.shared && w.loops == loops && w.tree == tree && w.definition == definition
  {
    Writer(tree, loops, definition, Some(Default()), false)
  }

  /** X12Writer(reader): the reader's loops, definition and separators, the
      last shared with every loop the reader built. */
  function FromReader(tree: Tree, loops: seq<nat>, definition: LoopDef, separators: Option<Separators>): (w: Writer)
    ensures w.separators == separators && w.shared && w.loops == loops && w.tree == tree && w.definition == definition
  {
    Writer(tree, loops, definition, separators, true)
  }

  /** Every loop's line break set to lb, nothing else changed: what setting
      the line break on separators shared by all loops does. */
  function Relined(t: Tree, lb: LineBreak): (r: Tree)
    ensures |r.nodes| == |t.nodes|
    ensures forall m :: 0 <= m < |t.nodes| ==> r.nodes[m] == t.nodes[m].(separators := t.nodes[m].separators.(lineBreak := lb))
    ensures t.Valid() ==> r.Valid()
  {
    Tree(seq(|t.nodes|, m requires 0 <= m < |t.nodes| => t.nodes[m].(separators := t.nodes[m].separators.(lineBreak := lb))))
  }

  /** The tree the writer writes when the line break is lb. */
  function WriteTree(w: Writer, lb: LineBreak): (r: Tree)
    requires w.Valid()
    ensures r.Valid() && |r.nodes| == |w.tree.nodes|
    ensures !w.shared ==> r == w.tree
  {
    if w.shared then Relined(w.tree, lb) else w.tree
  }

  /** The top-level loops from k on, each written and followed by the line
      break. */
  function LoopsOut(t: Tree, loops: seq<nat>, def: LoopDef, lb: LineBreak): (r: Result<string>)
    requires t.Valid() && forall k :: 0 <= k < |loops| ==> loops[k] < |t.nodes|
    ensures r.Success? <==> forall k :: 0 <= k < |loops| ==> ToX12(t, loops[k], def).Success?
    ensures r.Failure? ==> r.error == NullPointer
    ensures |loops| == 1 && r.Success? ==> r.value == ToX12(t, loops[0], def).value + lb.Text()
  {
    if |loops| == 0 then Success("")
    else
      var head := ToX12(t, loops[0], def);
      if head.Failure? then Failure(head.error)
      else
        var rest := LoopsOut(t, loops[1..], def, lb);
        if rest.Failure? then Failure(rest.error) else Success(head.value + lb.Text() + rest.value)
  }

  /** Writing two runs of loops one after the other writes the first run,
      then the second. */
  lemma {:induction false} LoopsOutAppend(t: Tree, a: seq<nat>, b: seq<nat>, def: LoopDef, lb: LineBreak)
    requires t.Valid() && (forall k :: 0 <= k < |a| ==> a[k] < |t.nodes|) && (forall k :: 0 <= k < |b| ==> b[k] < |t.nodes|)
    requires LoopsOut(t, a, def, lb).Success? && LoopsOut(t, b, def, lb).Success?
    ensures LoopsOut(t, a + b, def, lb) == Success(LoopsOut(t, a, def, lb).value + LoopsOut(t, b, def, lb).value)
  {
    if |a| == 0 {
      assert a + b == b;
      assert LoopsOut(t, a, def, lb) == Success("");
      assert "" + LoopsOut(t, b, def, lb).value == LoopsOut(t, b, def, lb).value;
    } else {
      var ab := a + b;
      assert ab[1..] == a[1..] + b;
      assert ab[0] == a[0];
      assert forall k :: 0 <= k < |ab| ==> ab[k] < |t.nodes|;
      var head := ToX12(t, a[0], def);
      assert head.Success?;
      assert LoopsOut(t, a[1..], def, lb).Success?;
      LoopsOutAppend(t, a[1..], b, def, lb);
      var x, y, z := head.value + lb.Text(), LoopsOut(t, a[1..], def, lb).value, LoopsOut(t, b, def, lb).value;
      assert LoopsOut(t, a, def, lb) == Success(x + y);
      assert LoopsOut(t, a + b, def, lb) == Success(x + (y + z));
      assert x + (y + z) == (x + y) + z;
    }
  }

  /** toX12String(lineBreak): the line break is set on the writer's
      separators (and so on the loops' when they share them), then every
      top-level loop is written followed by it. Without separators the call
      throws. */
  function ToX12StringWith(w: Writer, lb: LineBreak): (r: Result<string>)
    requires w.Valid()
    ensures w.separators.None? ==> r == Failure(NullPointer)
    ensures w.separators.Some? ==> r == LoopsOut(WriteTree(w, lb), w.loops, w.definition, lb)
    ensures w.separators.Some? && |w.loops| == 0 ==> r == Success("")
    ensures w.separators.Some? && |w.loops| > 0 ==>
      var head := ToX12(WriteTree(w, lb), w.loops[0], w.definition);
      (head.Failure? ==> r.Failure?) &&
      (r.Success? ==> head.Success? && head.value + lb.Text() <= r.value)
  {
    if w.separators.None? then Failure(NullPointer)
    else LoopsOut(WriteTree(w, lb), w.loops, w.definition, lb)
  }

  /** toX12String(): no line break. */
  function ToX12String(w: Writer): (r: Result<string>)
    requires w.Valid()
    ensures r == ToX12StringWith(w, NONE)
  {
    ToX12StringWith(w, NONE)
  }

  /** A writer over one transaction, with no line break, writes exactly that
      transaction's loop. */
  lemma SingleTransaction(w: Writer)
    requires w.Valid() && w.separators.Some? && |w.loops| == 1
    requires ToX12(WriteTree(w, NONE), w.loops[0], w.definition).Success?
    ensures ToX12String(w) == ToX12(WriteTree(w, NONE), w.loops[0], w.definition)
  {
    var t := WriteTree(w, NONE);
    assert w.loops[1..] == [];
    assert LoopsOut(t, w.loops[1..], w.definition, NONE) == Success("");
    assert NONE.Text() == "";
    var h := ToX12(t, w.loops[0], w.definition).value;
    assert LoopsOut(t, w.loops, w.definition, NONE) == Success(h + NONE.Text() + "");
    assert h + "" + "" == h;
  }

  /** The writer's output for a document is the output for its first
      transactions followed by the output for the rest. */
  lemma SplitDocument(w: Writer, k: nat, lb: LineBreak)
    requires w.Valid() && w.separators.Some? && k <= |w.loops|
    requires LoopsOut(WriteTree(w, lb), w.loops[..k], w.definition, lb).Success?
    requires LoopsOut(WriteTree(w, lb), w.loops[k..], w.definition, lb).Success?
    ensures ToX12StringWith(w, lb) == Success(LoopsOut(WriteTree(w, lb), w.loops[..k], w.definition, lb).value +
                                              LoopsOut(WriteTree(w, lb), w.loops[k..], w.definition, lb).value)
  {
    assert w.loops == w.loops[..k] + w.loops[k..];
    LoopsOutAppend(WriteTree(w, lb), w.loops[..k], w.loops[k..], w.definition, lb);
  }
}
